=== FILE: README.md ===
# Counting automata for tri-automatic sequences — a Dafny model

This project models the construction pipeline of the `abcomp` tools, which take
automata written in Walnut's text format and turn them into weighted automata over
the rationals. It follows `walnut.hh` and the `gmpq` weightset (`gmpq.hh`), and the
plotting scripts `drawtri.py` and `drawvectortri.py`:

- a Walnut DFA file is read into one transition table per state, and every label
  tuple is interned in a `LabelMapper` (`dfa_from_walnut`);
- `dfa_count` projects the labels onto chosen components and builds a weighted
  automaton. It counts parallel transitions and takes its initial weights from a
  fixed point of the zero-letter transitions;
- recipes rework such automata: `remap_labels`, `opposite_here`, `prefix_absorb`
  and `modify_transitions`;
- exporters print them: `show_matrix` gives the linear representation (λ, μ, ρ),
  and `to_walnut` writes the automaton back in Walnut's format, using `pretty`;
- the Python side builds the tribonacci place values (`trins`) and the greedy
  representation `repr` with its inverse `val`, pairs two numbers with `repair`,
  reads a DFA with its own `dfa_from_walnut`, runs it with `value`, and sums
  windows of values with `vvalue`.

Modules, one file each:

- `Results`: error kinds and the `Result`/`Option` wrappers.
- `NumberTheory`: gcd, Bézout and Euclid's lemma.
- `Rationals`: `mpq_class` as canonical fractions, with the field operations proved
  through the embedding into `real`.
- `Gmpq`: the weightset operations.
- `Text`: C++ `>>`, `std::stoi`, `std::string::find("->")`, and Python's `strip`,
  `split` and `int`.
- `Lex`: `operator<` on `std::vector<int>`, and `std::map` as a sorted association
  list.
- `Labels`: `LabelMapper`.
- `WalnutParser`: the C++ reader.
- `Automata`: the weighted automaton, awali's `add_transition`, and the word
  semantics `Eval`.
- `Counting`: `dfa_count`.
- `Recipes`: the recipes listed above.
- `LinearRep`: `show_matrix`.
- `Export`: `pretty` and `to_walnut`, with the round trip through the C++ reader.
- `Tribonacci`: `trins`, `val`, `repr` and `repair`.
- `PyDfa`: the Python reader, `value` and `vvalue`.

An automaton has states `0 .. n-1`. Its initial and final weights are maps that store
no zero. Its transitions form a list with at most one transition per
(source, label, destination) and no zero weight, which is what awali's
`add_transition` maintains (`Automata.AddTransition`). Integers are unbounded. Two
fixed-width spots of the source are written out: `conv(n, v)` casts to a 32-bit `int`
(`Gmpq.ConvNat`), and the scripts use exactly 100 place values (`Tribonacci.Count`).
The C++ reader's `int` fields are not bounded in the model (see "Left out").

## Model

| member | source | states |
|---|---|---|
| Labels.Get | section3/src/walnut.hh:51-60 | `get` returns the stored code of a known tuple and leaves the mapper unchanged; a new tuple gets code `size()` and is appended. Either way `operator[]` of the code gives the tuple back and earlier codes stay. |
| Labels.GetIdempotent | section3/src/walnut.hh:51-60 | A second `get` of the same tuple returns the same code and changes nothing. |
| Labels.GetInjective | section3/src/walnut.hh:51-60 | Two different tuples get different codes, and the first code still names its tuple after the second `get`. |
| Labels.InternAll | section3/src/walnut.hh:51-60 | Interning a list of tuples keeps the mapper valid and grows its key set by exactly the tuples of the list. |
| Labels.InternAllKnown | section3/src/walnut.hh:51-60 | Interning tuples that are all known leaves the mapper unchanged. |
| Labels.CodesInjective | section3/src/walnut.hh:46-49 | In a valid mapper `to_int` is one-to-one. |
| Labels.LabelsSet | section3/src/walnut.hh:70-75 | `labels_set()` is exactly `{0, ..., size()-1}`. |
| Labels.LabelsSetIsCodes | section3/src/walnut.hh:70-75 | `labels_set()` is exactly the set of codes the mapper has handed out. |
| Labels.SortBy | section3/src/walnut.hh:80-82 | Sorting codes by their tuples gives a permutation of the input in strictly increasing tuple order. |
| Labels.Labels | section3/src/walnut.hh:77-84 | `labels()` is a permutation of `0 .. size()-1`, sorted by `operator<` on the tuples. |
| Labels.LabelsPermutation | section3/src/walnut.hh:77-84 | `labels()` lists every code of `labels_set()` exactly once, and nothing else. |
| Lex.LexIrreflexive | section3/src/walnut.hh:80-82 | `operator<` on vectors is irreflexive. |
| Lex.LexTransitive | section3/src/walnut.hh:80-82 | `operator<` on vectors is transitive. |
| Lex.LexTotal | section3/src/walnut.hh:80-82 | Any two distinct vectors are ordered one way or the other. |
| Lex.LexAsymmetric | section3/src/walnut.hh:80-82 | `operator<` on vectors is asymmetric. |
| Lex.Lookup | section3/src/walnut.hh:132 | `find` succeeds exactly for the keys of the table, and returns a value stored under that key. |
| Lex.LookupAt | section3/src/walnut.hh:132 | In a key-ordered table, `find` of an entry's key returns that entry's value. |
| Lex.Put | section3/src/walnut.hh:132 | `m[k] = v` keeps the table in key order and adds `k` to its keys. |
| Lex.PutLookup | section3/src/walnut.hh:132 | The map laws of assignment: `k` then reads `v`, and every other key reads as before. |
| Text.ExtractIntOfString | section3/src/walnut.hh:116 | `>>` reads back the decimal text of any integer and stops at the first non-digit. The model does not bound the integer to the `int` range. |
| Text.ExtractIntFails | section3/src/walnut.hh:129-130 | A field starting with neither blank, sign nor digit fails the extraction, which ends the `while (left_ss >> val)` loop. |
| Text.ExtractIntAfterSpace | section3/src/walnut.hh:116 | Leading blanks do not change what `>>` reads. |
| Text.Stoi | section3/src/walnut.hh:131 | `std::stoi` fails exactly when no integer can be read from the text, and then always with `invalid_argument`. Otherwise it returns what `>>` reads. Out-of-range values are not modelled. |
| Text.StoiOfString | section3/src/walnut.hh:131 | `std::stoi` reads back the decimal text of any integer, after any run of white space and before any text that does not start with a digit. |
| Text.StoiFails | section3/src/walnut.hh:131 | `std::stoi` throws `invalid_argument` when, after the white space, the text is empty, starts with neither sign nor digit, or has a sign without a digit after it. |
| Text.ExtractIntAfterBlanks | section3/src/walnut.hh:116 | Any run of white space before a field does not change what `>>` reads. |
| Text.FindArrow | section3/src/walnut.hh:108 | `find("->")` returns the first position of an arrow, and none when the line has no arrow. |
| Text.PyIntOfString | section3/script/drawtri.py:70-74 | Python's `int` reads back the decimal text of any integer. |
| Text.SplitWords | section3/script/drawtri.py:69 | `split()` yields only non-empty words. |
| WalnutParser.Flush | section3/src/walnut.hh:110-111 | Storing the pending table puts it at `trans[current_state]` and leaves every other table and all outputs unchanged. |
| WalnutParser.StartState | section3/src/walnut.hh:110-122 | A state line for `q` with output `o` does four things. It stores the pending table and makes `q` current with an empty table. It grows `out` and `trans` to `q + 1` entries, padding with zeros and empty tables. It sets `out[q] = o` and leaves every other entry alone. |
| WalnutParser.StateFields | section3/src/walnut.hh:114-116 | Where `>> q >> o` leaves the C++ undefined (no first integer, a negative one, or no second field), the model reports `Malformed`. On success the state is the integer `>>` reads first. |
| WalnutParser.StateFieldsOfText | section3/src/walnut.hh:114-116 | The line `q o`, both written in decimal, is read as state `q` with output `o`, for every `q >= 0` and every `o`. |
| WalnutParser.StateLine | section3/src/walnut.hh:109-122 | For a line without an arrow whose first field is not a non-negative integer, the C++ is undefined and the model reports `Malformed`. Otherwise the state it reads becomes current, with an empty pending table. |
| WalnutParser.StateLineOfText | section3/src/walnut.hh:109-122 | Reading the line `q o` stores the pending table and starts state `q` with output `o`, as `StartState` describes. |
| WalnutParser.ArrowLine | section3/src/walnut.hh:123-134 | An arrow line succeeds exactly when `stoi` reads the target. The integers before the arrow become the label, which is mapped to the target in the pending table and interned. Tables, outputs and the current state are unchanged. |
| WalnutParser.ParseLine | section3/src/walnut.hh:103-135 | An empty line changes nothing. Any successful line keeps the reader consistent and never shrinks what has been read. |
| WalnutParser.DfaFromWalnut | section3/src/walnut.hh:87-139 | An empty file changes nothing. Otherwise the lines after the first are parsed, and the result fails exactly when that parse fails. On success the last pending table is stored under the current state. The mapper stays valid, every table is in key order and uses only interned labels, and the `trans`, `out` and mapper passed in only grow. |
| WalnutParser.HeaderIgnored | section3/src/walnut.hh:101-102 | The first line is read and discarded: replacing it by any other line gives the same result. |
| Automata.AddTransition | section3/src/walnut.hh:180 | Adding a transition adds its weight to the weight of its key. Every other key keeps its weight, and the store keeps one transition per key and no zero weight. |
| Automata.AddAllWeight | section3/src/walnut.hh:174-182 | After a run of `add_transition` calls, each key weighs its old weight plus the sum of the weights added under it. |
| Automata.SumIsWeight | section3/src/walnut.hh:174-182 | Without duplicate keys, summing over the list gives the stored weight. |
| Automata.AddAllFresh | section3/src/walnut.hh:231 | Adding transitions with new keys and nonzero weights just appends them. |
| Automata.SetWeight | section3/src/walnut.hh:436-440 | `set_initial(q, w)` stores `w` at `q`, removes `q` when `w` is zero, and leaves every other state alone. |
| Automata.DenseSparse | section3/src/walnut.hh:324-329 | A weight vector turned into a map and back is unchanged. |
| Automata.SparseDense | section3/src/walnut.hh:324-329 | A weight map without zeros turned into a vector and back is unchanged. |
| Automata.ForwardConcat | section3/src/walnut.hh:421-433 | Reading `u` and then `w` moves the mass as reading `u + w` does. |
| Automata.StepNoMatch | section3/src/walnut.hh:423-431 | A letter that no transition carries sends all mass to zero. |
| Counting.Project | section3/src/walnut.hh:155-157 | The projection of a tuple holds its components `vars`, in the order of `vars`. |
| Counting.RawEdges | section3/src/walnut.hh:174-175 | The loop over the tables visits exactly the (state, tuple, target) triples the tables hold, as many of them as the tables have entries. |
| Counting.RawEdgesAt | section3/src/walnut.hh:174-175 | Entry `i` of table `q` is visited at its own position, after all entries of earlier tables. With the count, each entry is visited exactly once. |
| Counting.ProjMap | section3/src/walnut.hh:152-159 | The projection mapper is valid and knows the projected, remapped tuple of every label in the hash map's iteration order. |
| Counting.Edges | section3/src/walnut.hh:176-180 | Each DFA transition yields a weight-one transition between the same states. Its label is the code the final projection mapper gives the projected, remapped tuple. |
| Counting.Settle | section3/src/walnut.hh:186-197 | When the `while (cur != nxt)` loop stops, the mass it returns is a fixed point of one propagation round. |
| Counting.SettleFirst | section3/src/walnut.hh:189-197 | The loop returns the first fixed point it meets; more rounds allowed change nothing. |
| Counting.FinalWeights | section3/src/walnut.hh:170-172 | The final weight of state `i` is `out[i]` when that is positive, and zero otherwise. |
| Counting.InitialWeights | section3/src/walnut.hh:199-200 | The initial weight of a state is its settled mass, and zero for a state without mass. |
| Counting.CountTransitions | section3/src/walnut.hh:174-182 | The merged transitions join the automaton's states. Each key weighs the sum of the weight-one edges added under it. |
| Counting.DfaCount | section3/src/walnut.hh:141-203 | On success the automaton has one state per output, is well formed, has the final weights of `out` and the merged transitions, and comes with a valid projection mapper. |
| Counting.CountTransitionsWeights | section3/src/walnut.hh:174-182 | Every merged weight is the whole number of DFA transitions that map onto its key. |
| Counting.DfaCountWeights | section3/src/walnut.hh:174-182 | In the automaton `dfa_count` returns, each key weighs the number of DFA transitions with the same states whose projected, remapped label has that code. |
| Counting.DfaCountSettles | section3/src/walnut.hh:186-202 | `dfa_count` fails exactly as the fixed-point loop from `{0: 1}` fails. Otherwise its initial weights are the settled mass. |
| Counting.DfaCountNoZeroEdge | section3/src/walnut.hh:184-200 | If no transition out of state 0 projects and remaps to the all-zero tuple, `dfa_count` succeeds and returns no initial weight at all. |
| Counting.SettleDiverges | section3/src/walnut.hh:189-197 | A zero-letter loop on state 0 of weight at least two keeps the mass of state 0 growing, so the loop never stops. |
| Counting.DfaCountDiverges | section3/src/walnut.hh:184-197 | Suppose two transitions from state 0 to itself both project and remap to the all-zero tuple. Then they merge into a zero-letter loop of weight two, and the fixed-point loop never ends, whatever bound is put on its rounds. |
| Recipes.OppositeHere | section3/src/walnut.hh:237-243 | `opposite_here` negates every initial weight and keeps the states, the initial states, the final weights and the transitions. |
| Recipes.OppositeInvolution | section3/src/walnut.hh:237-243 | Applying `opposite_here` twice restores the automaton. |
| Recipes.OppositeEval | section3/src/walnut.hh:237-243 | The negated automaton gives every word the opposite weight. |
| Recipes.PrefixAbsorb | section3/src/walnut.hh:401-444 | For a word `u` of letters, the new initial weights are the mass reached by reading `u` from the old initial weights. States, transitions and final weights are kept. |
| Recipes.PrefixAbsorbEmpty | section3/src/walnut.hh:401-444 | Absorbing the empty word changes nothing. |
| Recipes.PrefixAbsorbEval | section3/src/walnut.hh:401-444 | The absorbed automaton weighs `w` as the original weighs `u + w`. |
| Recipes.PrefixAbsorbConcat | section3/src/walnut.hh:401-444 | Absorbing `u` and then `v` is absorbing `u + v`. |
| Recipes.PrefixAbsorbNoMatch | section3/src/walnut.hh:421-441 | If some letter of the word `u` is on no transition, the mass collapses and no initial weight is left. Words holding the label of the transition to `post()` are not covered (see "Left out"). |
| Recipes.RemapLabels | section3/src/walnut.hh:205-235 | The copy keeps states, initial and final weights. The mapper grows by exactly the reordered tuples. Each new key weighs the sum of the relabelled transitions under it. |
| Recipes.RemapIdentity | section3/src/walnut.hh:205-235 | Remapping with the identity gives back the automaton and the mapper. |
| Recipes.RemapWeights | section3/src/walnut.hh:227-232 | When `reorder` is one-to-one on the mapper's tuples, every transition keeps its weight under its new label. |
| Recipes.InsertLetter | section3/src/walnut.hh:463 | `qlab.insert(a)` keeps the label set ascending and adds exactly `a`. |
| Recipes.LabelSet | section3/src/walnut.hh:453-467 | `qlab` holds `z` and the labels of the removed transitions, ascending. |
| Recipes.LabelSetOfState | section3/src/walnut.hh:453-467 | A label is in `qlab` exactly when it is `z`, labels some transition out of the state, or is the special label of the transition to `post()` of a final state. |
| Recipes.ModifyStateWeight | section3/src/walnut.hh:451-474 | Processing state `q` gives it the weights `Modified` describes and keeps every other state's weights. |
| Recipes.ModifiedUntouched | section3/src/walnut.hh:451-474 | Processing one state does not change what `Modified` says about any other state. |
| Recipes.ModifyTransitions | section3/src/walnut.hh:446-475 | After the loop, each state's `z` transitions count twice under `z` and once under each other label it had. A final state's `z` transitions also count once under the special label of its transition to `post()`. Every other transition is gone. Every final weight is zero. States and initial weights stay. |
| Recipes.ModifyFinalSpecial | section3/src/walnut.hh:455-469 | For a final state, the transitions under the special label carry the weights of its `z` transitions. A state that is not final and had no special-label transition gets none. |
| Recipes.ModifyWithoutZ | section3/src/walnut.hh:451-474 | A state with no `z` transition loses all its outgoing weight. |
| LinearRep.AssignedIsWeight | section3/src/walnut.hh:330-337 | Without parallel transitions, the last weight assigned to a matrix entry is the transition's weight. |
| LinearRep.Alphabet | section3/src/walnut.hh:330-334 | The keys of `letter_matrix_set` are the labels on some transition, in increasing order. |
| LinearRep.Matrix | section3/src/walnut.hh:362-377 | Each matrix is `dimension × dimension`. An entry holds the weight last assigned to its key, zero when there is none. |
| LinearRep.Mu | section3/src/walnut.hh:354-381 | There is one μ block per occurring label, in increasing code order. Each block is named by `al[label]` and is the matrix of its label. |
| LinearRep.MuValues | section3/src/walnut.hh:362-377 | The values listed for the μ blocks are exactly their entries. |
| LinearRep.MinOf | section3/src/walnut.hh:343-371 | `damin` is at most its start and every value, and is one of them. |
| LinearRep.MaxOf | section3/src/walnut.hh:344-371 | `damax` is at least its start and every value, and is one of them. |
| LinearRep.ShowMatrix | section3/src/walnut.hh:298-399 | Nothing is produced exactly when there are no states. A failure is only the `check_int` assertion. Otherwise λ and ρ are the initial and final weights, μ is the list of blocks, `damin ≤ 0` and `damax ≥ 0`. |
| LinearRep.MuEntries | section3/src/walnut.hh:362-377 | Each μ block is `dimension × dimension`. Its entry `[i][j]` is the weight of the transition `i --c--> j`, zero when there is none. |
| LinearRep.MuCovers | section3/src/walnut.hh:330-354 | There is a μ block for exactly the labels that occur on some transition. |
| LinearRep.ValuesCarried | section3/src/walnut.hh:341-394 | Every value `show_matrix` inspects is zero or a weight of the automaton. |
| LinearRep.WeightsListed | section3/src/walnut.hh:341-394 | Every initial, transition and final weight is among the inspected values. |
| LinearRep.ValuesIntegral | section3/src/walnut.hh:346-390 | Some inspected value has a denominator other than one exactly when some weight does. |
| LinearRep.ShowMatrixErr | section3/src/walnut.hh:346-390 | With asserts on, `show_matrix` aborts exactly when there are states, `check_int` is set and some inspected value is not an integer. |
| LinearRep.ShowMatrixFails | section3/src/walnut.hh:322-390 | With `check_int`, `show_matrix` aborts exactly when the automaton has states and some initial, transition or final weight is not an integer. |
| LinearRep.ShowMatrixBounds | section3/src/walnut.hh:397-398 | The printed `min` is at most every weight and `max` is at least every weight. Each is zero or a weight the automaton carries. |
| Export.PrettyNoGt | section3/src/walnut.hh:245-252 | `pretty(v)` contains no `>`, so it cannot contain an arrow. |
| Export.PrettyReads | section3/src/walnut.hh:245-252 | Reading integers with `>>` from `pretty(v)` followed by text that starts with a blank gives `v`, then whatever that text holds. |
| Export.PrettyRoundTrip | section3/src/walnut.hh:245-252 | `>>` reads `pretty(v)` back as `v`. |
| Export.PrettyThenBlank | section3/src/walnut.hh:284 | The blank `to_walnut` writes after `pretty(...)` adds nothing to what `>>` reads. |
| Export.Ordered | section3/src/walnut.hh:261-267 | `ordered` lists `q0` first, then every other state in increasing order, each state once. |
| Export.Position | section3/src/walnut.hh:283 | `std::find` returns the first position of the state in `ordered`. |
| Export.PositionOrdered | section3/src/walnut.hh:261-283 | The position of the state listed at `i` is `i`. |
| Export.Out | section3/src/walnut.hh:282 | `out(q, a)` holds exactly the transitions of `q` labelled `a`. |
| Export.EdgesOf | section3/src/walnut.hh:281-285 | Every pair written for a state carries the tuple of one of the labels iterated over. |
| Export.ToWalnut | section3/src/walnut.hh:269-273 | The header line names `ns` once per component of `al[0]`, and is empty when that tuple is empty. |
| Export.EdgeLineParses | section3/src/walnut.hh:284 | A transition line has its first arrow right after the label. `>>` reads the label tuple back from the text before the arrow, and `stoi` reads the target back from the text after it. |
| Export.StateTextParses | section3/src/walnut.hh:279 | A state line has no arrow. `>> q >> o` reads it as the position and the numerator of the final weight. |
| Export.BlockParses | section3/src/walnut.hh:277-286 | One state block makes that state current with its outputs set. The block's pairs are then pending, later lines overwriting earlier ones. |
| Export.BlocksParse | section3/src/walnut.hh:277-286 | Reading the blocks of the first `m` positions succeeds and holds their tables and outputs. |
| Export.ToWalnutRoundTrip | section3/src/walnut.hh:254-287 | `dfa_from_walnut` reads the text `to_walnut` writes back as one state per position. The output is the numerator of that state's final weight. The table holds the written tuples and target positions, a later line for the same tuple overwriting an earlier one. |
| Export.PutAllLookup | section3/src/walnut.hh:132 | Assigning the pairs in order leaves under each key the last value written for it. |
| Export.LastForEdges | section3/src/walnut.hh:281-285 | Among the pairs written for a state, the last one under the tuple of code `c` comes from the last transition labelled `c`. |
| Export.ToWalnutTransitions | section3/src/walnut.hh:254-287 | Read back, the table at position `s` maps each label's tuple to the position of the target of the last transition on that label out of the state listed at `s`. It holds no other tuple. |
| Gmpq.AddLaws | section3/src/gmpq.hh:28-38 | `add` is commutative and associative, with `zero()` as its unit. |
| Gmpq.AddInts | section3/src/gmpq.hh:152-154 | `conv(int)` turns integer addition into rational addition, and maps 0 and 1 to `zero()` and `one()`. |
| Gmpq.MulLaws | section3/src/gmpq.hh:28-46 | `mul` is commutative and associative, with `one()` as its unit and `zero()` absorbing. |
| Gmpq.Distributes | section3/src/gmpq.hh:36-46 | `mul` distributes over `add` on both sides. |
| Gmpq.SubLaws | section3/src/gmpq.hh:36-42 | `sub` undoes `add`, equals adding the negation, and every value has an additive inverse. |
| Gmpq.NegLaws | section3/src/gmpq.hh:36-46 | Negation distributes over `add` and commutes with `mul`. |
| Gmpq.RDiv | section3/src/gmpq.hh:48-51 | `rdiv(l, r)` raises `domain_error("gmpq: division by zero")` exactly when `r` is zero. Otherwise the quotient times `r` is `l`. |
| Gmpq.LDiv | section3/src/gmpq.hh:53-55 | `ldiv(l, r)` fails exactly when `l` is zero. Otherwise the quotient times `l` is `r`. |
| Gmpq.RDivOfMul | section3/src/gmpq.hh:48-51 | Dividing `a * b` by a nonzero `b` gives back `a`. |
| Gmpq.Abs | section3/src/gmpq.hh:85-87 | `abs(v)` is not negative, is `v` or `-v`, and is `v` when `v` is not negative. |
| Gmpq.Star | section3/src/gmpq.hh:57-61 | `star(v)` is defined exactly when the absolute value of `v` is below 1, and raises the named domain error otherwise. When defined, it times `1 - v` is 1. |
| Gmpq.Plus | section3/src/gmpq.hh:63-67 | `plus(v)` is defined exactly when the absolute value of `v` is below 1, and raises the named domain error otherwise. When defined, it times `1 - v` is `v`. |
| Gmpq.PlusIsStarMinusOne | section3/src/gmpq.hh:57-67 | `plus` and `star` have the same domain, and on it `plus(v) = star(v) - 1`. |
| Gmpq.StarEquation | section3/src/gmpq.hh:57-61 | `star(v) = 1 + v * star(v)`, the Kleene equation. |
| Gmpq.ConvInt | section3/src/gmpq.hh:99-103 | `conv(z, v)` is `v/1`. |
| Gmpq.ConvBool | section3/src/gmpq.hh:156-158 | `conv(bool)` maps true to `one()` and false to `zero()`. |
| Gmpq.ConvNat | section3/src/gmpq.hh:105-109 | `conv(n, v)` casts the unsigned value to a 32-bit `int`, so the result is `v` or `v - 2^32`, within the `int` range. |
| Gmpq.ConvNatAgrees | section3/src/gmpq.hh:105-109 | Below 2^31 `conv(n, v)` agrees with `conv(z, v)`. From 2^31 on, the wrap-around makes it negative. |
| Gmpq.Print | section3/src/gmpq.hh:124-140 | Integral values print as their numerator in json and latex. Otherwise json prints `{"num":n,"den":d}` and latex prints `\frac{n}{d}`. Any other format prints GMP's `n/d` text. |
| Gmpq.PrintDecodes | section3/src/gmpq.hh:124-140 | In every format the printed text determines the value. |
| Gmpq.PrintSet | section3/src/gmpq.hh:142-150 | `print_set` succeeds exactly for latex and text, giving `\mathbb{Q}` and `Q`. Any other format raises `runtime_error("gmpq: invalid format: " + format)`. |
| Rationals.Normalize | section3/src/gmpq.hh:17 | An `mpq_class` is kept canonical. The fraction `n/d` becomes a canonical value with the same ratio, zero exactly when `n` is, and positive exactly when `n` and `d` have the same sign. |
| Rationals.NormalizeCanonical | section3/src/gmpq.hh:17 | Canonicalising any multiple of a canonical fraction gives the fraction itself. |
| Rationals.Unique | section3/src/gmpq.hh:77-79 | Two canonical fractions with the same ratio are equal, so `equals` is value equality. |
| Rationals.Add | section3/src/gmpq.hh:36-38 | `l + r` has the real value of the sum. |
| Rationals.Sub | section3/src/gmpq.hh:40-42 | `l - r` has the real value of the difference. |
| Rationals.Mul | section3/src/gmpq.hh:44-46 | `l * r` has the real value of the product. |
| Rationals.Div | section3/src/gmpq.hh:48-51 | `l / r` for a nonzero `r` has the real value of the quotient. |
| Rationals.LessReal | section3/src/gmpq.hh:81-83 | `less_than` is the order of the real values. |
| Rationals.ZeroIff | section3/src/gmpq.hh:69-71 | `is_zero` holds exactly for the value with numerator 0. |
| Tribonacci.Trins | section3/script/drawtri.py:18-23 | The loop builds 100 place values, starting 1, 2, 4, and the `i`-th entry is the `i`-th tribonacci place value. |
| Tribonacci.TribPrefix | section3/script/drawtri.py:18-23 | The place-value list obeys `t[i] = t[i-3] + t[i-2] + t[i-1]` and is strictly increasing. |
| Tribonacci.LeadingZero | section3/script/drawtri.py:25-26 | A leading zero does not change `val`. |
| Tribonacci.ZerosPadding | section3/script/drawtri.py:25-26 | Left padding with zeros does not change `val`. |
| Tribonacci.ValCons | section3/script/drawtri.py:25-26 | For lists shorter than 100, `val([b] + l)` is `b` times the place value at position `len(l)`, plus `val(l)`. |
| Tribonacci.Index | section3/script/drawtri.py:29-31 | The `while trins[idx+1] <= n` loop stops at the largest place value not above `n`. Reaching `trins[100]` raises `IndexError`, exactly when `n` is at least `trins[99]`. |
| Tribonacci.Digits | section3/script/drawtri.py:34-39 | The greedy loop writes one 0/1 digit per place value. |
| Tribonacci.DigitsValue | section3/script/drawtri.py:32-40 | The greedy digits of `0 <= cur < trins[k]` have value `cur`. |
| Tribonacci.ReprShape | section3/script/drawtri.py:28-40 | `repr(n)` raises `IndexError` exactly from `trins[99]` on. Otherwise its digits are 0 and 1, it is `[0]` for `n <= 0`, and for `n >= 1` it has one digit per place value up to the largest not above `n`, starting with 1. |
| Tribonacci.ReprRoundTrip | section3/script/drawtri.py:25-40 | `val(repr(n)) == n` on the whole range where `repr` does not raise. |
| Tribonacci.PadTo | section3/script/drawtri.py:47-50 | `[0]*(m-len(l)) + l` pads a shorter list on the left to length `m`, and leaves a longer one alone. |
| Tribonacci.Zip | section3/script/drawtri.py:51 | `zip` pairs the entries position by position and stops at the shorter list. |
| Tribonacci.UnzipZip | section3/script/drawtri.py:51 | Unzipping undoes `zip` on two lists of one length. |
| Tribonacci.RepairShape | section3/script/drawtri.py:42-51 | `repair` raises exactly when one of the two `repr` calls does. Otherwise its pairs are as long as the longer representation, and unzipping them gives both representations left-padded with zeros. |
| Tribonacci.RepairRoundTrip | section3/script/drawtri.py:25-51 | Unzipping `repair(k, n)` and taking `val` of each half gives back `k` and `n`. |
| PyDfa.SplitArrows | section3/script/drawtri.py:64-65 | `split('->')` yields one piece exactly when the line has no arrow. |
| PyDfa.SplitJoin | section3/script/drawtri.py:64 | Joining the pieces of `split('->')` with arrows gives the line back. |
| PyDfa.SplitNoArrow | section3/script/drawtri.py:64 | No piece of `split('->')` contains an arrow. |
| PyDfa.PyInts | section3/script/drawtri.py:74 | `tuple(map(int, ...))` gives one integer per word, and raises `ValueError` when some word is not an integer. |
| PyDfa.Flush | section3/script/drawtri.py:66-68 | A state line stores `curt` under the current state and starts an empty table. Before the first state, `curt` is kept. |
| PyDfa.StateStep | section3/script/drawtri.py:65-71 | A state line either raises `ValueError` or stores the pending table and records an output for the new current state. |
| PyDfa.EdgeStep | section3/script/drawtri.py:72-75 | A transition line either raises `ValueError` or changes only `curt`. |
| PyDfa.DfaFromWalnutShape | section3/script/drawtri.py:55-78 | Every state with a table has an output. The first line is never read. Only an empty file raises `StopIteration`, and otherwise the only failure is `ValueError`. |
| PyDfa.ParseLinesAppend | section3/script/drawtri.py:61-75 | Reading two runs of lines in turn is reading their concatenation. |
| PyDfa.BlankLine | section3/script/drawtri.py:62-63 | Blank lines can be added or removed anywhere without changing the result. |
| PyDfa.PrettyWords | section3/script/drawtri.py:74 | `int` reads the components of a label back from its `pretty` text. |
| PyDfa.StateLineStep | section3/script/drawtri.py:65-71 | A state line `q o` stores the pending table and makes `q` current with output `o`. |
| PyDfa.EdgeLineStep | section3/script/drawtri.py:72-75 | A transition line `pretty(a) -> q` sets `curt[a] = q`. |
| PyDfa.BlockStep | section3/script/drawtri.py:61-77 | One state block, read after others, leaves the previous automaton with that state's table and output replaced. |
| PyDfa.BodyReads | section3/script/drawtri.py:61-77 | Reading the state blocks gives exactly the automaton they describe, later blocks and later lines winning. |
| PyDfa.RenderRoundTrip | section3/script/drawtri.py:55-78 | Reading a file laid out as Walnut writes it gives the automaton it describes, whatever the header line. |
| PyDfa.Run | section3/script/drawtri.py:82-84 | The `cur = trans[cur][a]` loop fails only with `KeyError`. |
| PyDfa.Value | section3/script/drawtri.py:80-85 | `value` fails only with `KeyError`. |
| PyDfa.RunConcat | section3/script/drawtri.py:83-84 | Running on `u + v` is running on `u`, then on `v` from where `u` ended. |
| PyDfa.ValueSnoc | section3/script/drawtri.py:80-85 | `value` on one more letter is the output of the state that letter leads to. A missing state, label or output is a `KeyError`. |
| PyDfa.PairValue | section3/script/drawtri.py:94 | `value(d, repair(k, n))` fails only with the `IndexError` of `repr` or the `KeyError` of `value`. |
| PyDfa.SumTerms | section3/script/drawvectortri.py:91-97 | The accumulation loop computes the left-to-right sum of its terms, the first failing term raising. |
| PyDfa.SumAllFails | section3/script/drawvectortri.py:93-97 | Once a term fails, the whole sum fails with that term's error. |
| PyDfa.SumAllTotal | section3/script/drawvectortri.py:91-97 | The sum is defined exactly when every term is, and is then their plain sum. |
| PyDfa.VValue | section3/script/drawvectortri.py:90-98 | `vvalue(k, n)` adds `dx` terms of the first automaton along `n`, then `dy` terms of the second along `k` from column `n + dx`. A count that is not positive adds nothing. |
| PyDfa.VValueSum | section3/script/drawvectortri.py:90-98 | `vvalue(k, n)` is defined exactly when every term it adds is, and is then their plain sum. |
| PyDfa.VValueEmpty | section3/script/drawvectortri.py:92-98 | With no positive count, `vvalue` is 0 whatever the automata. |

`drawvectortri.py` repeats `trins`, `val`, `repr`, `repair`, `dfa_from_walnut` and
`value` of `drawtri.py` line for line (lines 21-88 there). One model covers both
copies.

## Notes on `dfa_count`

The fixed-point loop is easy to misread. As written, the code does two things a reader
might not expect:

- The loop is entered with `cur` empty and `nxt = {0: 1}`, and it returns `cur` once a
  round changes nothing. Suppose no transition out of state 0 carries the all-zero
  letter. Then the first round sends `{0: 1}` to the empty map, the second confirms
  it, and the automaton has no initial weight at all, not `{0: 1}`
  (`Counting.DfaCountNoZeroEdge`). The unit mass survives only where a zero-letter
  loop of weight one holds it.
- The loop need not terminate. Two different DFA labels from state 0 to itself can
  project to the all-zero tuple, for instance when a component is projected away.
  They then merge into a zero-letter loop of weight two, and the mass of state 0
  doubles every round (`Counting.DfaCountDiverges`).

## Left out

- The awali engine is not part of this model. State handles, transition handles and
  storage order are not modelled. States are `0 .. n-1`. `states()`, `out(q, a)` and
  `transitions()` iterate in list order. The first initial transition `to_walnut`
  takes is the parameter `q0`. `copy` is the identity on this representation.
- `VectorHash` and the iteration order of `std::unordered_map`: the order in which
  `dfa_count` visits the label mapper is the parameter `order`.
- Opening and reading files (`Cannot open file`, `getline`, `next(f)` on a file) is not
  modelled: a file is its sequence of lines.
- `show_matrix` text layout: the model returns λ, μ, ρ and the extremes as values,
  not the characters written to the stream or to `std::cout`.
- `show_matrix` with `NDEBUG`: `assert` is modelled as enabled.
- `summary`, `gview` and `fromthere`: they compose the modelled recipes with `reduce`,
  `sum` and `join_automata`, which are not part of this model.
- `gmpq` members that only forward to `mpq_class`: `transpose`, `conv(self_type, v)`,
  `conv(const value_t&)`, `is_one`, `equals`, `sname` and `vname`. Value equality and
  the canonical form cover them.
- `gmpq::conv(std::istream&)`: reading a rational from a stream is I/O.
- The Python drivers are not modelled: `argparse`, the Pillow image, the colour table
  and the printing of minimum, maximum and value set. The command-line values
  `args.dx` and `args.dy` and the two automata are parameters of `PyDfa.VValue`.
- Counting.DfaCount: the C++ loop has no bound. The model bounds the rounds by `fuel`
  and reports running out as `NoFixedPoint`. The masses are unbounded integers, while
  the C++ code accumulates them in `int` (overflow is not modelled).
- Text.PyInt: Python's `int` also accepts digit-group underscores and non-ASCII
  digits. The model accepts ASCII digits only, which is all Walnut writes.
- Recipes.ModifyTransitions: the loop over `all_out(q)` is modelled on the state's
  transitions as they were before the loop. Setting a weight to zero removes that
  transition. The label awali puts on transitions to `post()` is the constant
  `Automata.Special` (-1). Letters are label codes, which are naturals, so `z` is never
  that label.
- Text.ExtractInt: `>>` into an `int` fails when the value is outside the 32-bit range.
  It stores `INT_MAX` or `INT_MIN` and sets `failbit`, which ends the label loop or the
  `>> q >> o` read. The model reads unbounded integers, so labels, states and outputs
  beyond the `int` range are read as written.
- WalnutParser.StateFields: for a state line whose first field `>>` cannot read, the
  C++ stores 0 in `q` and leaves `o` uninitialised. For a negative `q` it writes
  `out[q]` out of bounds. For a missing second field it leaves `o` uninitialised. All
  three are undefined behaviour. The model reports `Malformed` in all three cases, and
  the whole read (`WalnutParser.StateLine`, `WalnutParser.DfaFromWalnut`) then fails,
  without the flush the C++ does first. A second field that is present but not an
  integer gives output 0, which is what C++11 stores on a failed extraction.
- Text.Stoi: `std::stoi` throws `out_of_range` for values outside `int`. The model
  returns the value instead.
- Export.ToWalnutRoundTrip: the round trip is proved for the unbounded reader. A
  numerator, label component or position outside `int` would not be read back by the
  C++ reader (see the two lines above).
- Recipes.PrefixAbsorb: the masses are summed in list order. Exact rational
  addition makes the order immaterial. The word `u` is a sequence of letters, which
  are naturals. The C++ takes any `int`, and `all_out(q)` also yields the transition to
  `post()` under the special label. So a `u` ending in that label moves the mass of
  the final states to `post()`, which then becomes initial. The model has no `post()`
  state and does not cover such words (`PrefixAbsorbEval`, `PrefixAbsorbConcat` and
  `PrefixAbsorbNoMatch` take letters only).

=== FILE: automata.dfy ===
/** The weighted automata over Q that walnut.hh builds with awali's
    `mutable_automaton`: states `0 .. n-1`, initial and final weight maps, and
    a transition list in creation order. `add_transition` on an existing
    (source, label, destination) adds to that transition's weight, and a
    weight that becomes zero removes the transition, as awali does. */
module Automata {
  import opened Results
  import opened Rationals
  import opened Gmpq

  datatype Transition = Transition(src: nat, letter: int, dst: nat, weight: Rat)

  type Key = (nat, int, nat)

  /** The label awali puts on a state's transition to `post()`, the one that
      carries its final weight. Letters are label codes, which are naturals, so
      `Special` is never a letter. */
  const Special: int := -1

  function KeyOf(t: Transition): Key
  {
    (t.src, t.letter, t.dst)
  }

  datatype Aut = Aut(n: nat, initial: map<nat, Rat>, final: map<nat, Rat>, trans: seq<Transition>)

  /** Every transition joins two of the `n` states. */
  predicate Fits(ts: seq<Transition>, n: nat)
  {
    forall i :: 0 <= i < |ts| ==> ts[i].src < n && ts[i].dst < n
  }

  /** At most one transition per (source, label, destination). */
  predicate NoDup(ts: seq<Transition>)
  {
    forall i, j :: 0 <= i < j < |ts| ==> KeyOf(ts[i]) != KeyOf(ts[j])
  }

  predicate NonZero(ts: seq<Transition>)
  {
    forall i :: 0 <= i < |ts| ==> ts[i].weight != Zero
  }

  /** A weight map over states `0 .. n-1` that stores no zero. */
  predicate GoodMap(m: map<nat, Rat>, n: nat)
  {
    forall q :: q in m ==> q < n && m[q] != Zero
  }

  predicate WellFormed(a: Aut)
  {
    Fits(a.trans, a.n) && NoDup(a.trans) && NonZero(a.trans)
    && GoodMap(a.initial, a.n) && GoodMap(a.final, a.n)
  }

  function Blank(n: nat): (a: Aut)
    ensures WellFormed(a)
  {
    Aut(n, map[], map[], [])
  }

  // ---------------------------------------------------------------------
  // Transition store

  /** The first transition with key `k`, if any. */
  function Find(ts: seq<Transition>, k: Key): (r: Option<nat>)
    ensures r.Some? ==> r.value < |ts| && KeyOf(ts[r.value]) == k
    ensures r.Some? ==> forall j :: 0 <= j < r.value ==> KeyOf(ts[j]) != k
    ensures r.None? ==> forall j :: 0 <= j < |ts| ==> KeyOf(ts[j]) != k
  {
    if |ts| == 0 then None
    else if KeyOf(ts[0]) == k then Some(0)
    else
      match Find(ts[1..], k)
      case None => None
      case Some(i) => Some(i + 1)
  }

  /** The weight of the transition `k`, zero when there is none. */
  function Weight(ts: seq<Transition>, k: Key): Rat
  {
    match Find(ts, k)
    case Some(i) => ts[i].weight
    case None => Zero
  }

  lemma WeightAt(ts: seq<Transition>, i: int)
    requires NoDup(ts) && 0 <= i < |ts|
    ensures Weight(ts, KeyOf(ts[i])) == ts[i].weight
  {
  }

  /** Without duplicates the weight of `k` is the sum over all transitions with key `k`. */
  function Sum(es: seq<Transition>, k: Key): Rat
  {
    if |es| == 0 then Zero
    else Add(if KeyOf(es[0]) == k then es[0].weight else Zero, Sum(es[1..], k))
  }

  lemma {:induction false} SumAppend(xs: seq<Transition>, ys: seq<Transition>, k: Key)
    ensures Sum(xs + ys, k) == Add(Sum(xs, k), Sum(ys, k))
  {
    if |xs| == 0 {
      assert xs + ys == ys;
      AddZero(Sum(ys, k));
    } else {
      assert (xs + ys)[1..] == xs[1..] + ys;
      SumAppend(xs[1..], ys, k);
      var h := if KeyOf(xs[0]) == k then xs[0].weight else Zero;
      AddAssoc(h, Sum(xs[1..], k), Sum(ys, k));
    }
  }

  lemma {:induction false} SumNoMatch(es: seq<Transition>, k: Key)
    requires forall i :: 0 <= i < |es| ==> KeyOf(es[i]) != k
    ensures Sum(es, k) == Zero
  {
    if |es| > 0 {
      SumNoMatch(es[1..], k);
      AddZero(Zero);
    }
  }

  lemma RemoveWeight(ts: seq<Transition>, i: nat)
    requires NoDup(ts) && i < |ts|
    ensures NoDup(ts[..i] + ts[i + 1..])
    ensures forall k :: Weight(ts[..i] + ts[i + 1..], k) == if k == KeyOf(ts[i]) then Zero else Weight(ts, k)
  {
    var r := ts[..i] + ts[i + 1..];
    assert forall j :: 0 <= j < |r| ==> r[j] == if j < i then ts[j] else ts[j + 1];
    forall k ensures Weight(r, k) == if k == KeyOf(ts[i]) then Zero else Weight(ts, k) {
      var g := Find(ts, k);
      if g.Some? && g.value != i {
        var j := g.value;
        var j' := if j < i then j else j - 1;
        assert r[j'] == ts[j];
        WeightAt(r, j');
        WeightAt(ts, j);
      }
    }
  }

  lemma ReweighWeight(ts: seq<Transition>, i: nat, w: Rat)
    requires NoDup(ts) && i < |ts|
    ensures NoDup(ts[i := ts[i].(weight := w)])
    ensures forall k :: Weight(ts[i := ts[i].(weight := w)], k) == if k == KeyOf(ts[i]) then w else Weight(ts, k)
  {
    var r := ts[i := ts[i].(weight := w)];
    assert forall j :: 0 <= j < |r| ==> KeyOf(r[j]) == KeyOf(ts[j]);
    forall k ensures Weight(r, k) == if k == KeyOf(ts[i]) then w else Weight(ts, k) {
      var g := Find(ts, k);
      if g.Some? {
        WeightAt(r, g.value);
      }
    }
  }

  lemma AppendWeight(ts: seq<Transition>, e: Transition)
    requires NoDup(ts) && Find(ts, KeyOf(e)).None?
    ensures NoDup(ts + [e])
    ensures forall k :: Weight(ts + [e], k) == if k == KeyOf(e) then e.weight else Weight(ts, k)
  {
    var r := ts + [e];
    forall k ensures Weight(r, k) == if k == KeyOf(e) then e.weight else Weight(ts, k) {
      if k == KeyOf(e) {
        WeightAt(r, |ts|);
      } else {
        var g := Find(ts, k);
        if g.Some? {
          WeightAt(ts, g.value);
          WeightAt(r, g.value);
        }
      }
    }
  }

  /** awali's `add_transition(src, dst, label, w)`: adds `w` to an existing transition
      with the same key (dropping it if the sum is zero), or appends a new one
      unless `w` is zero. */
  function AddTransition(ts: seq<Transition>, e: Transition): (r: seq<Transition>)
    requires NoDup(ts) && NonZero(ts)
    ensures NoDup(r) && NonZero(r)
    ensures forall k :: Weight(r, k) == if k == KeyOf(e) then Add(Weight(ts, k), e.weight) else Weight(ts, k)
  {
    AddZero(e.weight);
    match Find(ts, KeyOf(e))
    case Some(i) =>
      var w := Add(ts[i].weight, e.weight);
      WeightAt(ts, i);
      if w == Zero then
        RemoveWeight(ts, i);
        var r := ts[..i] + ts[i + 1..];
        assert forall j :: 0 <= j < |r| ==> r[j] == if j < i then ts[j] else ts[j + 1];
        r
      else
        ReweighWeight(ts, i, w);
        ts[i := ts[i].(weight := w)]
    case None =>
      if e.weight == Zero then ts
      else
        AppendWeight(ts, e);
        ts + [e]
  }

  /** Adding a transition between two of the `n` states keeps the store within them. */
  lemma AddTransitionFits(ts: seq<Transition>, e: Transition, n: nat)
    requires NoDup(ts) && NonZero(ts) && Fits(ts, n) && e.src < n && e.dst < n
    ensures Fits(AddTransition(ts, e), n)
  {
    var f := Find(ts, KeyOf(e));
    if f.Some? {
      var i := f.value;
      var r := ts[..i] + ts[i + 1..];
      assert forall j :: 0 <= j < |r| ==> r[j] == if j < i then ts[j] else ts[j + 1];
    }
  }

  /** Adds the transitions `es` one after the other. */
  function AddAll(ts: seq<Transition>, es: seq<Transition>): (r: seq<Transition>)
    requires NoDup(ts) && NonZero(ts)
    ensures NoDup(r) && NonZero(r)
    decreases |es|
  {
    if |es| == 0 then ts else AddAll(AddTransition(ts, es[0]), es[1..])
  }

  /** Every weight after `AddAll` is the old weight plus the weights added under that key,
      however the additions were merged. */
  lemma {:induction false} AddAllWeight(ts: seq<Transition>, es: seq<Transition>, k: Key)
    requires NoDup(ts) && NonZero(ts)
    ensures Weight(AddAll(ts, es), k) == Add(Weight(ts, k), Sum(es, k))
    decreases |es|
  {
    if |es| == 0 {
      AddZero(Weight(ts, k));
    } else {
      var ts1 := AddTransition(ts, es[0]);
      AddAllWeight(ts1, es[1..], k);
      var h := if KeyOf(es[0]) == k then es[0].weight else Zero;
      AddZero(Weight(ts, k));
      assert Weight(ts1, k) == Add(Weight(ts, k), h);
      AddAssoc(Weight(ts, k), h, Sum(es[1..], k));
    }
  }

  lemma {:induction false} AddAllFits(ts: seq<Transition>, es: seq<Transition>, n: nat)
    requires NoDup(ts) && NonZero(ts) && Fits(ts, n) && Fits(es, n)
    ensures Fits(AddAll(ts, es), n)
    decreases |es|
  {
    if |es| > 0 {
      AddTransitionFits(ts, es[0], n);
      AddAllFits(AddTransition(ts, es[0]), es[1..], n);
    }
  }

  /** Adding transitions to an empty store keeps them among the `n` states, and
      every key ends up with the sum of the weights added under it. */
  lemma AddAllEmpty(es: seq<Transition>, n: nat)
    requires Fits(es, n)
    ensures Fits(AddAll([], es), n)
    ensures forall k :: Weight(AddAll([], es), k) == Sum(es, k)
  {
    AddAllFits([], es, n);
    forall k ensures Weight(AddAll([], es), k) == Sum(es, k) {
      AddAllWeight([], es, k);
      AddZero(Sum(es, k));
    }
  }

  /** Without duplicates, the sum over a list is the weight it stores. */
  lemma {:induction false} SumIsWeight(ts: seq<Transition>, k: Key)
    requires NoDup(ts)
    ensures Sum(ts, k) == Weight(ts, k)
  {
    if |ts| > 0 {
      assert NoDup(ts[1..]);
      if KeyOf(ts[0]) == k {
        assert forall j :: 0 <= j < |ts[1..]| ==> KeyOf(ts[1..][j]) != k by {
          forall j | 0 <= j < |ts[1..]| ensures KeyOf(ts[1..][j]) != k {
            assert ts[1..][j] == ts[j + 1];
          }
        }
        SumNoMatch(ts[1..], k);
        AddZero(ts[0].weight);
      } else {
        SumIsWeight(ts[1..], k);
        AddZero(Sum(ts[1..], k));
      }
    }
  }

  /** Adding transitions with new keys and nonzero weights appends them. */
  lemma {:induction false} AddAllFresh(ts: seq<Transition>, es: seq<Transition>)
    requires NoDup(ts + es) && NonZero(ts + es)
    ensures NoDup(ts) && NonZero(ts)
    ensures AddAll(ts, es) == ts + es
    decreases |es|
  {
    assert forall i :: 0 <= i < |ts| ==> ts[i] == (ts + es)[i];
    if |es| > 0 {
      assert (ts + es)[|ts|] == es[0];
      assert Find(ts, KeyOf(es[0])).None? by {
        forall j | 0 <= j < |ts| ensures KeyOf(ts[j]) != KeyOf(es[0]) {
          assert (ts + es)[j] == ts[j];
        }
      }
      assert (ts + [es[0]]) + es[1..] == ts + es;
      AddAllFresh(ts + [es[0]], es[1..]);
    }
  }

  /** The transitions whose key satisfies `g`, in order. */
  function Keep(ts: seq<Transition>, g: Key -> bool): (r: seq<Transition>)
    ensures forall x :: x in r ==> x in ts && g(KeyOf(x))
    ensures forall i :: 0 <= i < |ts| && g(KeyOf(ts[i])) ==> ts[i] in r
    ensures NonZero(ts) ==> NonZero(r)
  {
    if |ts| == 0 then []
    else
      var rest := Keep(ts[1..], g);
      assert forall i :: 1 <= i < |ts| ==> ts[i] == ts[1..][i - 1];
      if g(KeyOf(ts[0])) then [ts[0]] + rest else rest
  }

  lemma KeepFits(ts: seq<Transition>, g: Key -> bool, n: nat)
    requires Fits(ts, n)
    ensures Fits(Keep(ts, g), n)
  {
    var r := Keep(ts, g);
    forall j | 0 <= j < |r| ensures r[j].src < n && r[j].dst < n {
      assert r[j] in r;
    }
  }

  lemma {:induction false} KeepNoDup(ts: seq<Transition>, g: Key -> bool)
    requires NoDup(ts)
    ensures NoDup(Keep(ts, g))
  {
    if |ts| > 0 {
      var rest := Keep(ts[1..], g);
      assert NoDup(ts[1..]);
      KeepNoDup(ts[1..], g);
      if g(KeyOf(ts[0])) {
        var r := [ts[0]] + rest;
        assert forall i :: 1 <= i < |r| ==> r[i] == rest[i - 1];
        forall j | 1 <= j < |r| ensures KeyOf(r[0]) != KeyOf(r[j]) {
          assert r[j] in ts[1..];
        }
      }
    }
  }

  lemma {:induction false} SumKeep(ts: seq<Transition>, g: Key -> bool, k: Key)
    ensures Sum(Keep(ts, g), k) == if g(k) then Sum(ts, k) else Zero
  {
    if |ts| > 0 {
      SumKeep(ts[1..], g, k);
      var rest := Keep(ts[1..], g);
      var h := if KeyOf(ts[0]) == k then ts[0].weight else Zero;
      assert Sum(ts, k) == Add(h, Sum(ts[1..], k));
      if g(KeyOf(ts[0])) {
        assert Keep(ts, g) == [ts[0]] + rest;
        assert ([ts[0]] + rest)[1..] == rest;
        assert Sum(Keep(ts, g), k) == Add(h, Sum(rest, k));
        if !g(k) {
          AddZero(Zero);
        }
      } else {
        assert Keep(ts, g) == rest;
        if g(k) {
          AddZero(Sum(ts[1..], k));
        }
      }
    }
  }

  /** Two lists of the same length whose entries weigh the same and match `k` and `k'`
      at the same positions have the same sums at `k` and `k'`. */
  lemma {:induction false} SumMatch(es: seq<Transition>, ts: seq<Transition>, k: Key, k': Key)
    requires |es| == |ts|
    requires forall j :: 0 <= j < |es| ==> es[j].weight == ts[j].weight
    requires forall j :: 0 <= j < |es| ==> (KeyOf(es[j]) == k <==> KeyOf(ts[j]) == k')
    ensures Sum(es, k) == Sum(ts, k')
  {
    if |es| > 0 {
      SumMatch(es[1..], ts[1..], k, k');
    }
  }

  // ---------------------------------------------------------------------
  // Initial and final weights

  /** `set_initial(q, w)` / `set_final(q, w)`: a zero weight removes the entry. */
  function SetWeight(m: map<nat, Rat>, q: nat, w: Rat): (r: map<nat, Rat>)
    ensures q in r <==> w != Zero
    ensures q in r ==> r[q] == w
    ensures forall p :: p != q ==> (p in r <==> p in m) && (p in r ==> r[p] == m[p])
  {
    if w == Zero then m - {q} else m[q := w]
  }

  /** The weight of `q` in a map, zero when absent. */
  function ValueAt(m: map<nat, Rat>, q: nat): Rat
  {
    if q in m then m[q] else Zero
  }

  // ---------------------------------------------------------------------
  // Behaviour: dense weight vectors and the series the automaton realises

  type Vec = seq<Rat>

  function Zeros(n: nat): (v: Vec)
    ensures |v| == n && forall i :: 0 <= i < n ==> v[i] == Zero
  {
    seq(n, _ => Zero)
  }

  /** A weight map as a vector over states `0 .. n-1`. */
  function Dense(m: map<nat, Rat>, n: nat): (v: Vec)
    ensures |v| == n && forall i :: 0 <= i < n ==> v[i] == ValueAt(m, i)
  {
    seq(n, i requires 0 <= i => ValueAt(m, i))
  }

  /** A vector as a weight map that stores no zero. */
  function Sparse(v: Vec): (m: map<nat, Rat>)
    ensures GoodMap(m, |v|)
    ensures forall i :: 0 <= i < |v| ==> ValueAt(m, i) == v[i]
  {
    map i: nat | i < |v| && v[i] != Zero :: v[i]
  }

  lemma DenseSparse(v: Vec)
    ensures Dense(Sparse(v), |v|) == v
  {
  }

  lemma SparseDense(m: map<nat, Rat>, n: nat)
    requires GoodMap(m, n)
    ensures Sparse(Dense(m, n)) == m
  {
  }

  /** One letter: the mass `v` moved along the transitions labelled `a`,
      `next[dst] += v[src] * weight`. */
  function Step(ts: seq<Transition>, v: Vec, a: int): (r: Vec)
    requires Fits(ts, |v|)
    ensures |r| == |v|
  {
    if |ts| == 0 then Zeros(|v|)
    else
      var acc := Step(ts[..|ts| - 1], v, a);
      var t := ts[|ts| - 1];
      if t.letter == a then acc[t.dst := Add(acc[t.dst], Mul(v[t.src], t.weight))] else acc
  }

  /** The mass reached after reading the word `w`. */
  function Forward(ts: seq<Transition>, v: Vec, w: seq<int>): (r: Vec)
    requires Fits(ts, |v|)
    ensures |r| == |v|
    decreases |w|
  {
    if |w| == 0 then v else Forward(ts, Step(ts, v, w[0]), w[1..])
  }

  function Dot(u: Vec, v: Vec): Rat
    requires |u| == |v|
  {
    if |u| == 0 then Zero
    else Add(Dot(u[..|u| - 1], v[..|v| - 1]), Mul(u[|u| - 1], v[|v| - 1]))
  }

  /** The weight the automaton gives the word `w`: initial vector, one step per
      letter, then the final vector. */
  function Eval(a: Aut, w: seq<int>): Rat
    requires WellFormed(a)
  {
    Dot(Forward(a.trans, Dense(a.initial, a.n), w), Dense(a.final, a.n))
  }

  /** Reading `u` then `w` is reading `u + w`. */
  lemma {:induction false} ForwardConcat(ts: seq<Transition>, v: Vec, u: seq<int>, w: seq<int>)
    requires Fits(ts, |v|)
    ensures Forward(ts, v, u + w) == Forward(ts, Forward(ts, v, u), w)
    decreases |u|
  {
    if |u| > 0 {
      assert (u + w)[0] == u[0] && (u + w)[1..] == u[1..] + w;
      ForwardConcat(ts, Step(ts, v, u[0]), u[1..], w);
    } else {
      assert u + w == w;
    }
  }

  /** A letter no transition carries sends every mass to zero. */
  lemma {:induction false} StepNoMatch(ts: seq<Transition>, v: Vec, a: int)
    requires Fits(ts, |v|)
    requires forall i :: 0 <= i < |ts| ==> ts[i].letter != a
    ensures Step(ts, v, a) == Zeros(|v|)
  {
    if |ts| > 0 {
      StepNoMatch(ts[..|ts| - 1], v, a);
    }
  }
}

=== FILE: counting.dfy ===
/** `dfa_count` (walnut.hh): turns a parsed Walnut DFA into a weighted automaton
    over Q whose letters are the projections of the DFA's label tuples onto the
    chosen variables. Outputs become final weights; every DFA transition becomes
    a transition of weight one; the initial weights are the fixed point of
    pushing mass from state 0 along the all-zero letter. */
module Counting {
  import opened Results
  import opened Rationals
  import opened Gmpq
  import opened Lex
  import opened Labels
  import opened Automata

  predicate Projectable(t: Tuple, vars: seq<int>)
  {
    forall j :: 0 <= j < |vars| ==> 0 <= vars[j] < |t|
  }

  /** The components `vars` selects from a label tuple. */
  function Project(t: Tuple, vars: seq<int>): (p: Tuple)
    requires Projectable(t, vars)
    ensures |p| == |vars| && forall j :: 0 <= j < |vars| ==> p[j] == t[vars[j]]
  {
    seq(|vars|, j requires 0 <= j < |vars| => t[vars[j]])
  }

  /** A DFA transition as the loops see it: source state, label tuple, target. */
  datatype Raw = Raw(src: nat, tuple: Tuple, dst: int)

  /** The number of entries in all the tables together. */
  function EntryCount(trans: seq<seq<Entry>>): nat
  {
    if |trans| == 0 then 0 else EntryCount(trans[..|trans| - 1]) + |trans[|trans| - 1]|
  }

  /** The transitions of the per-state tables in loop order: states ascending,
      each table in key order; one per table entry (`RawEdgesAt` gives the place
      of each entry). */
  function RawEdges(trans: seq<seq<Entry>>): (es: seq<Raw>)
    ensures |es| == EntryCount(trans)
    ensures forall i :: 0 <= i < |es| ==> es[i].src < |trans|
    ensures forall i :: 0 <= i < |es| ==> (es[i].tuple, es[i].dst) in trans[es[i].src]
    ensures forall q, i :: 0 <= q < |trans| && 0 <= i < |trans[q]| ==> Raw(q, trans[q][i].0, trans[q][i].1) in es
  {
    if |trans| == 0 then []
    else
      var q := |trans| - 1;
      var init := RawEdges(trans[..q]);
      var last := seq(|trans[q]|, i requires 0 <= i < |trans[q]| => Raw(q, trans[q][i].0, trans[q][i].1));
      var es := init + last;
      forall p, i | 0 <= p < |trans| && 0 <= i < |trans[p]| ensures Raw(p, trans[p][i].0, trans[p][i].1) in es {
        if p < q {
          assert trans[..q][p] == trans[p];
          assert Raw(p, trans[p][i].0, trans[p][i].1) in init;
        } else {
          assert es[|init| + i] == last[i];
        }
      }
      es
  }

  /** Entry `i` of table `q` is listed at index `EntryCount(trans[..q]) + i`. With
      the length `EntryCount(trans)`, this makes the listing a one-to-one
      correspondence with the table entries: each is visited exactly once. */
  lemma {:induction false} RawEdgesAt(trans: seq<seq<Entry>>, q: nat, i: nat)
    requires q < |trans| && i < |trans[q]|
    ensures EntryCount(trans[..q]) + i < |RawEdges(trans)|
    ensures RawEdges(trans)[EntryCount(trans[..q]) + i] == Raw(q, trans[q][i].0, trans[q][i].1)
    decreases |trans|
  {
    var m := |trans| - 1;
    var init := RawEdges(trans[..m]);
    var last := seq(|trans[m]|, j requires 0 <= j < |trans[m]| => Raw(m, trans[m][j].0, trans[m][j].1));
    assert RawEdges(trans) == init + last;
    var k := EntryCount(trans[..q]) + i;
    var e := Raw(q, trans[q][i].0, trans[q][i].1);
    if q < m {
      var t := trans[..m];
      assert t[q] == trans[q];
      assert t[..q] == trans[..q];
      assert EntryCount(t[..q]) == EntryCount(trans[..q]);
      assert t[q][i] == trans[q][i];
      RawEdgesAt(t, q, i);
      assert init[k] == e;
      assert (init + last)[k] == init[k];
    } else {
      assert trans[..q] == trans[..m];
      assert last[i] == e;
      assert (init + last)[k] == last[i];
    }
    assert RawEdges(trans)[k] == e;
  }

  /** The requirements the C++ code leaves to its caller: there is a state 0,
      every table belongs to a state, every target is a state, and every tuple
      (in the tables and in the mapper) has the components `vars` names. */
  predicate Callable(trans: seq<seq<Entry>>, out: seq<int>, mapper: Mapper, vars: seq<int>, order: seq<Tuple>)
  {
    && Valid(mapper)
    && |out| > 0 && |trans| <= |out|
    && (forall q, i :: 0 <= q < |trans| && 0 <= i < |trans[q]| ==>
          0 <= trans[q][i].1 < |out| && Projectable(trans[q][i].0, vars))
    && (forall t :: t in mapper.toInt ==> Projectable(t, vars))
    && (forall i :: 0 <= i < |order| ==> order[i] in mapper.toInt)
    && (forall t :: t in mapper.toInt ==> t in order)
  }

  /** The first loop: `proj_map.get(remap(projected))` for every tuple of the
      label mapper, in the (unspecified) iteration order `order` of its hash map. */
  function ProjMap(order: seq<Tuple>, vars: seq<int>, remap: Tuple -> Tuple): (pm: Mapper)
    requires forall i :: 0 <= i < |order| ==> Projectable(order[i], vars)
    ensures Valid(pm)
    ensures forall i :: 0 <= i < |order| ==> remap(Project(order[i], vars)) in pm.toInt
  {
    var ts := seq(|order|, i requires 0 <= i < |order| => remap(Project(order[i], vars)));
    EmptyValid();
    var pm := InternAll(Empty, ts);
    forall i | 0 <= i < |order| ensures remap(Project(order[i], vars)) in pm.toInt {
      assert ts[i] in ts;
      assert ts[i] in pm.toInt.Keys;
    }
    pm
  }

  /** The label `dfa_count` gives a raw transition: the projected, remapped tuple. */
  function Letter(e: Raw, vars: seq<int>, remap: Tuple -> Tuple): Tuple
    requires Projectable(e.tuple, vars)
  {
    remap(Project(e.tuple, vars))
  }

  /** The letters of the raw transitions, in loop order. */
  function Letters(es: seq<Raw>, vars: seq<int>, remap: Tuple -> Tuple): (ls: seq<Tuple>)
    requires forall i :: 0 <= i < |es| ==> Projectable(es[i].tuple, vars)
    ensures |ls| == |es| && forall i :: 0 <= i < |es| ==> ls[i] == Letter(es[i], vars, remap)
  {
    seq(|es|, i requires 0 <= i < |es| => Letter(es[i], vars, remap))
  }

  /** The transition loop: `proj_map.get` of each raw transition's letter, then a
      weight-one transition carrying that code. Codes never change once given, so
      the code each call returns is the code of its letter in the final mapper. */
  function Edges(pm: Mapper, es: seq<Raw>, vars: seq<int>, remap: Tuple -> Tuple, n: nat)
    : (r: (Mapper, seq<Transition>))
    requires Valid(pm) && RawOk(es, vars, n)
    ensures Valid(r.0) && Grows(pm, r.0) && |r.1| == |es| && Fits(r.1, n)
    ensures forall i :: 0 <= i < |es| ==> Letter(es[i], vars, remap) in r.0.toInt
    ensures forall i :: 0 <= i < |es| ==>
              r.1[i] == Transition(es[i].src, r.0.toInt[Letter(es[i], vars, remap)], es[i].dst, One)
  {
    var ls := Letters(es, vars, remap);
    var pm1 := InternAll(pm, ls);
    assert forall i :: 0 <= i < |es| ==> ls[i] in ls;
    (pm1, Stamp(es, Codes(pm1, ls), n))
  }

  /** The codes `m` gives the letters `ls`, in order. */
  function Codes(m: Mapper, ls: seq<Tuple>): (cs: seq<int>)
    requires forall i :: 0 <= i < |ls| ==> ls[i] in m.toInt
    ensures |cs| == |ls| && forall i :: 0 <= i < |ls| ==> cs[i] == m.toInt[ls[i]]
  {
    seq(|ls|, i requires 0 <= i < |ls| => m.toInt[ls[i]])
  }

  /** The raw transitions join states below `n`. */
  predicate Joins(es: seq<Raw>, n: nat)
  {
    forall i :: 0 <= i < |es| ==> es[i].src < n && 0 <= es[i].dst < n
  }

  /** What the transition loop needs of the raw transitions. */
  predicate RawOk(es: seq<Raw>, vars: seq<int>, n: nat)
  {
    (forall i :: 0 <= i < |es| ==> Projectable(es[i].tuple, vars)) && Joins(es, n)
  }

  /** Weight-one transitions between the raw transitions' states, carrying `codes`. */
  function Stamp(es: seq<Raw>, codes: seq<int>, n: nat): (ts: seq<Transition>)
    requires |codes| == |es| && Joins(es, n)
    ensures |ts| == |es| && Fits(ts, n)
    ensures forall i :: 0 <= i < |es| ==> ts[i] == Transition(es[i].src, codes[i], es[i].dst, One)
  {
    seq(|es|, i requires 0 <= i < |es| => Transition(es[i].src, codes[i], es[i].dst, One))
  }

  // ---------------------------------------------------------------------
  // Initial weights: the zero-letter fixed point

  type Mass = map<nat, int>

  /** One round of the inner loops: for every transition labelled `ze` leaving a
      state that has mass, `nxt[dst] += w * numerator(weight)`. */
  function Propagate(ts: seq<Transition>, cur: Mass, ze: int): Mass
  {
    if |ts| == 0 then map[]
    else
      var acc := Propagate(ts[..|ts| - 1], cur, ze);
      var t := ts[|ts| - 1];
      if t.letter == ze && t.src in cur then
        acc[t.dst := (if t.dst in acc then acc[t.dst] else 0) + cur[t.src] * t.weight.num]
      else acc
  }

  /** Without a `ze` transition out of a state with mass, nothing has mass afterwards. */
  lemma {:induction false} PropagateNone(ts: seq<Transition>, cur: Mass, ze: int)
    requires forall i :: 0 <= i < |ts| ==> ts[i].letter != ze || ts[i].src !in cur
    ensures Propagate(ts, cur, ze) == map[]
  {
    if |ts| > 0 {
      PropagateNone(ts[..|ts| - 1], cur, ze);
    }
  }

  /** The `while (cur != nxt)` loop, entered with `cur` already holding the last
      `nxt` (the loop's first test compares the empty map with `{0: 1}`, which always
      differ). Each round computes `nxt` from `cur` and stops when they agree. The C++
      loop has no bound; `fuel` bounds the rounds, and running out of it is
      reported as `NoFixedPoint`. */
  function Settle(ts: seq<Transition>, ze: int, cur: Mass, fuel: nat): (r: Result<Mass>)
    ensures r.Ok? ==> Propagate(ts, r.value, ze) == r.value
    decreases fuel
  {
    var nxt := Propagate(ts, cur, ze);
    if cur == nxt then Ok(cur)
    else if fuel == 0 then Err(NoFixedPoint)
    else Settle(ts, ze, nxt, fuel - 1)
  }

  /** Once the loop stops, further rounds change nothing: `Settle` returns the first
      mass in the sequence `{0: 1}, P({0: 1}), P(P({0: 1})), ...` that `P` fixes. */
  lemma {:induction false} SettleFirst(ts: seq<Transition>, ze: int, cur: Mass, fuel: nat, k: nat)
    requires Settle(ts, ze, cur, fuel).Ok?
    requires fuel <= k
    ensures Settle(ts, ze, cur, k) == Settle(ts, ze, cur, fuel)
    decreases fuel
  {
    var nxt := Propagate(ts, cur, ze);
    if cur != nxt {
      SettleFirst(ts, ze, nxt, fuel - 1, k - 1);
    }
  }

  /** The tables' transitions satisfy what the transition loop needs. */
  lemma {:induction false} RawEdgesFit(trans: seq<seq<Entry>>, n: nat, vars: seq<int>)
    requires |trans| <= n
    requires forall q, i :: 0 <= q < |trans| && 0 <= i < |trans[q]| ==>
               0 <= trans[q][i].1 < n && Projectable(trans[q][i].0, vars)
    ensures RawOk(RawEdges(trans), vars, n)
  {
    if |trans| > 0 {
      var q := |trans| - 1;
      assert forall p :: 0 <= p < q ==> trans[..q][p] == trans[p];
      RawEdgesFit(trans[..q], n, vars);
    }
  }

  /** `set_final(states[i], out[i])` for every positive output. */
  function FinalWeights(out: seq<int>): (m: map<nat, Rat>)
    ensures GoodMap(m, |out|)
    ensures forall q :: 0 <= q < |out| ==> ValueAt(m, q) == if out[q] > 0 then FromInt(out[q]) else Zero
  {
    map q: nat | q < |out| && out[q] > 0 :: FromInt(out[q])
  }

  /** The transitions of the counting automaton: the weight-one edges, merged. */
  function CountTransitions(trans: seq<seq<Entry>>, out: seq<int>, mapper: Mapper, vars: seq<int>,
                            remap: Tuple -> Tuple, order: seq<Tuple>): (r: (Mapper, seq<Transition>))
    requires Callable(trans, out, mapper, vars, order)
    ensures Valid(r.0) && Fits(r.1, |out|) && NoDup(r.1) && NonZero(r.1)
    ensures forall k :: Weight(r.1, k) == Sum(Edges(ProjMap(order, vars, remap), RawEdges(trans), vars, remap, |out|).1, k)
  {
    var pm := ProjMap(order, vars, remap);
    var es := RawEdges(trans);
    RawEdgesFit(trans, |out|, vars);
    var (pm1, edges) := Edges(pm, es, vars, remap, |out|);
    AddAllEmpty(edges, |out|);
    (pm1, AddAll([], edges))
  }

  /** The all-zero tuple over the chosen variables, whose code is `ze`. */
  function ZeroTuple(vars: seq<int>): Tuple
  {
    seq(|vars|, _ => 0)
  }

  /** `dfa_count(trans, out, label_mapper, vars, remap)`, with the hash map's
      iteration order `order` and a bound `fuel` on the fixed-point rounds. Returns
      the automaton and `proj_map`. */
  function DfaCount(trans: seq<seq<Entry>>, out: seq<int>, mapper: Mapper, vars: seq<int>,
                    remap: Tuple -> Tuple, order: seq<Tuple>, fuel: nat): (r: Result<(Aut, Mapper)>)
    requires Callable(trans, out, mapper, vars, order)
    ensures r.Ok? ==> WellFormed(r.value.0) && r.value.0.n == |out| && Valid(r.value.1)
    ensures r.Ok? ==> r.value.0.final == FinalWeights(out)
    ensures r.Ok? ==> r.value.0.trans == CountTransitions(trans, out, mapper, vars, remap, order).1
  {
    var (pm, ts) := CountTransitions(trans, out, mapper, vars, remap, order);
    var (pm1, ze) := Get(pm, ZeroTuple(vars));
    var mass :- Settle(ts, ze, map[0 := 1], fuel);
    Ok((Aut(|out|, InitialWeights(mass, |out|), FinalWeights(out), ts), pm1))
  }

  /** `set_initial(q, w)` for every state the fixed point gives mass. */
  function InitialWeights(mass: Mass, n: nat): (m: map<nat, Rat>)
    ensures GoodMap(m, n)
    ensures forall q :: 0 <= q < n ==> ValueAt(m, q) == if q in mass then FromInt(mass[q]) else Zero
  {
    var m := map q: nat | q in mass && q < n && mass[q] != 0 :: FromInt(mass[q]);
    forall q | 0 <= q < n ensures ValueAt(m, q) == if q in mass then FromInt(mass[q]) else Zero {
      if q in mass { FromIntZero(mass[q]); }
    }
    forall q | q in m ensures q < n && m[q] != Zero {
      FromIntZero(mass[q]);
    }
    m
  }

  // ---------------------------------------------------------------------
  // What dfa_count computes

  /** The raw transition `e` becomes a weight-one transition with key `k` under the
      code table `pm`. */
  predicate Counts(e: Raw, k: Key, pm: Mapper, vars: seq<int>, remap: Tuple -> Tuple)
  {
    e.src == k.0 && e.dst == k.2 && Projectable(e.tuple, vars)
    && Letter(e, vars, remap) in pm.toInt && pm.toInt[Letter(e, vars, remap)] == k.1
  }

  /** How many raw transitions become a transition with key `k`. */
  function Multiplicity(es: seq<Raw>, k: Key, pm: Mapper, vars: seq<int>, remap: Tuple -> Tuple): nat
  {
    if |es| == 0 then 0
    else (if Counts(es[0], k, pm, vars, remap) then 1 else 0) + Multiplicity(es[1..], k, pm, vars, remap)
  }

  lemma {:induction false} MultiplicityNone(es: seq<Raw>, k: Key, pm: Mapper, vars: seq<int>, remap: Tuple -> Tuple)
    requires forall i :: 0 <= i < |es| ==> !Counts(es[i], k, pm, vars, remap)
    ensures Multiplicity(es, k, pm, vars, remap) == 0
  {
    if |es| > 0 {
      MultiplicityNone(es[1..], k, pm, vars, remap);
    }
  }

  lemma {:induction false} MultiplicityTwo(es: seq<Raw>, k: Key, pm: Mapper, vars: seq<int>, remap: Tuple -> Tuple,
                                           i: int, j: int)
    requires 0 <= i < j < |es|
    requires Counts(es[i], k, pm, vars, remap) && Counts(es[j], k, pm, vars, remap)
    ensures Multiplicity(es, k, pm, vars, remap) >= 2
  {
    if i > 0 {
      MultiplicityTwo(es[1..], k, pm, vars, remap, i - 1, j - 1);
    } else {
      MultiplicityOne(es[1..], k, pm, vars, remap, j - 1);
    }
  }

  lemma {:induction false} MultiplicityOne(es: seq<Raw>, k: Key, pm: Mapper, vars: seq<int>, remap: Tuple -> Tuple,
                                           i: int)
    requires 0 <= i < |es| && Counts(es[i], k, pm, vars, remap)
    ensures Multiplicity(es, k, pm, vars, remap) >= 1
  {
    if i > 0 {
      MultiplicityOne(es[1..], k, pm, vars, remap, i - 1);
    }
  }

  lemma {:induction false} SumOfOnes(es: seq<Raw>, edges: seq<Transition>, k: Key, pm: Mapper,
                                     vars: seq<int>, remap: Tuple -> Tuple)
    requires |edges| == |es|
    requires forall i :: 0 <= i < |es| ==>
               0 <= es[i].dst && Projectable(es[i].tuple, vars) && Letter(es[i], vars, remap) in pm.toInt
    requires forall i :: 0 <= i < |es| ==>
               edges[i] == Transition(es[i].src, pm.toInt[Letter(es[i], vars, remap)], es[i].dst, One)
    ensures Sum(edges, k) == FromInt(Multiplicity(es, k, pm, vars, remap))
  {
    if |es| == 0 {
      FromIntZero(0);
    } else {
      SumOfOnes(es[1..], edges[1..], k, pm, vars, remap);
      var c := if KeyOf(edges[0]) == k then 1 else 0;
      FromIntZero(c);
      AddInts(c, Multiplicity(es[1..], k, pm, vars, remap));
    }
  }

  lemma {:induction false} MultiplicityGrows(es: seq<Raw>, k: Key, pm: Mapper, pm': Mapper,
                                             vars: seq<int>, remap: Tuple -> Tuple)
    requires forall i :: 0 <= i < |es| ==> Projectable(es[i].tuple, vars) && Letter(es[i], vars, remap) in pm.toInt
    requires Grows(pm, pm')
    ensures Multiplicity(es, k, pm, vars, remap) == Multiplicity(es, k, pm', vars, remap)
  {
    if |es| > 0 {
      MultiplicityGrows(es[1..], k, pm, pm', vars, remap);
    }
  }

  /** The merged weight of every key of the counting automaton is the number of DFA
      transitions that map onto it. */
  lemma CountTransitionsWeights(trans: seq<seq<Entry>>, out: seq<int>, mapper: Mapper, vars: seq<int>,
                                remap: Tuple -> Tuple, order: seq<Tuple>, k: Key)
    requires Callable(trans, out, mapper, vars, order)
    ensures var (pm, ts) := CountTransitions(trans, out, mapper, vars, remap, order);
      Weight(ts, k) == FromInt(Multiplicity(RawEdges(trans), k, pm, vars, remap))
  {
    RawEdgesFit(trans, |out|, vars);
    var pm0 := ProjMap(order, vars, remap);
    var es := RawEdges(trans);
    var (pm1, edges) := Edges(pm0, es, vars, remap, |out|);
    SumOfOnes(es, edges, k, pm1, vars, remap);
  }

  /** Each transition of the DFA contributes weight one to the transition between the
      same states under the code `proj_map` gives its projected, remapped label; the
      contributions of transitions that share source, target and code add up. */
  lemma DfaCountWeights(trans: seq<seq<Entry>>, out: seq<int>, mapper: Mapper, vars: seq<int>,
                        remap: Tuple -> Tuple, order: seq<Tuple>, fuel: nat, k: Key)
    requires Callable(trans, out, mapper, vars, order)
    ensures DfaCount(trans, out, mapper, vars, remap, order, fuel).Ok? ==>
      var (a, pm) := DfaCount(trans, out, mapper, vars, remap, order, fuel).value;
      Weight(a.trans, k) == FromInt(Multiplicity(RawEdges(trans), k, pm, vars, remap))
  {
    if DfaCount(trans, out, mapper, vars, remap, order, fuel).Ok? {
      RawEdgesFit(trans, |out|, vars);
      var (pm1, ts) := CountTransitions(trans, out, mapper, vars, remap, order);
      var (pm2, ze) := Get(pm1, ZeroTuple(vars));
      CountTransitionsWeights(trans, out, mapper, vars, remap, order, k);
      MultiplicityGrows(RawEdges(trans), k, pm1, pm2, vars, remap);
    }
  }

  // ---------------------------------------------------------------------
  // When the fixed point is reached, and when it is not

  /** The first block of the loop order is state 0's table. */
  lemma {:induction false} RawEdgesHead(trans: seq<seq<Entry>>, i: int)
    requires |trans| > 0 && 0 <= i < |trans[0]|
    ensures i < |RawEdges(trans)| && RawEdges(trans)[i] == Raw(0, trans[0][i].0, trans[0][i].1)
  {
    var q := |trans| - 1;
    if q > 0 {
      assert trans[..q][0] == trans[0];
      RawEdgesHead(trans[..q], i);
    }
  }

  /** With no mass anywhere, a round produces none. */
  lemma PropagateEmpty(ts: seq<Transition>, ze: int)
    ensures Propagate(ts, map[], ze) == map[]
  {
    PropagateNone(ts, map[], ze);
  }

  /** A raw transition out of state 0 counts towards `(0, ze, d)` only if its letter
      is the all-zero tuple. */
  lemma ZeroCode(pm: Mapper, vars: seq<int>, remap: Tuple -> Tuple, e: Raw, d: nat)
    requires Valid(pm)
    requires Counts(e, (0, Get(pm, ZeroTuple(vars)).1, d), pm, vars, remap)
    ensures Letter(e, vars, remap) == ZeroTuple(vars)
  {
  }

  /** No transition of the DFA out of state 0 counts towards a zero-letter transition
      when none of their letters projects and remaps to the all-zero tuple. */
  lemma NoZeroCounts(trans: seq<seq<Entry>>, vars: seq<int>, remap: Tuple -> Tuple, pm: Mapper, d: nat)
    requires Valid(pm)
    requires |trans| > 0 ==> forall i :: 0 <= i < |trans[0]| ==>
               Projectable(trans[0][i].0, vars) && remap(Project(trans[0][i].0, vars)) != ZeroTuple(vars)
    ensures Multiplicity(RawEdges(trans), (0, Get(pm, ZeroTuple(vars)).1, d), pm, vars, remap) == 0
  {
    var es := RawEdges(trans);
    var k := (0, Get(pm, ZeroTuple(vars)).1, d);
    forall j | 0 <= j < |es| ensures !Counts(es[j], k, pm, vars, remap) {
      if Counts(es[j], k, pm, vars, remap) {
        ZeroCode(pm, vars, remap, es[j], d);
        assert false;
      }
    }
    MultiplicityNone(es, k, pm, vars, remap);
  }

  /** A counted transition out of state 0 never carries the all-zero code when no
      transition of the DFA out of state 0 has an all-zero letter. */
  lemma NoZeroAt(trans: seq<seq<Entry>>, out: seq<int>, mapper: Mapper, vars: seq<int>,
                 remap: Tuple -> Tuple, order: seq<Tuple>, pm: Mapper, ts: seq<Transition>, i: int)
    requires Callable(trans, out, mapper, vars, order)
    requires (pm, ts) == CountTransitions(trans, out, mapper, vars, remap, order)
    requires |trans| > 0 ==> forall i :: 0 <= i < |trans[0]| ==>
               remap(Project(trans[0][i].0, vars)) != ZeroTuple(vars)
    requires 0 <= i < |ts|
    ensures ts[i].letter != Get(pm, ZeroTuple(vars)).1 || ts[i].src != 0
  {
    var ze := Get(pm, ZeroTuple(vars)).1;
    if ts[i].letter == ze && ts[i].src == 0 {
      var k := KeyOf(ts[i]);
      NoZeroCounts(trans, vars, remap, pm, k.2);
      CountTransitionsWeights(trans, out, mapper, vars, remap, order, k);
      WeightAt(ts, i);
      FromIntZero(0);
      assert false;
    }
  }

  /** With no `ze` transition out of state 0, the mass `{0: 1}` moves nowhere and the
      next round confirms the empty map. */
  lemma SettleDies(ts: seq<Transition>, ze: int, fuel: nat)
    requires fuel >= 1
    requires forall i :: 0 <= i < |ts| ==> ts[i].letter != ze || ts[i].src != 0
    ensures Settle(ts, ze, map[0 := 1], fuel) == Ok(map[])
  {
    var one: Mass := map[0 := 1];
    forall i | 0 <= i < |ts| ensures ts[i].letter != ze || ts[i].src !in one {
    }
    PropagateNone(ts, one, ze);
    assert 0 in one;
    PropagateEmpty(ts, ze);
    assert Settle(ts, ze, map[], fuel - 1) == Ok(map[]);
  }

  /** `dfa_count` ends as the fixed-point loop from `{0: 1}` ends: with its error, or
      with the settled mass as the initial weights. */
  lemma DfaCountSettles(trans: seq<seq<Entry>>, out: seq<int>, mapper: Mapper, vars: seq<int>,
                        remap: Tuple -> Tuple, order: seq<Tuple>, fuel: nat)
    requires Callable(trans, out, mapper, vars, order)
    ensures var (pm, ts) := CountTransitions(trans, out, mapper, vars, remap, order);
      var r := Settle(ts, Get(pm, ZeroTuple(vars)).1, map[0 := 1], fuel);
      && (r.Err? ==> DfaCount(trans, out, mapper, vars, remap, order, fuel) == Err(r.error))
      && (r.Ok? ==> DfaCount(trans, out, mapper, vars, remap, order, fuel).Ok?)
      && (r.Ok? ==> DfaCount(trans, out, mapper, vars, remap, order, fuel).value.0.initial
                    == InitialWeights(r.value, |out|))
  {
  }

  /** If no transition out of state 0 has a letter that projects and remaps to the
      all-zero tuple, the first round moves the mass `{0: 1}` nowhere and the next
      round confirms the empty map: every initial weight is zero. */
  lemma DfaCountNoZeroEdge(trans: seq<seq<Entry>>, out: seq<int>, mapper: Mapper, vars: seq<int>,
                           remap: Tuple -> Tuple, order: seq<Tuple>, fuel: nat)
    requires Callable(trans, out, mapper, vars, order)
    requires |trans| > 0 ==> forall i :: 0 <= i < |trans[0]| ==>
               remap(Project(trans[0][i].0, vars)) != ZeroTuple(vars)
    requires fuel >= 1
    ensures DfaCount(trans, out, mapper, vars, remap, order, fuel).Ok?
    ensures DfaCount(trans, out, mapper, vars, remap, order, fuel).value.0.initial == map[]
  {
    var (pm, ts) := CountTransitions(trans, out, mapper, vars, remap, order);
    var ze := Get(pm, ZeroTuple(vars)).1;
    forall i | 0 <= i < |ts| ensures ts[i].letter != ze || ts[i].src != 0 {
      NoZeroAt(trans, out, mapper, vars, remap, order, pm, ts, i);
    }
    SettleDies(ts, ze, fuel);
    DfaCountSettles(trans, out, mapper, vars, remap, order, fuel);
    assert InitialWeights(map[], |out|) == map[];
  }

  /** Every weight is a positive count, and every mass is nonnegative. */
  predicate Positive(ts: seq<Transition>)
  {
    forall i :: 0 <= i < |ts| ==> ts[i].weight.num > 0
  }

  predicate NonNegative(m: Mass)
  {
    forall q :: q in m ==> m[q] >= 0
  }

  /** A round keeps masses nonnegative, and every `ze` transition out of a state with
      mass delivers at least its share to its target. */
  lemma {:induction false} PropagateLower(ts: seq<Transition>, cur: Mass, ze: int)
    requires Positive(ts) && NonNegative(cur)
    ensures NonNegative(Propagate(ts, cur, ze))
    ensures forall j :: 0 <= j < |ts| && ts[j].letter == ze && ts[j].src in cur ==>
              ts[j].dst in Propagate(ts, cur, ze)
              && Propagate(ts, cur, ze)[ts[j].dst] >= cur[ts[j].src] * ts[j].weight.num
  {
    if |ts| > 0 {
      var init := ts[..|ts| - 1];
      assert Positive(init);
      PropagateLower(init, cur, ze);
      var acc := Propagate(init, cur, ze);
      var t := ts[|ts| - 1];
      if t.letter == ze && t.src in cur {
        assert cur[t.src] * t.weight.num >= 0 by {
          assert cur[t.src] >= 0 && t.weight.num > 0;
        }
      }
      forall j | 0 <= j < |ts| && ts[j].letter == ze && ts[j].src in cur
        ensures ts[j].dst in Propagate(ts, cur, ze)
                && Propagate(ts, cur, ze)[ts[j].dst] >= cur[ts[j].src] * ts[j].weight.num
      {
        if j < |ts| - 1 {
          assert init[j] == ts[j];
        }
      }
    }
  }

  /** A zero-letter self-loop on state 0 of weight at least two at least doubles the
      mass of state 0 in every round, so the loop never stops. */
  lemma {:induction false} SettleDiverges(ts: seq<Transition>, ze: int, cur: Mass, fuel: nat, j: int)
    requires Positive(ts) && NonNegative(cur)
    requires 0 <= j < |ts| && ts[j].src == 0 && ts[j].dst == 0 && ts[j].letter == ze && ts[j].weight.num >= 2
    requires 0 in cur && cur[0] >= 1
    ensures Settle(ts, ze, cur, fuel) == Err(NoFixedPoint)
    decreases fuel
  {
    var nxt := Propagate(ts, cur, ze);
    PropagateLower(ts, cur, ze);
    assert nxt[0] >= cur[0] * ts[j].weight.num >= 2 * cur[0];
    if fuel > 0 {
      SettleDiverges(ts, ze, nxt, fuel - 1, j);
    }
  }

  /** A counted zero-letter loop on state 0 of weight at least two keeps the loop
      from `{0: 1}` running for ever. */
  lemma SettleLoops(ts: seq<Transition>, ze: int, fuel: nat)
    requires Positive(ts)
    requires Find(ts, (0, ze, 0)).Some? && ts[Find(ts, (0, ze, 0)).value].weight.num >= 2
    ensures Settle(ts, ze, map[0 := 1], fuel) == Err(NoFixedPoint)
  {
    var j := Find(ts, (0, ze, 0)).value;
    SettleDiverges(ts, ze, map[0 := 1], fuel, j);
  }

  /** Every counted transition has a positive whole weight: it counts at least one
      transition of the DFA. */
  lemma CountedPositive(trans: seq<seq<Entry>>, out: seq<int>, mapper: Mapper, vars: seq<int>,
                        remap: Tuple -> Tuple, order: seq<Tuple>, pm: Mapper, ts: seq<Transition>)
    requires Callable(trans, out, mapper, vars, order)
    requires (pm, ts) == CountTransitions(trans, out, mapper, vars, remap, order)
    ensures Positive(ts)
  {
    var es := RawEdges(trans);
    forall i | 0 <= i < |ts| ensures ts[i].weight.num > 0 {
      var ki := KeyOf(ts[i]);
      WeightAt(ts, i);
      CountTransitionsWeights(trans, out, mapper, vars, remap, order, ki);
      FromIntZero(Multiplicity(es, ki, pm, vars, remap));
    }
  }

  /** Two transitions from state 0 back to itself with all-zero letters make a counted
      zero-letter loop on state 0 of weight at least two. */
  lemma ZeroLoop(trans: seq<seq<Entry>>, out: seq<int>, mapper: Mapper, vars: seq<int>,
                 remap: Tuple -> Tuple, order: seq<Tuple>, pm: Mapper, ts: seq<Transition>, i1: int, i2: int)
    requires Callable(trans, out, mapper, vars, order)
    requires (pm, ts) == CountTransitions(trans, out, mapper, vars, remap, order)
    requires |trans| > 0 && 0 <= i1 < i2 < |trans[0]|
    requires trans[0][i1].1 == 0 && remap(Project(trans[0][i1].0, vars)) == ZeroTuple(vars)
    requires trans[0][i2].1 == 0 && remap(Project(trans[0][i2].0, vars)) == ZeroTuple(vars)
    ensures var k := (0, Get(pm, ZeroTuple(vars)).1, 0);
      Find(ts, k).Some? && ts[Find(ts, k).value].weight.num >= 2
  {
    var ze := Get(pm, ZeroTuple(vars)).1;
    var es := RawEdges(trans);
    RawEdgesFit(trans, |out|, vars);
    RawEdgesHead(trans, i1);
    RawEdgesHead(trans, i2);
    var k := (0, ze, 0);
    assert ZeroTuple(vars) in pm.toInt by {
      assert Letter(es[i1], vars, remap) == ZeroTuple(vars);
    }
    MultiplicityTwo(es, k, pm, vars, remap, i1, i2);
    CountTransitionsWeights(trans, out, mapper, vars, remap, order, k);
    FromIntZero(Multiplicity(es, k, pm, vars, remap));
    var f := Find(ts, k);
    if f.Some? {
      WeightAt(ts, f.value);
    }
  }

  /** Two transitions from state 0 back to itself whose letters both project and
      remap to the all-zero tuple merge into one zero-letter loop of weight two, and
      the fixed-point loop never ends, whatever the bound on its rounds. */
  lemma DfaCountDiverges(trans: seq<seq<Entry>>, out: seq<int>, mapper: Mapper, vars: seq<int>,
                         remap: Tuple -> Tuple, order: seq<Tuple>, fuel: nat, i1: int, i2: int)
    requires Callable(trans, out, mapper, vars, order)
    requires |trans| > 0 && 0 <= i1 < i2 < |trans[0]|
    requires trans[0][i1].1 == 0 && remap(Project(trans[0][i1].0, vars)) == ZeroTuple(vars)
    requires trans[0][i2].1 == 0 && remap(Project(trans[0][i2].0, vars)) == ZeroTuple(vars)
    ensures DfaCount(trans, out, mapper, vars, remap, order, fuel) == Err(NoFixedPoint)
  {
    var (pm, ts) := CountTransitions(trans, out, mapper, vars, remap, order);
    var ze := Get(pm, ZeroTuple(vars)).1;
    ZeroLoop(trans, out, mapper, vars, remap, order, pm, ts, i1, i2);
    CountedPositive(trans, out, mapper, vars, remap, order, pm, ts);
    SettleLoops(ts, ze, fuel);
    DfaCountSettles(trans, out, mapper, vars, remap, order, fuel);
  }
}

=== FILE: export.dfy ===
/** The writers of walnut.hh: `pretty` and `to_walnut`, which serialise an
    automaton back into the Walnut DFA text that `dfa_from_walnut` reads. */
module Export {
  import opened Results
  import opened Rationals
  import opened Gmpq
  import opened Text
  import opened Lex
  import opened Labels
  import opened Automata
  import opened WalnutParser
  import opened Recipes

  // ---------------------------------------------------------------------
  // pretty

  /** `pretty(v)`: the integers of `v` in decimal, separated by single blanks. */
  function Pretty(v: seq<int>): string
    decreases |v|
  {
    if |v| == 0 then ""
    else if |v| == 1 then IntToString(v[0])
    else IntToString(v[0]) + " " + Pretty(v[1..])
  }

  /** No character of `s` is `>`, so `s` holds no arrow. */
  predicate NoGt(s: string)
  {
    forall j :: 0 <= j < |s| ==> s[j] != '>'
  }

  lemma IntToStringNoGt(i: int)
    ensures |IntToString(i)| > 0 && NoGt(IntToString(i))
  {
    if i < 0 {
      var s := IntToString(i);
      assert forall j :: 0 < j < |s| ==> s[j] == NatToString(-i)[j - 1];
    }
  }

  lemma {:induction false} PrettyNoGt(v: seq<int>)
    ensures NoGt(Pretty(v))
    decreases |v|
  {
    if |v| > 0 {
      IntToStringNoGt(v[0]);
      if |v| > 1 {
        PrettyNoGt(v[1..]);
      }
    }
  }

  lemma ExtractIntsAfterSpace(s: string)
    ensures ExtractInts(" " + s) == ExtractInts(s)
  {
    ExtractIntAfterSpace(s);
  }

  /** One successful read heads the list `ExtractInts` collects. */
  lemma ExtractIntsStep(s: string, v: int, rest: string)
    requires ExtractInt(s) == Read(v, rest)
    ensures ExtractInts(s) == [v] + ExtractInts(rest)
  {
  }

  /** An integer and a blank in front of some text add that integer in front of
      what the text reads as. */
  lemma ReadsCons(x: int, t: string)
    ensures ExtractInts(IntToString(x) + (" " + t)) == [x] + ExtractInts(t)
  {
    ExtractIntOfString(x, " " + t);
    ExtractIntsStep(IntToString(x) + (" " + t), x, " " + t);
    ExtractIntsAfterSpace(t);
  }

  lemma ReadsLast(x: int, tail: string)
    requires |tail| == 0 || tail[0] == ' '
    ensures ExtractInts(IntToString(x) + tail) == [x] + ExtractInts(tail)
  {
    ExtractIntOfString(x, tail);
    ExtractIntsStep(IntToString(x) + tail, x, tail);
  }

  lemma Regroup(a: string, b: string, c: string, d: string)
    ensures a + b + c + d == a + (b + (c + d))
  {
  }

  lemma ConsSplit(v: seq<int>, e: seq<int>)
    requires |v| > 0
    ensures [v[0]] + (v[1..] + e) == v + e
  {
    assert v == [v[0]] + v[1..];
  }

  lemma PrettyCons(v: seq<int>)
    requires |v| > 1
    ensures Pretty(v) == IntToString(v[0]) + " " + Pretty(v[1..])
  {
  }

  /** The inductive step of `PrettyReads`. */
  lemma PrettyReadsCons(v: seq<int>, tail: string)
    requires |v| > 1
    requires |tail| == 0 || tail[0] == ' '
    requires ExtractInts(Pretty(v[1..]) + tail) == v[1..] + ExtractInts(tail)
    ensures ExtractInts(Pretty(v) + tail) == v + ExtractInts(tail)
  {
    var p := Pretty(v[1..]);
    var x := IntToString(v[0]);
    PrettyCons(v);
    Regroup(x, " ", p, tail);
    assert Pretty(v) + tail == x + (" " + (p + tail));
    ReadsCons(v[0], p + tail);
    ConsSplit(v, ExtractInts(tail));
  }

  lemma PrettyReadsShort(v: seq<int>, tail: string)
    requires |v| <= 1
    requires |tail| == 0 || tail[0] == ' '
    ensures ExtractInts(Pretty(v) + tail) == v + ExtractInts(tail)
  {
    if |v| == 0 {
      assert Pretty(v) + tail == tail;
    } else {
      assert v == [v[0]];
      PrettySingle(v[0], tail);
    }
  }

  lemma PrettySingle(x: int, tail: string)
    requires |tail| == 0 || tail[0] == ' '
    ensures ExtractInts(Pretty([x]) + tail) == [x] + ExtractInts(tail)
  {
    assert Pretty([x]) == IntToString(x);
    ReadsLast(x, tail);
  }

  /** Reading integers from `pretty(v)` followed by blank-led text gives `v`, then
      whatever the text holds. */
  lemma {:induction false} PrettyReads(v: seq<int>, tail: string)
    requires |tail| == 0 || tail[0] == ' '
    ensures ExtractInts(Pretty(v) + tail) == v + ExtractInts(tail)
    decreases |v|
  {
    if |v| <= 1 {
      PrettyReadsShort(v, tail);
    } else {
      PrettyReads(v[1..], tail);
      PrettyReadsCons(v, tail);
    }
  }

  /** `pretty` is read back by `>>`. */
  lemma PrettyRoundTrip(v: seq<int>)
    ensures ExtractInts(Pretty(v)) == v
  {
    PrettyReads(v, "");
    assert Pretty(v) + "" == Pretty(v);
  }

  /** A single blank after `pretty(v)`, as `to_walnut` puts before the arrow, adds
      nothing to what is read. */
  lemma PrettyThenBlank(v: seq<int>, b: string)
    requires |b| == 1 && b[0] == ' '
    ensures ExtractInts(Pretty(v) + b) == v
  {
    PrettyReads(v, b);
    BlankHoldsNoInts(b);
  }

  lemma BlankHoldsNoInts(b: string)
    requires |b| == 1 && IsCSpace(b[0])
    ensures ExtractInts(b) == []
  {
    assert b[1..] == "";
    assert SkipCSpace(b) == "";
  }

  // ---------------------------------------------------------------------
  // to_walnut: state order

  /** `ordered` in `to_walnut`: the state `q0` first, then every other state in
      increasing order. */
  function Ordered(n: nat, q0: nat): (r: seq<nat>)
    requires q0 < n
    ensures |r| == n && r[0] == q0
    ensures forall i :: 0 < i < n ==> r[i] == if i <= q0 then i - 1 else i
    ensures forall i :: 0 <= i < n ==> r[i] < n
    ensures forall i, j :: 0 <= i < j < n ==> r[i] != r[j]
  {
    [q0] + seq(n - 1, (i: int) requires 0 <= i => if i < q0 then i else i + 1)
  }

  /** `std::find(ordered, q) - ordered.begin()`: the first position holding `q`. */
  function Position(n: nat, q0: nat, q: nat): (p: nat)
    requires q0 < n && q < n
    ensures p < n && Ordered(n, q0)[p] == q
    ensures forall j :: 0 <= j < p ==> Ordered(n, q0)[j] != q
  {
    if q == q0 then 0 else if q < q0 then q + 1 else q
  }

  /** `Position` inverts `Ordered`: every state is listed once. */
  lemma PositionOrdered(n: nat, q0: nat, i: nat)
    requires q0 < n && i < n
    ensures Position(n, q0, Ordered(n, q0)[i]) == i
  {
  }

  // ---------------------------------------------------------------------
  // to_walnut: the text

  /** `A->out(q, a)`: the transitions of `q` labelled `a`, in store order. */
  function Out(ts: seq<Transition>, q: nat, a: int): (r: seq<Transition>)
    ensures forall x :: x in r ==> x in ts && x.src == q && x.letter == a
    ensures forall i :: 0 <= i < |ts| && ts[i].src == q && ts[i].letter == a ==> ts[i] in r
  {
    Keep(ts, (k: Key) => k.0 == q && k.1 == a)
  }

  /** The pairs (label tuple, target position) written for the transitions `outs`. */
  function Targets(tuple: Tuple, outs: seq<Transition>, n: nat, q0: nat): (r: seq<Entry>)
    requires q0 < n && forall x :: x in outs ==> x.dst < n
    ensures |r| == |outs|
    ensures forall i :: 0 <= i < |r| ==> r[i] == (tuple, Position(n, q0, outs[i].dst) as int)
  {
    seq(|outs|, (i: int) requires 0 <= i < |outs| => (tuple, Position(n, q0, outs[i].dst) as int))
  }

  lemma FitsMembers(ts: seq<Transition>, n: nat)
    requires Fits(ts, n)
    ensures forall x :: x in ts ==> x.src < n && x.dst < n
  {
  }

  /** What `to_walnut` writes for state `q`, as (label tuple, target position)
      pairs: the labels in the order `labels` gives, each with its transitions in
      store order. */
  function EdgesOf(a: Aut, al: Mapper, q0: nat, q: nat, labels: seq<int>): (r: seq<Entry>)
    requires Fits(a.trans, a.n) && q0 < a.n
    requires InRange(Size(al), labels)
    ensures forall i :: 0 <= i < |r| ==> exists j :: 0 <= j < |labels| && r[i].0 == al.toTuple[labels[j]]
    decreases |labels|
  {
    if |labels| == 0 then []
    else
      var c := labels[0];
      FitsMembers(a.trans, a.n);
      var head := Targets(At(al, c), Out(a.trans, q, c), a.n, q0);
      var rest := EdgesOf(a, al, q0, q, labels[1..]);
      var r := head + rest;
      forall i | 0 <= i < |r| ensures exists j :: 0 <= j < |labels| && r[i].0 == al.toTuple[labels[j]] {
        if i < |head| {
          assert r[i].0 == al.toTuple[labels[0]];
        } else {
          assert r[i] == rest[i - |head|];
          var j :| 0 <= j < |labels[1..]| && rest[i - |head|].0 == al.toTuple[labels[1..][j]];
          assert labels[1..][j] == labels[j + 1];
        }
      }
      r
  }

  /** One transition line: `pretty(al[label]) -> ss`. */
  function EdgeLine(e: Entry): string
  {
    Pretty(e.0) + " -> " + IntToString(e.1)
  }

  function EdgeLines(es: seq<Entry>): (r: seq<string>)
    ensures |r| == |es| && forall i :: 0 <= i < |es| ==> r[i] == EdgeLine(es[i])
  {
    seq(|es|, (i: int) requires 0 <= i < |es| => EdgeLine(es[i]))
  }

  /** One state line: the position `s` and the final weight as `operator<<` prints it. */
  function StateText(s: nat, w: Rat): string
  {
    IntToString(s) + " " + MpqText(w)
  }

  /** The final weight of the state written at position `s`. */
  function FinalAt(a: Aut, q0: nat, s: nat): Rat
    requires q0 < a.n && s < a.n
  {
    ValueAt(a.final, Ordered(a.n, q0)[s])
  }

  /** The pairs written for the state at position `s`, labels in `al.labels()` order. */
  function Edges(a: Aut, al: Mapper, q0: nat, s: nat): seq<Entry>
    requires Fits(a.trans, a.n) && q0 < a.n && s < a.n && Valid(al)
  {
    EdgesOf(a, al, q0, Ordered(a.n, q0)[s], Labels.Labels(al))
  }

  /** The lines of the state at position `s`: a blank line, the state line, then
      one line per transition. */
  function Block(a: Aut, al: Mapper, q0: nat, s: nat): seq<string>
    requires Fits(a.trans, a.n) && q0 < a.n && s < a.n && Valid(al)
  {
    ["", StateText(s, FinalAt(a, q0, s))] + EdgeLines(Edges(a, al, q0, s))
  }

  /** The blocks of the states at positions `0 .. m-1`. */
  function Blocks(a: Aut, al: Mapper, q0: nat, m: nat): (r: seq<string>)
    requires Fits(a.trans, a.n) && q0 < a.n && m <= a.n && Valid(al)
    ensures m > 0 ==> |r| > 0 && r[0] == ""
  {
    if m == 0 then [] else Blocks(a, al, q0, m - 1) + Block(a, al, q0, m - 1)
  }

  /** `ns` written `k` times, separated by blanks. */
  function HeaderLine(ns: string, k: nat): string
    requires k > 0
  {
    if k == 1 then ns else ns + " " + HeaderLine(ns, k - 1)
  }

  /** `to_walnut(A, al, out, ns)`, as the lines of the text it writes (each line is
      followed by a newline). The header names `ns` once per component of `al[0]`
      and is absent when that tuple is empty; the state that the first initial
      transition enters is `q0`, which the engine's storage order decides, so it is
      a parameter here. */
  function ToWalnut(a: Aut, al: Mapper, ns: string, q0: nat): (r: seq<string>)
    requires WellFormed(a) && q0 in a.initial
    requires Valid(al) && Size(al) > 0
    ensures |r| > 0
    ensures |At(al, 0)| > 0 ==> r[0] == HeaderLine(ns, |At(al, 0)|)
    ensures |At(al, 0)| == 0 ==> r[0] == ""
  {
    var k := |At(al, 0)|;
    var header := if k == 0 then [] else [HeaderLine(ns, k)];
    assert q0 < a.n;
    header + Blocks(a, al, q0, a.n)
  }

  // ---------------------------------------------------------------------
  // Reading the text back

  /** The reader `dfa_from_walnut` starts from after the header, for empty outputs. */
  const Start := Reader([], [], Empty, -1, [])

  lemma StartGood()
    ensures Good(Start)
  {
    EmptyValid();
  }

  lemma {:induction false} ParseLinesAppend(r: Reader, xs: seq<string>, ys: seq<string>)
    requires Good(r) && ParseLines(r, xs).Ok?
    ensures ParseLines(r, xs + ys) == ParseLines(ParseLines(r, xs).value, ys)
    decreases |xs|
  {
    if |xs| == 0 {
      assert xs + ys == ys;
    } else {
      assert (xs + ys)[0] == xs[0];
      assert (xs + ys)[1..] == xs[1..] + ys;
      var r1 := ParseLine(r, xs[0]).value;
      ParseLinesAppend(r1, xs[1..], ys);
    }
  }

  /** The first arrow of a transition line is the one after the label. */
  lemma EdgeLineArrow(e: Entry)
    ensures FindArrow(EdgeLine(e)) == Some(|Pretty(e.0)| + 1)
  {
    PrettyNoGt(e.0);
    ArrowAfter(Pretty(e.0), IntToString(e.1));
  }

  /** Text free of `>`, a blank, then an arrow: the arrow is the first one. */
  lemma ArrowAfter(pr: string, x: string)
    requires NoGt(pr)
    ensures FindArrow(pr + " -> " + x) == Some(|pr| + 1)
  {
    var line := pr + " -> " + x;
    var p := |pr| + 1;
    assert line[|pr|] == ' ' && line[p] == '-' && line[p + 1] == '>';
    forall j | 0 <= j < p ensures !ArrowAt(line, j) {
      if j + 1 < |pr| {
        assert line[j + 1] == pr[j + 1];
      }
    }
    FirstArrow(line, p);
  }

  lemma FirstArrow(s: string, p: nat)
    requires ArrowAt(s, p)
    requires forall j :: 0 <= j < p ==> !ArrowAt(s, j)
    ensures FindArrow(s) == Some(p)
  {
  }

  /** The two sides of an arrow line, blanks included. */
  lemma SplitAtArrow(pr: string, x: string)
    ensures (pr + " -> " + x)[..|pr| + 1] == pr + " "
    ensures (pr + " -> " + x)[|pr| + 3..] == " " + x
  {
  }

  lemma EdgeLineLabel(e: Entry)
    ensures ExtractInts(EdgeLine(e)[..|Pretty(e.0)| + 1]) == e.0
  {
    var pr := Pretty(e.0);
    SplitAtArrow(pr, IntToString(e.1));
    PrettyThenBlank(e.0, " ");
  }

  /** `>>` reads a whole decimal integer to the end of the text. */
  lemma ReadsWhole(i: int)
    ensures ExtractInt(IntToString(i)) == Read(i, "")
  {
    ExtractIntOfString(i, "");
    assert IntToString(i) + "" == IntToString(i);
  }

  lemma EdgeLineTarget(e: Entry)
    ensures Stoi(EdgeLine(e)[|Pretty(e.0)| + 3..]) == Ok(e.1)
  {
    var pr := Pretty(e.0);
    var x := IntToString(e.1);
    var line := EdgeLine(e);
    assert line == pr + " -> " + x;
    SplitAtArrow(pr, x);
    var t := line[|pr| + 3..];
    assert t == " " + x;
    StoiOfString(t[..1], e.1, "");
    assert t[..1] + x + "" == t;
    assert Stoi(t) == Ok(e.1);
  }

  /** A transition line is read back as its label tuple and target. */
  lemma EdgeLineParses(e: Entry)
    ensures var line := EdgeLine(e); var p := |Pretty(e.0)| + 1;
      line != "" && FindArrow(line) == Some(p)
      && ExtractInts(line[..p]) == e.0 && Stoi(line[p + 2..]) == Ok(e.1)
  {
    EdgeLineArrow(e);
    EdgeLineLabel(e);
    EdgeLineTarget(e);
  }

  lemma MpqTextNoGt(w: Rat)
    ensures NoGt(MpqText(w))
  {
    IntToStringNoGt(w.num);
    IntToStringNoGt(w.den);
  }

  /** `>>` reads the numerator of a value `operator<<` printed, and stops before a
      `/`. */
  lemma MpqTextReads(w: Rat)
    ensures ExtractInt(MpqText(w)).Read? && ExtractInt(MpqText(w)).value == w.num
  {
    if w.den == 1 {
      ReadsWhole(w.num);
    } else {
      var rest := "/" + IntToString(w.den);
      var m := MpqText(w);
      assert m == IntToString(w.num) + rest;
      ExtractIntOfString(w.num, rest);
    }
  }

  /** A text without `>` holds no arrow. */
  lemma NoGtNoArrow(s: string)
    requires NoGt(s)
    ensures FindArrow(s) == None
  {
  }

  lemma StateTextNoArrow(s: nat, w: Rat)
    ensures FindArrow(StateText(s, w)) == None
  {
    IntToStringNoGt(s);
    MpqTextNoGt(w);
    var line := StateText(s, w);
    assert line == IntToString(s) + " " + MpqText(w);
    assert NoGt(line);
    NoGtNoArrow(line);
  }

  lemma StateTextFields(s: nat, w: Rat)
    ensures StateFields(StateText(s, w)) == Ok((s, w.num))
  {
    var m := MpqText(w);
    var line := StateText(s, w);
    assert line == IntToString(s) + (" " + m);
    ExtractIntOfString(s, " " + m);
    assert ExtractInt(line) == Read(s, " " + m);
    ExtractIntAfterSpace(m);
    MpqTextReads(w);
  }

  /** A state line is read back as its position and the numerator of its weight. */
  lemma StateTextParses(s: nat, w: Rat)
    ensures var line := StateText(s, w);
      line != "" && FindArrow(line) == None && StateFields(line) == Ok((s, w.num))
  {
    StateTextNoArrow(s, w);
    StateTextFields(s, w);
    IntToStringNoGt(s);
  }

  /** A transition line adds its pair to the pending table. */
  lemma EdgeLineStep(r: Reader, e: Entry)
    requires Good(r)
    ensures ParseLine(r, EdgeLine(e)).Ok?
    ensures var r' := ParseLine(r, EdgeLine(e)).value;
      r'.table == Put(r.table, e.0, e.1) && r'.trans == r.trans && r'.out == r.out && r'.current == r.current
  {
    var line := EdgeLine(e);
    EdgeLineParses(e);
    var p := |Pretty(e.0)| + 1;
    assert ParseLine(r, line) == ArrowLine(r, line, p);
  }

  lemma {:induction false} EdgesParse(r: Reader, es: seq<Entry>)
    requires Good(r)
    ensures ParseLines(r, EdgeLines(es)).Ok?
    ensures var r' := ParseLines(r, EdgeLines(es)).value;
      r'.table == PutAll(r.table, es) && r'.trans == r.trans && r'.out == r.out && r'.current == r.current
    decreases |es|
  {
    var lines := EdgeLines(es);
    if |es| > 0 {
      EdgeLineStep(r, es[0]);
      var r1 := ParseLine(r, lines[0]).value;
      assert lines[1..] == EdgeLines(es[1..]);
      assert ParseLines(r, lines) == ParseLines(r1, lines[1..]);
      EdgesParse(r1, es[1..]);
    }
  }

  /** `m[k] = v` for every pair of `es` in order. */
  function PutAll(t: seq<Entry>, es: seq<Entry>): (r: seq<Entry>)
    requires Sorted(t)
    ensures Sorted(r)
    decreases |es|
  {
    if |es| == 0 then t else PutAll(Put(t, es[0].0, es[0].1), es[1..])
  }

  /** A state line starts that state. */
  lemma StateLineStep(r: Reader, s: nat, w: Rat)
    requires Good(r)
    ensures ParseLine(r, StateText(s, w)) == Ok(StartState(r, s, w.num))
  {
    StateTextParses(s, w);
  }

  /** One state block moves the reader to that state, with the block's table pending. */
  lemma BlockParses(r: Reader, s: nat, w: Rat, es: seq<Entry>)
    requires Good(r)
    ensures var b := ["", StateText(s, w)] + EdgeLines(es);
      ParseLines(r, b).Ok? &&
      var r' := ParseLines(r, b).value;
      var r0 := StartState(r, s, w.num);
      r'.trans == r0.trans && r'.out == r0.out && r'.current == s && r'.table == PutAll([], es)
  {
    var b := ["", StateText(s, w)] + EdgeLines(es);
    var r0 := StartState(r, s, w.num);
    StateLineStep(r, s, w);
    assert b[0] == "" && b[1..][0] == StateText(s, w) && b[1..][1..] == EdgeLines(es);
    assert ParseLines(r, b) == ParseLines(r, b[1..]);
    assert ParseLines(r, b[1..]) == ParseLines(r0, EdgeLines(es));
    EdgesParse(r0, es);
  }

  /** The tables `dfa_from_walnut` should rebuild, by position. */
  function Tables(a: Aut, al: Mapper, q0: nat): (r: seq<seq<Entry>>)
    requires Fits(a.trans, a.n) && q0 < a.n && Valid(al)
    ensures |r| == a.n && forall s :: 0 <= s < a.n ==> r[s] == PutAll([], Edges(a, al, q0, s))
  {
    seq(a.n, (s: int) requires 0 <= s < a.n => PutAll([], Edges(a, al, q0, s)))
  }

  /** The outputs `dfa_from_walnut` should rebuild, by position. */
  function Outs(a: Aut, q0: nat): (r: seq<int>)
    requires q0 < a.n
    ensures |r| == a.n && forall s :: 0 <= s < a.n ==> r[s] == FinalAt(a, q0, s).num
  {
    seq(a.n, (s: int) requires 0 <= s < a.n => FinalAt(a, q0, s).num)
  }

  /** What the reader holds after the blocks of the first `m` positions. */
  predicate ReadBack(r: Reader, tables: seq<seq<Entry>>, outs: seq<int>, m: nat)
    requires m <= |tables| && m <= |outs|
  {
    |r.trans| == m && |r.out| == m && r.current == m - 1
    && (forall s :: 0 <= s < m - 1 ==> r.trans[s] == tables[s])
    && (m > 0 ==> r.table == tables[m - 1])
    && (forall s :: 0 <= s < m ==> r.out[s] == outs[s])
  }

  /** The reader after one more block. */
  lemma ReadBackNext(r: Reader, r': Reader, tables: seq<seq<Entry>>, outs: seq<int>, m: nat)
    requires 0 < m <= |tables| && m <= |outs| && Good(r)
    requires ReadBack(r, tables, outs, m - 1)
    requires var r0 := StartState(r, m - 1, outs[m - 1]);
      r'.trans == r0.trans && r'.out == r0.out && r'.current == m - 1 && r'.table == tables[m - 1]
    ensures ReadBack(r', tables, outs, m)
  {
    var r0 := StartState(r, m - 1, outs[m - 1]);
    assert |r0.trans| == m && |r0.out| == m;
    assert forall s :: 0 <= s < m - 1 ==> r0.out[s] == r.out[s];
    assert m > 1 ==> r0.trans[m - 2] == r.table;
    assert forall s :: 0 <= s < m - 2 ==> r0.trans[s] == r.trans[s];
  }

  lemma {:induction false} BlocksParse(a: Aut, al: Mapper, q0: nat, m: nat)
    requires Fits(a.trans, a.n) && q0 < a.n && m <= a.n && Valid(al)
    ensures ParseLines(Start, Blocks(a, al, q0, m)).Ok?
    ensures ReadBack(ParseLines(Start, Blocks(a, al, q0, m)).value, Tables(a, al, q0), Outs(a, q0), m)
    decreases m
  {
    StartGood();
    if m > 0 {
      BlocksParse(a, al, q0, m - 1);
      var prefix := Blocks(a, al, q0, m - 1);
      var block := Block(a, al, q0, m - 1);
      var r := ParseLines(Start, prefix).value;
      var w := FinalAt(a, q0, m - 1);
      var es := Edges(a, al, q0, m - 1);
      assert Blocks(a, al, q0, m) == prefix + block;
      ParseLinesAppend(Start, prefix, block);
      BlockParses(r, m - 1, w, es);
      ReadBackNext(r, ParseLines(r, block).value, Tables(a, al, q0), Outs(a, q0), m);
    }
  }

  /** Round trip: `dfa_from_walnut` reads the text `to_walnut` writes back as one
      state per position, with the numerator of each final weight as the output and,
      as table, the label tuples and target positions in the order they were written
      (a later line for the same tuple overwriting an earlier one). */
  lemma ToWalnutRoundTrip(a: Aut, al: Mapper, ns: string, q0: nat)
    requires WellFormed(a) && q0 in a.initial
    requires Valid(al) && Size(al) > 0
    ensures var r := DfaFromWalnut(ToWalnut(a, al, ns, q0), [], [], Empty);
      r.Ok? && r.value.0 == Tables(a, al, q0) && r.value.1 == Outs(a, q0)
  {
    EmptyValid();
    StartGood();
    assert q0 < a.n;
    BlocksParse(a, al, q0, a.n);
    WalnutBody(a, al, ns, q0);
    var r := ParseLines(Start, Blocks(a, al, q0, a.n)).value;
    DfaFromParsed(ToWalnut(a, al, ns, q0), r);
    ReadBackFlush(r, Tables(a, al, q0), Outs(a, q0));
  }

  /** Past the header line, the text reads as its blocks: when the header is empty it
      is the blank first line of the first block, which reads as nothing. */
  lemma WalnutBody(a: Aut, al: Mapper, ns: string, q0: nat)
    requires WellFormed(a) && q0 in a.initial
    requires Valid(al) && Size(al) > 0
    ensures q0 < a.n
    ensures ParseLines(Start, ToWalnut(a, al, ns, q0)[1..]) == ParseLines(Start, Blocks(a, al, q0, a.n))
  {
    StartGood();
    assert q0 < a.n;
    var lines := ToWalnut(a, al, ns, q0);
    var blocks := Blocks(a, al, q0, a.n);
    if |At(al, 0)| > 0 {
      assert lines[1..] == blocks;
    } else {
      assert lines == blocks;
      assert ParseLine(Start, blocks[0]) == Ok(Start);
    }
  }

  /** `dfa_from_walnut` on an empty start stores the last table of what the lines after
      the header read as. */
  lemma DfaFromParsed(lines: seq<string>, r: Reader)
    requires Good(Start)
    requires |lines| > 0 && ParseLines(Start, lines[1..]) == Ok(r)
    ensures Valid(Empty)
    ensures DfaFromWalnut(lines, [], [], Empty) == Ok((Flush(r).trans, Flush(r).out, Flush(r).mapper))
  {
    EmptyValid();
  }

  /** Once every block is read, storing the last table gives the tables and outputs. */
  lemma ReadBackFlush(r: Reader, tables: seq<seq<Entry>>, outs: seq<int>)
    requires Good(r) && |tables| == |outs| > 0
    requires ReadBack(r, tables, outs, |tables|)
    ensures Flush(r).trans == tables && Flush(r).out == outs
  {
    var f := Flush(r);
    assert forall s :: 0 <= s < |tables| ==> f.trans[s] == tables[s];
  }

  // ---------------------------------------------------------------------
  // What the rebuilt tables hold

  /** The value of the last pair of `es` with key `k`, if any. */
  function LastFor(es: seq<Entry>, k: seq<int>): Option<int>
    decreases |es|
  {
    if |es| == 0 then None
    else match LastFor(es[1..], k)
      case Some(v) => Some(v)
      case None => if es[0].0 == k then Some(es[0].1) else None
  }

  /** `m[k] = v` applied in order leaves the last value written under each key. */
  lemma {:induction false} PutAllLookup(t: seq<Entry>, es: seq<Entry>, k: seq<int>)
    requires Sorted(t)
    ensures Lookup(PutAll(t, es), k) == match LastFor(es, k) case Some(v) => Some(v) case None => Lookup(t, k)
    decreases |es|
  {
    if |es| > 0 {
      var t1 := Put(t, es[0].0, es[0].1);
      PutAllLookup(t1, es[1..], k);
      PutLookup(t, es[0].0, es[0].1, k);
    }
  }

  lemma {:induction false} LastForAppend(xs: seq<Entry>, ys: seq<Entry>, k: seq<int>)
    ensures LastFor(xs + ys, k) == match LastFor(ys, k) case Some(v) => Some(v) case None => LastFor(xs, k)
    decreases |xs|
  {
    if |xs| == 0 {
      assert xs + ys == ys;
    } else {
      assert (xs + ys)[1..] == xs[1..] + ys;
      LastForAppend(xs[1..], ys, k);
    }
  }

  lemma {:induction false} LastForAbsent(es: seq<Entry>, k: seq<int>)
    requires forall i :: 0 <= i < |es| ==> es[i].0 != k
    ensures LastFor(es, k) == None
    decreases |es|
  {
    if |es| > 0 {
      LastForAbsent(es[1..], k);
    }
  }

  /** Within one label's pairs, the last transition decides the target. */
  lemma {:induction false} LastForTargets(tuple: Tuple, outs: seq<Transition>, n: nat, q0: nat)
    requires q0 < n && forall x :: x in outs ==> x.dst < n
    ensures LastFor(Targets(tuple, outs, n, q0), tuple)
         == if |outs| == 0 then None else Some(Position(n, q0, outs[|outs| - 1].dst) as int)
    decreases |outs|
  {
    var r := Targets(tuple, outs, n, q0);
    if |outs| > 0 {
      var m := |outs| - 1;
      assert r == Targets(tuple, outs[..m], n, q0) + [r[m]];
      LastForAppend(Targets(tuple, outs[..m], n, q0), [r[m]], tuple);
      assert LastFor([r[m]], tuple) == Some(r[m].1);
    }
  }

  /** The pairs written for `q` under code `c`, among all the labels `labels`. */
  lemma {:induction false} LastForEdges(a: Aut, al: Mapper, q0: nat, q: nat, labels: seq<int>, c: int)
    requires Fits(a.trans, a.n) && q0 < a.n && Valid(al)
    requires InRange(Size(al), labels) && 0 <= c < Size(al)
    requires forall i, j :: 0 <= i < j < |labels| ==> labels[i] != labels[j]
    ensures var outs := Out(a.trans, q, c);
      LastFor(EdgesOf(a, al, q0, q, labels), At(al, c))
      == if c !in labels || |outs| == 0 then None else Some(Position(a.n, q0, outs[|outs| - 1].dst) as int)
    decreases |labels|
  {
    var k := At(al, c);
    if |labels| > 0 {
      var c0 := labels[0];
      FitsMembers(a.trans, a.n);
      var head := Targets(At(al, c0), Out(a.trans, q, c0), a.n, q0);
      var rest := EdgesOf(a, al, q0, q, labels[1..]);
      LastForAppend(head, rest, k);
      LastForEdges(a, al, q0, q, labels[1..], c);
      if c0 == c {
        assert c !in labels[1..];
        LastForTargets(k, Out(a.trans, q, c), a.n, q0);
      } else {
        assert At(al, c0) != k;
        LastForAbsent(head, k);
        assert c in labels <==> c in labels[1..];
      }
    }
  }

  /** A tuple that is no label of `al` is never written. */
  lemma LastForForeign(a: Aut, al: Mapper, q0: nat, q: nat, labels: seq<int>, t: Tuple)
    requires Fits(a.trans, a.n) && q0 < a.n && Valid(al)
    requires InRange(Size(al), labels) && t !in al.toInt
    ensures LastFor(EdgesOf(a, al, q0, q, labels), t) == None
  {
    var es := EdgesOf(a, al, q0, q, labels);
    forall i | 0 <= i < |es| ensures es[i].0 != t {
      var j :| 0 <= j < |labels| && es[i].0 == al.toTuple[labels[j]];
    }
    LastForAbsent(es, t);
  }

  /** Among everything written for position `s`, the last pair under the tuple of
      `c` comes from the last transition labelled `c`. */
  lemma EdgesLast(a: Aut, al: Mapper, q0: nat, s: nat, c: int)
    requires Fits(a.trans, a.n) && q0 < a.n && Valid(al) && s < a.n && 0 <= c < Size(al)
    ensures var outs := Out(a.trans, Ordered(a.n, q0)[s], c);
      LastFor(Edges(a, al, q0, s), At(al, c))
      == if |outs| == 0 then None else Some(Position(a.n, q0, outs[|outs| - 1].dst) as int)
  {
    var labels := Labels.Labels(al);
    LabelsPermutation(al);
    assert c in LabelsSet(al);
    LastForEdges(a, al, q0, Ordered(a.n, q0)[s], labels, c);
  }

  lemma TableLookupCode(a: Aut, al: Mapper, q0: nat, s: nat, c: int)
    requires Fits(a.trans, a.n) && q0 < a.n && Valid(al) && s < a.n && 0 <= c < Size(al)
    ensures var outs := Out(a.trans, Ordered(a.n, q0)[s], c);
      Lookup(Tables(a, al, q0)[s], At(al, c))
      == if |outs| == 0 then None else Some(Position(a.n, q0, outs[|outs| - 1].dst) as int)
  {
    var es := Edges(a, al, q0, s);
    assert Tables(a, al, q0)[s] == PutAll([], es);
    PutAllLookup([], es, At(al, c));
    EdgesLast(a, al, q0, s, c);
  }

  lemma TableLookupForeign(a: Aut, al: Mapper, q0: nat, s: nat, t: Tuple)
    requires Fits(a.trans, a.n) && q0 < a.n && Valid(al) && s < a.n && t !in al.toInt
    ensures Lookup(Tables(a, al, q0)[s], t) == None
  {
    var es := Edges(a, al, q0, s);
    PutAllLookup([], es, t);
    LastForForeign(a, al, q0, Ordered(a.n, q0)[s], Labels.Labels(al), t);
  }

  /** Read back, the table of the state at position `s` maps the tuple of every
      label `c` to the position of the target of the last transition of that state
      labelled `c`, and holds no other tuple. */
  lemma ToWalnutTransitions(a: Aut, al: Mapper, ns: string, q0: nat, s: nat)
    requires WellFormed(a) && q0 in a.initial
    requires Valid(al) && Size(al) > 0 && s < a.n
    ensures q0 < a.n
    ensures var r := DfaFromWalnut(ToWalnut(a, al, ns, q0), [], [], Empty);
      r.Ok? && |r.value.0| == a.n && ReadsAsState(r.value.0[s], a, al, q0, s)
  {
    ToWalnutRoundTrip(a, al, ns, q0);
    forall c | 0 <= c < Size(al) {
      TableLookupCode(a, al, q0, s, c);
    }
    forall t | t !in al.toInt {
      TableLookupForeign(a, al, q0, s, t);
    }
  }

  /** The table read back for line position `s` sends every label of the mapper to
      the position of the last transition on it out of the state listed there, and
      holds nothing for any other letter tuple. */
  ghost predicate ReadsAsState(table: seq<Entry>, a: Aut, al: Mapper, q0: nat, s: nat)
    requires WellFormed(a) && q0 < a.n && s < a.n && Valid(al)
  {
    && (forall c :: 0 <= c < Size(al) ==>
          var outs := Out(a.trans, Ordered(a.n, q0)[s], c);
          Lookup(table, At(al, c))
          == if |outs| == 0 then None else Some(Position(a.n, q0, outs[|outs| - 1].dst) as int))
    && (forall t :: t !in al.toInt ==> Lookup(table, t) == None)
  }
}

=== FILE: gmpq.dfy ===
/** The `gmpq` weightset: the exact-rational semiring the weighted automata
    are built over, with its partial operations (division, star, plus), its
    conversions and its printers. */
module Gmpq {
  import opened Rationals
  import opened Results
  import opened Text

  // ---------------------------------------------------------------------
  // Field operations (zero, one, add, sub, mul forward to mpq_class)

  lemma RealRing(x: real, y: real, z: real)
    ensures x + y == y + x && (x + y) + z == x + (y + z)
    ensures x * y == y * x && (x * y) * z == x * (y * z)
    ensures x * (y + z) == x * y + x * z && (x + y) * z == x * z + y * z
    ensures (x - y) + y == x && (x + y) - y == x && x - y == x + -y && x + -x == 0.0
    ensures -x + -y == -(x + y) && -x * y == -(x * y)
  {
  }

  lemma AddLaws(a: Rat, b: Rat, c: Rat)
    ensures Add(a, b) == Add(b, a)
    ensures Add(Add(a, b), c) == Add(a, Add(b, c))
    ensures Add(a, Zero) == a && Add(Zero, a) == a
  {
    RealRing(ToReal(a), ToReal(b), ToReal(c));
    SameReal(Add(a, b), Add(b, a));
    SameReal(Add(Add(a, b), c), Add(a, Add(b, c)));
    ZeroReal();
    SameReal(Add(a, Zero), a);
    SameReal(Add(Zero, a), a);
  }

  lemma AddZero(a: Rat)
    ensures Add(a, Zero) == a && Add(Zero, a) == a
  {
    AddLaws(a, Zero, Zero);
  }

  lemma AddAssoc(a: Rat, b: Rat, c: Rat)
    ensures Add(Add(a, b), c) == Add(a, Add(b, c))
  {
    AddLaws(a, b, c);
  }

  lemma AddComm(a: Rat, b: Rat)
    ensures Add(a, b) == Add(b, a)
  {
    AddLaws(a, b, b);
  }

  lemma FromIntZero(v: int)
    ensures FromInt(v) == Zero <==> v == 0
    ensures FromInt(v).num == v && FromInt(v).den == 1
  {
  }

  /** `conv(int)` turns integer addition into rational addition. */
  lemma AddInts(a: int, b: int)
    ensures Add(FromInt(a), FromInt(b)) == FromInt(a + b)
    ensures FromInt(0) == Zero && FromInt(1) == One
  {
    SameReal(Add(FromInt(a), FromInt(b)), FromInt(a + b));
  }

  lemma MulLaws(a: Rat, b: Rat, c: Rat)
    ensures Mul(a, b) == Mul(b, a)
    ensures Mul(Mul(a, b), c) == Mul(a, Mul(b, c))
    ensures Mul(a, One) == a && Mul(One, a) == a
    ensures Mul(a, Zero) == Zero && Mul(Zero, a) == Zero
  {
    RealRing(ToReal(a), ToReal(b), ToReal(c));
    SameReal(Mul(a, b), Mul(b, a));
    SameReal(Mul(Mul(a, b), c), Mul(a, Mul(b, c)));
    ZeroReal();
    SameReal(Mul(a, One), a);
    SameReal(Mul(One, a), a);
    SameReal(Mul(a, Zero), Zero);
    SameReal(Mul(Zero, a), Zero);
  }

  lemma Distributes(a: Rat, b: Rat, c: Rat)
    ensures Mul(a, Add(b, c)) == Add(Mul(a, b), Mul(a, c))
    ensures Mul(Add(a, b), c) == Add(Mul(a, c), Mul(b, c))
  {
    DistributesLeft(a, b, c);
    DistributesLeft(c, a, b);
    MulLaws(c, Add(a, b), c);
    MulLaws(c, a, c);
    MulLaws(c, b, c);
  }

  lemma DistributesLeft(a: Rat, b: Rat, c: Rat)
    ensures Mul(a, Add(b, c)) == Add(Mul(a, b), Mul(a, c))
  {
    var x, y, z := ToReal(a), ToReal(b), ToReal(c);
    assert x * (y + z) == x * y + x * z;
    SameReal(Mul(a, Add(b, c)), Add(Mul(a, b), Mul(a, c)));
  }

  /** `sub` undoes `add`, and every value has an additive inverse. */
  lemma SubLaws(a: Rat, b: Rat)
    ensures Add(Sub(a, b), b) == a
    ensures Sub(Add(a, b), b) == a
    ensures Sub(a, b) == Add(a, Neg(b))
    ensures Add(a, Neg(a)) == Zero
    ensures Neg(Neg(a)) == a
  {
    RealRing(ToReal(a), ToReal(b), 0.0);
    SameReal(Add(Sub(a, b), b), a);
    SameReal(Sub(Add(a, b), b), a);
    SameReal(Sub(a, b), Add(a, Neg(b)));
    ZeroReal();
    SameReal(Add(a, Neg(a)), Zero);
  }

  /** Negation distributes over the two semiring operations. */
  lemma NegLaws(a: Rat, b: Rat)
    ensures Add(Neg(a), Neg(b)) == Neg(Add(a, b))
    ensures Mul(Neg(a), b) == Neg(Mul(a, b))
    ensures Neg(Zero) == Zero
  {
    RealRing(ToReal(a), ToReal(b), 0.0);
    SameReal(Add(Neg(a), Neg(b)), Neg(Add(a, b)));
    SameReal(Mul(Neg(a), b), Neg(Mul(a, b)));
  }

  lemma MulZero(a: Rat)
    ensures Mul(a, Zero) == Zero && Mul(Zero, a) == Zero
  {
    ZeroReal();
    ZeroIff(Mul(a, Zero));
    ZeroIff(Mul(Zero, a));
  }

  /** Negation is an involution that fixes only zero. */
  lemma NegInvolution(a: Rat)
    ensures Neg(Neg(a)) == a
    ensures Neg(a) == Zero <==> a == Zero
  {
    ZeroIff(a);
    ZeroIff(Neg(a));
  }

  lemma RealDivision(x: real, w: real)
    requires w != 0.0
    ensures (x / w) * w == x
    ensures (x * w) / w == x
    ensures x / w == 1.0 / w - 1.0 <==> x == 1.0 - w
    ensures 1.0 / w == 1.0 + (1.0 - w) * (1.0 / w)
  {
  }

  // ---------------------------------------------------------------------
  // Partial operations

  /** `rdiv(l, r)`: `l / r`, or a domain error when `r` is zero. */
  function RDiv(l: Rat, r: Rat): (q: Result<Rat>)
    ensures q.Err? <==> r == Zero
    ensures q.Err? ==> q.error == DomainError("gmpq: division by zero")
    ensures q.Ok? ==> Mul(q.value, r) == l
  {
    ZeroIff(r);
    if r.num == 0 then Err(DomainError("gmpq: division by zero"))
    else
      Quotient(l, r);
      Ok(Div(l, r))
  }

  /** `ldiv(l, r)`: left division, `r / l`. */
  function LDiv(l: Rat, r: Rat): (q: Result<Rat>)
    ensures q.Err? <==> l == Zero
    ensures q.Ok? ==> Mul(q.value, l) == r
  {
    ZeroIff(l);
    RDiv(r, l)
  }

  /** Division is the inverse of multiplication by a non-zero value. */
  lemma RDivOfMul(a: Rat, b: Rat)
    requires b != Zero
    ensures RDiv(Mul(a, b), b) == Ok(a)
  {
    ZeroIff(b);
    RealDivision(ToReal(a), ToReal(b));
    SameReal(Div(Mul(a, b), b), a);
  }

  /** `abs(v)` */
  function Abs(v: Rat): (r: Rat)
    ensures !Less(r, Zero)
    ensures !Less(v, Zero) ==> r == v
    ensures r == v || r == Neg(v)
  {
    if Less(v, Zero) then Neg(v) else v
  }

  lemma AbsOfNeg(v: Rat)
    ensures Abs(Neg(v)) == Abs(v)
  {
  }

  /** The closure `v*` = 1 + v + v^2 + ... = 1/(1 - v), defined only when |v| < 1. */
  function Star(v: Rat): (r: Result<Rat>)
    ensures r.Ok? <==> Less(Abs(v), One)
    ensures r.Err? ==> r.error == DomainError("gmpq: star invalid value (|v| ≥ 1)")
    ensures r.Ok? ==> Sub(One, v) != Zero && Mul(r.value, Sub(One, v)) == One
  {
    if Less(Abs(v), One) then
      OneMinusNonZero(v);
      Quotient(One, Sub(One, v));
      Ok(Div(One, Sub(One, v)))
    else Err(DomainError("gmpq: star invalid value (|v| ≥ 1)"))
  }

  /** `v+` = v + v^2 + ... = v/(1 - v), defined only when |v| < 1. */
  function Plus(v: Rat): (r: Result<Rat>)
    ensures r.Ok? <==> Less(Abs(v), One)
    ensures r.Err? ==> r.error == DomainError("gmpq: plus invalid value (|v| ≥ 1)")
    ensures r.Ok? ==> Sub(One, v) != Zero && Mul(r.value, Sub(One, v)) == v
  {
    if Less(Abs(v), One) then
      OneMinusNonZero(v);
      Quotient(v, Sub(One, v));
      Ok(Div(v, Sub(One, v)))
    else Err(DomainError("gmpq: plus invalid value (|v| ≥ 1)"))
  }

  /** The quotient by a non-zero value, multiplied back, gives the dividend. */
  lemma Quotient(l: Rat, w: Rat)
    requires w.num != 0
    ensures Mul(Div(l, w), w) == l
  {
    ZeroIff(w);
    RealDivision(ToReal(l), ToReal(w));
    SameReal(Mul(Div(l, w), w), l);
  }

  lemma OneMinusNonZero(v: Rat)
    requires Less(Abs(v), One)
    ensures Sub(One, v).num != 0 && Sub(One, v) != Zero
  {
    ZeroIff(Sub(One, v));
    LessReal(Abs(v), One);
    ZeroReal();
    if Less(v, Zero) {
      assert ToReal(Abs(v)) == -ToReal(v);
    }
  }

  /** On their common domain, `plus(v) == star(v) - 1`. */
  lemma PlusIsStarMinusOne(v: Rat)
    ensures Plus(v).Ok? <==> Star(v).Ok?
    ensures Plus(v).Ok? ==> Plus(v).value == Sub(Star(v).value, One)
  {
    if Plus(v).Ok? {
      OneMinusNonZero(v);
      var w := Sub(One, v);
      ZeroReal();
      RealDivision(ToReal(v), ToReal(w));
      SameReal(Div(v, w), Sub(Div(One, w), One));
    }
  }

  /** The star satisfies the Kleene equation `v* = 1 + v.v*`. */
  lemma StarEquation(v: Rat)
    requires Star(v).Ok?
    ensures Star(v).value == Add(One, Mul(v, Star(v).value))
  {
    OneMinusNonZero(v);
    KleeneStep(v, Sub(One, v));
  }

  lemma KleeneStep(v: Rat, w: Rat)
    requires w.num != 0 && w == Sub(One, v)
    ensures Div(One, w) == Add(One, Mul(v, Div(One, w)))
  {
    ZeroReal();
    ZeroIff(w);
    KleeneReal(ToReal(v), ToReal(w));
    SameReal(Div(One, w), Add(One, Mul(v, Div(One, w))));
  }

  /** With `w = 1 - x`: `1/w = 1 + x/w`. */
  lemma KleeneReal(x: real, w: real)
    requires w == 1.0 - x && w != 0.0
    ensures 1.0 / w == 1.0 + x * (1.0 / w)
  {
    assert x * (1.0 / w) == (1.0 - w) * (1.0 / w) == 1.0 / w - 1.0;
  }

  // ---------------------------------------------------------------------
  // Conversions

  /** `conv(int)` and `conv(z, v)`: the integer `v` as `v/1`. */
  function ConvInt(v: int): (r: Rat)
    ensures r.den == 1 && r.num == v
    ensures ToReal(r) == v as real
  {
    FromInt(v)
  }

  /** `conv(bool)` and `conv(b, v)`: true is one, false is zero. */
  function ConvBool(v: bool): (r: Rat)
    ensures v <==> r == One
    ensures !v <==> r == Zero
  {
    if v then One else Zero
  }

  const Two32: int := 0x1_0000_0000

  /** `conv(n, v)`: an unsigned 32-bit natural is cast to `int` before the division
      by one, so values of 2^31 and above wrap to negative numbers. */
  function ConvNat(v: nat): (r: Rat)
    requires v < Two32
    ensures r.den == 1
    ensures r.num == v || r.num == v - Two32
    ensures -0x8000_0000 <= r.num < 0x8000_0000
  {
    FromInt(if v < 0x8000_0000 then v else v - Two32)
  }

  lemma ConvNatAgrees(v: nat)
    ensures v < 0x8000_0000 ==> ConvNat(v) == ConvInt(v)
    ensures 0x8000_0000 <= v < Two32 ==> ToReal(ConvNat(v)) < 0.0
  {
  }

  // ---------------------------------------------------------------------
  // Printing

  /** GMP's `operator<<` on `mpq_class`: `n` when the denominator is one, `n/d` otherwise. */
  function MpqText(v: Rat): string
  {
    if v.den == 1 then IntToString(v.num)
    else IntToString(v.num) + "/" + IntToString(v.den)
  }

  /** The three delimiters `print` puts around numerator and denominator of a
      non-integral value in a given format. */
  function Delimiters(format: string): (string, string, string)
  {
    if format == "json" then ("{\"num\":", ",\"den\":", "}")
    else if format == "latex" then ("\\frac{", "}{", "}")
    else ("", "/", "")
  }

  /** Numerator text and denominator text framed by the three delimiters. */
  function Frame(delims: (string, string, string), n: string, d: string): string
  {
    delims.0 + (n + (delims.1 + (d + delims.2)))
  }

  /** `print(v, o, format)`: integral values print as their numerator in every format;
      otherwise json gives `{"num":n,"den":d}`, latex gives `\frac{n}{d}`, and any other
      format falls back to GMP's text form `n/d`. */
  function Print(v: Rat, format: string): (s: string)
    ensures v.den == 1 ==> s == IntToString(v.num)
    ensures v.den != 1 && format == "json" ==>
              s == "{\"num\":" + IntToString(v.num) + ",\"den\":" + IntToString(v.den) + "}"
    ensures v.den != 1 && format == "latex" ==>
              s == "\\frac{" + IntToString(v.num) + "}{" + IntToString(v.den) + "}"
    ensures format != "json" && format != "latex" ==> s == MpqText(v)
  {
    if v.den == 1 then IntToString(v.num)
    else Frame(Delimiters(format), IntToString(v.num), IntToString(v.den))
  }

  /** Reads a printed value back: a bare integer, or numerator and denominator
      between the delimiters of `format`. */
  function Decode(format: string, s: string): Option<Rat>
  {
    var whole := ExtractInt(s);
    if whole.Read? && whole.rest == [] then Some(FromInt(whole.value))
    else DecodeFraction(Delimiters(format), s)
  }

  /** Reads `open n mid d close` with a non-zero `d` as the value n/d. */
  function DecodeFraction(delims: (string, string, string), s: string): Option<Rat>
  {
    var (open, mid, close) := delims;
    if |s| < |open| || s[..|open|] != open then None
    else
      match ExtractInt(s[|open|..])
      case Read(n, r1) =>
        if |r1| < |mid| || r1[..|mid|] != mid then None
        else
          (match ExtractInt(r1[|mid|..])
           case Read(d, r2) => if r2 == close && d != 0 then Some(Normalize(n, d)) else None
           case _ => None)
      case _ => None
  }

  lemma DecodeFractionOf(delims: (string, string, string), n: int, d: int)
    requires d != 0
    requires |delims.1| > 0 && !IsDigit(delims.1[0])
    requires delims.2 == [] || !IsDigit(delims.2[0])
    ensures DecodeFraction(delims, delims.0 + (IntToString(n) + (delims.1 + (IntToString(d) + delims.2))))
            == Some(Normalize(n, d))
  {
    var (open, mid, close) := delims;
    var r1 := mid + (IntToString(d) + close);
    var s := open + (IntToString(n) + r1);
    assert s[..|open|] == open;
    assert s[|open|..] == IntToString(n) + r1;
    ExtractIntOfString(n, r1);
    assert r1[..|mid|] == mid;
    assert r1[|mid|..] == IntToString(d) + close;
    ExtractIntOfString(d, close);
  }

  /** A printed non-integral value is never read as a bare integer. */
  lemma FractionNotWhole(v: Rat, format: string)
    requires v.den != 1
    ensures var w := ExtractInt(Print(v, format)); !(w.Read? && w.rest == [])
  {
    var delims := Delimiters(format);
    var s := Print(v, format);
    var r1 := delims.1 + (IntToString(v.den) + delims.2);
    assert s == delims.0 + (IntToString(v.num) + r1);
    if delims.0 == "" {
      assert s == IntToString(v.num) + r1;
      ExtractIntOfString(v.num, r1);
    } else {
      assert s[0] == delims.0[0];
      ExtractIntFails(s);
    }
  }

  /** Every printed value decodes to itself, in every format. */
  lemma PrintDecodes(v: Rat, format: string)
    ensures Decode(format, Print(v, format)) == Some(v)
  {
    if v.den == 1 {
      ExtractIntOfString(v.num, []);
      assert IntToString(v.num) + [] == IntToString(v.num);
    } else {
      FractionNotWhole(v, format);
      DecodeFractionOf(Delimiters(format), v.num, v.den);
      NormalizeCanonical(v, 1);
      assert Normalize(v.num * 1, v.den * 1) == v;
    }
  }

  /** `print_set(o, format)`: the name of the weightset; only the latex and text formats
      are known, any other one raises a runtime error. */
  function PrintSet(format: string): (r: Result<string>)
    ensures r.Ok? <==> format == "latex" || format == "text"
    ensures format == "latex" ==> r == Ok("\\mathbb{Q}")
    ensures format == "text" ==> r == Ok("Q")
    ensures r.Err? ==> r.error == RuntimeError("gmpq: invalid format: " + format)
  {
    if format == "latex" then Ok("\\mathbb{Q}")
    else if format == "text" then Ok("Q")
    else Err(RuntimeError("gmpq: invalid format: " + format))
  }

}

=== FILE: labels.dfy ===
/** `LabelMapper` (walnut.hh): a dense interning table that gives every
    distinct label tuple the next free integer code. */
module Labels {
  import opened Lex

  type Tuple = seq<int>

  /** `to_int` (the hash map, modelled as a Dafny map) and `to_tuple` (codes to tuples). */
  datatype Mapper = Mapper(toInt: map<Tuple, int>, toTuple: seq<Tuple>)

  /** The two tables are inverse to each other and the codes are exactly `0 .. size()-1`. */
  predicate Valid(m: Mapper)
  {
    (forall i :: 0 <= i < |m.toTuple| ==> m.toTuple[i] in m.toInt && m.toInt[m.toTuple[i]] == i)
    && (forall t :: t in m.toInt ==> 0 <= m.toInt[t] < |m.toTuple| && m.toTuple[m.toInt[t]] == t)
  }

  const Empty := Mapper(map[], [])

  /** `m'` knows every tuple of `m`, under the same code. */
  predicate Grows(m: Mapper, m': Mapper)
  {
    forall u :: u in m.toInt ==> u in m'.toInt && m'.toInt[u] == m.toInt[u]
  }

  lemma EmptyValid()
    ensures Valid(Empty) && Size(Empty) == 0
  {
  }

  lemma GrowsTrans(m1: Mapper, m2: Mapper, m3: Mapper)
    requires Grows(m1, m2) && Grows(m2, m3)
    ensures Grows(m1, m3)
  {
  }

  /** `size()`. */
  function Size(m: Mapper): nat
  {
    |m.toTuple|
  }

  /** `operator[](id)`: the tuple behind a code. */
  function At(m: Mapper, id: int): Tuple
    requires 0 <= id < Size(m)
  {
    m.toTuple[id]
  }

  /** `get(tuple)`: the code of a known tuple, or a fresh code `size()` for a new one,
      which is appended to `to_tuple`. */
  function Get(m: Mapper, t: Tuple): (r: (Mapper, int))
    requires Valid(m)
    ensures Valid(r.0)
    ensures 0 <= r.1 < Size(r.0) && At(r.0, r.1) == t
    ensures t in m.toInt ==> r.0 == m && r.1 == m.toInt[t]
    ensures t !in m.toInt ==> r.1 == Size(m) && r.0.toTuple == m.toTuple + [t]
    ensures r.0.toInt.Keys == m.toInt.Keys + {t}
    ensures Grows(m, r.0)
  {
    if t in m.toInt then (m, m.toInt[t])
    else
      var id := |m.toTuple|;
      var m' := Mapper(m.toInt[t := id], m.toTuple + [t]);
      assert forall u :: u in m.toInt ==> u != t;
      (m', id)
  }

  /** A second `get` of the same tuple returns the same code and changes nothing. */
  lemma GetIdempotent(m: Mapper, t: Tuple)
    requires Valid(m)
    ensures var (m1, c1) := Get(m, t); Get(m1, t) == (m1, c1)
  {
  }

  /** Distinct tuples receive distinct codes, and codes are never reassigned. */
  lemma GetInjective(m: Mapper, t: Tuple, u: Tuple)
    requires Valid(m) && t != u
    ensures var (m1, c1) := Get(m, t); var (m2, c2) := Get(m1, u); c1 != c2
    ensures var (m1, c1) := Get(m, t); var (m2, c2) := Get(m1, u); At(m2, c1) == t
  {
  }

  /** Gets every tuple of `ts` in order, keeping the mapper and dropping the codes. */
  function InternAll(m: Mapper, ts: seq<Tuple>): (r: Mapper)
    requires Valid(m)
    ensures Valid(r)
    ensures r.toInt.Keys == m.toInt.Keys + set t | t in ts
    ensures Grows(m, r)
    decreases |ts|
  {
    if |ts| == 0 then m
    else
      var m1 := Get(m, ts[0]).0;
      var r := InternAll(m1, ts[1..]);
      GrowsTrans(m, m1, r);
      ElemsCons(ts);
      r
  }

  /** The elements of a non-empty sequence: its head and the elements of its tail. */
  lemma ElemsCons(ts: seq<Tuple>)
    requires |ts| > 0
    ensures (set t | t in ts) == {ts[0]} + set t | t in ts[1..]
  {
    assert ts == [ts[0]] + ts[1..];
  }

  /** Interning tuples that are all known changes nothing. */
  lemma {:induction false} InternAllKnown(m: Mapper, ts: seq<Tuple>)
    requires Valid(m)
    requires forall i :: 0 <= i < |ts| ==> ts[i] in m.toInt
    ensures InternAll(m, ts) == m
    decreases |ts|
  {
    if |ts| > 0 {
      InternAllKnown(m, ts[1..]);
    }
  }

  /** The code table of a valid mapper is injective. */
  lemma CodesInjective(m: Mapper, t: Tuple, u: Tuple)
    requires Valid(m) && t in m.toInt && u in m.toInt
    ensures m.toInt[t] == m.toInt[u] ==> t == u
  {
  }

  /** `labels_set()`: the set `{0, ..., size()-1}`. */
  function LabelsSet(m: Mapper): (r: set<int>)
    ensures forall i :: i in r <==> 0 <= i < Size(m)
  {
    set i | i in Range(Size(m))
  }

  /** The label set is exactly the set of codes handed out. */
  lemma LabelsSetIsCodes(m: Mapper)
    requires Valid(m)
    ensures LabelsSet(m) == set t | t in m.toInt :: m.toInt[t]
  {
    forall i | i in LabelsSet(m) ensures i in set t | t in m.toInt :: m.toInt[t] {
      assert m.toTuple[i] in m.toInt;
    }
  }

  // ---------------------------------------------------------------------
  // labels(): codes sorted by tuple

  predicate InRange(n: int, xs: seq<int>)
  {
    forall i :: 0 <= i < |xs| ==> 0 <= xs[i] < n
  }

  /** `xs` is in strictly increasing order of the tuples its codes stand for. */
  predicate SortedBy(keys: seq<Tuple>, xs: seq<int>)
    requires InRange(|keys|, xs)
  {
    forall i, j :: 0 <= i < j < |xs| ==> LexLess(keys[xs[i]], keys[xs[j]])
  }

  /** Inserts code `c` before the first code with a larger tuple. */
  function Insert(keys: seq<Tuple>, xs: seq<int>, c: int): (r: seq<int>)
    requires InRange(|keys|, xs) && 0 <= c < |keys|
    requires SortedBy(keys, xs)
    requires forall i :: 0 <= i < |xs| ==> keys[xs[i]] != keys[c]
    ensures InRange(|keys|, r) && SortedBy(keys, r)
    ensures multiset(r) == multiset(xs) + multiset{c}
  {
    if |xs| == 0 then [c]
    else if LexLess(keys[c], keys[xs[0]]) then
      BelowHead(keys, xs, c);
      [c] + xs
    else
      LexTotal(keys[c], keys[xs[0]]);
      var rest := Insert(keys, xs[1..], c);
      AboveHead(keys, xs, c, rest);
      [xs[0]] + rest
  }

  /** A code whose tuple is below the head of a sorted list goes in front of it. */
  lemma BelowHead(keys: seq<Tuple>, xs: seq<int>, c: int)
    requires InRange(|keys|, xs) && 0 <= c < |keys| && SortedBy(keys, xs)
    requires |xs| > 0 && LexLess(keys[c], keys[xs[0]])
    ensures InRange(|keys|, [c] + xs) && SortedBy(keys, [c] + xs)
  {
    forall j | 0 < j < |xs| ensures LexLess(keys[c], keys[xs[j]]) {
      LexTransitive(keys[c], keys[xs[0]], keys[xs[j]]);
    }
  }

  /** The head of a sorted list stays in front of the rest of it with `c` put in. */
  lemma AboveHead(keys: seq<Tuple>, xs: seq<int>, c: int, rest: seq<int>)
    requires InRange(|keys|, xs) && 0 <= c < |keys| && SortedBy(keys, xs)
    requires |xs| > 0 && LexLess(keys[xs[0]], keys[c])
    requires InRange(|keys|, rest) && SortedBy(keys, rest)
    requires multiset(rest) == multiset(xs[1..]) + multiset{c}
    ensures InRange(|keys|, [xs[0]] + rest) && SortedBy(keys, [xs[0]] + rest)
    ensures multiset([xs[0]] + rest) == multiset(xs) + multiset{c}
  {
    assert xs == [xs[0]] + xs[1..];
    forall j | 0 <= j < |rest| ensures LexLess(keys[xs[0]], keys[rest[j]]) {
      assert rest[j] in multiset(rest);
      if rest[j] != c {
        assert rest[j] in multiset(xs[1..]);
        var i :| 0 <= i < |xs[1..]| && xs[1..][i] == rest[j];
        assert LexLess(keys[xs[0]], keys[xs[i + 1]]);
      }
    }
  }

  /** Insertion sort of `xs` by tuple; the tuples must be pairwise distinct. */
  function SortBy(keys: seq<Tuple>, xs: seq<int>): (r: seq<int>)
    requires InRange(|keys|, xs)
    requires forall i, j :: 0 <= i < j < |xs| ==> keys[xs[i]] != keys[xs[j]]
    ensures InRange(|keys|, r) && SortedBy(keys, r)
    ensures multiset(r) == multiset(xs)
  {
    if |xs| == 0 then []
    else
      var init := xs[..|xs| - 1];
      var s := SortBy(keys, init);
      LastIsNew(keys, xs, s);
      Insert(keys, s, xs[|xs| - 1])
  }

  /** The last code of `xs` has a tuple unlike those of any arrangement of the others. */
  lemma LastIsNew(keys: seq<Tuple>, xs: seq<int>, s: seq<int>)
    requires InRange(|keys|, xs) && |xs| > 0
    requires forall i, j :: 0 <= i < j < |xs| ==> keys[xs[i]] != keys[xs[j]]
    requires InRange(|keys|, s) && multiset(s) == multiset(xs[..|xs| - 1])
    ensures forall i :: 0 <= i < |s| ==> keys[s[i]] != keys[xs[|xs| - 1]]
    ensures multiset(s) + multiset{xs[|xs| - 1]} == multiset(xs)
  {
    var init := xs[..|xs| - 1];
    forall i | 0 <= i < |s| ensures keys[s[i]] != keys[xs[|xs| - 1]] {
      assert s[i] in multiset(init);
      var j :| 0 <= j < |init| && init[j] == s[i];
    }
    assert xs == init + [xs[|xs| - 1]];
  }

  function Range(n: nat): (r: seq<int>)
    ensures |r| == n && forall i :: 0 <= i < n ==> r[i] == i
    ensures forall x :: x in r <==> 0 <= x < n
  {
    var r := seq(n, i => i);
    forall x ensures x in r <==> 0 <= x < n {
      if x in r {
        var j :| 0 <= j < n && r[j] == x;
      }
      if 0 <= x < n {
        assert r[x] == x;
      }
    }
    r
  }

  /** `labels()`: every code once, in ascending lexicographic order of its tuple. */
  function Labels(m: Mapper): (r: seq<int>)
    requires Valid(m)
    ensures multiset(r) == multiset(Range(Size(m)))
    ensures InRange(Size(m), r) && SortedBy(m.toTuple, r)
  {
    SortBy(m.toTuple, Range(Size(m)))
  }

  /** `labels()` lists each code of `labels_set()` exactly once. */
  lemma LabelsPermutation(m: Mapper)
    requires Valid(m)
    ensures |Labels(m)| == Size(m)
    ensures forall c :: c in Labels(m) <==> c in LabelsSet(m)
    ensures forall i, j :: 0 <= i < j < |Labels(m)| ==> Labels(m)[i] != Labels(m)[j]
  {
    var r := Labels(m);
    assert |r| == |multiset(r)| == |multiset(Range(Size(m)))| == Size(m);
    forall c ensures c in r <==> c in LabelsSet(m) {
      assert c in r <==> c in multiset(r);
      assert c in Range(Size(m)) <==> c in multiset(Range(Size(m)));
    }
    forall i, j | 0 <= i < j < |r| ensures r[i] != r[j] {
      LexIrreflexive(m.toTuple[r[i]]);
    }
  }
}

=== FILE: lex.dfy ===
/** The lexicographic order `operator<` of `std::vector<int>`, and the
    `std::map<std::vector<int>, int>` tables that the DFA parser fills,
    modelled as association lists kept strictly sorted by that order. */
module Lex {
  import opened Results

  /** `a < b` on vectors: the first differing element decides, and a proper
      prefix comes before its extensions. */
  predicate LexLess(a: seq<int>, b: seq<int>)
  {
    if |a| == 0 then |b| > 0
    else if |b| == 0 then false
    else a[0] < b[0] || (a[0] == b[0] && LexLess(a[1..], b[1..]))
  }

  lemma {:induction false} LexIrreflexive(a: seq<int>)
    ensures !LexLess(a, a)
  {
    if |a| > 0 {
      LexIrreflexive(a[1..]);
    }
  }

  lemma {:induction false} LexTransitive(a: seq<int>, b: seq<int>, c: seq<int>)
    requires LexLess(a, b) && LexLess(b, c)
    ensures LexLess(a, c)
  {
    if |a| > 0 && a[0] == b[0] && b[0] == c[0] {
      LexTransitive(a[1..], b[1..], c[1..]);
    }
  }

  /** Distinct vectors are always comparable, so the order is strict and total. */
  lemma {:induction false} LexTotal(a: seq<int>, b: seq<int>)
    ensures a == b || LexLess(a, b) || LexLess(b, a)
  {
    if |a| > 0 && |b| > 0 && a[0] == b[0] {
      LexTotal(a[1..], b[1..]);
      if a[1..] == b[1..] {
        assert a == [a[0]] + a[1..] && b == [b[0]] + b[1..];
      }
    }
  }

  lemma {:induction false} LexAsymmetric(a: seq<int>, b: seq<int>)
    requires LexLess(a, b)
    ensures !LexLess(b, a)
  {
    if |a| > 0 && a[0] == b[0] {
      LexAsymmetric(a[1..], b[1..]);
    }
  }

  // ---------------------------------------------------------------------
  // Sorted tables

  type Entry = (seq<int>, int)

  /** A table: the entries of a `std::map`, in key order, each key once. */
  predicate Sorted(t: seq<Entry>)
  {
    forall i, j :: 0 <= i < j < |t| ==> LexLess(t[i].0, t[j].0)
  }

  function Keys(t: seq<Entry>): set<seq<int>>
  {
    set i | 0 <= i < |t| :: t[i].0
  }

  lemma KeysCons(e: Entry, t: seq<Entry>)
    ensures Keys([e] + t) == {e.0} + Keys(t)
  {
    var r := [e] + t;
    forall x | x in Keys(r) ensures x in {e.0} + Keys(t) {
      var i :| 0 <= i < |r| && r[i].0 == x;
      if i > 0 { assert t[i - 1].0 == x; }
    }
    forall x | x in Keys(t) ensures x in Keys(r) {
      var i :| 0 <= i < |t| && t[i].0 == x;
      assert r[i + 1].0 == x;
    }
    assert r[0].0 == e.0;
  }

  /** `m.find(k)`: the value stored under `k`, if any. */
  function Lookup(t: seq<Entry>, k: seq<int>): (r: Option<int>)
    ensures r.Some? <==> k in Keys(t)
    ensures r.Some? ==> exists i :: 0 <= i < |t| && t[i] == (k, r.value)
  {
    if |t| == 0 then None
    else if t[0].0 == k then Some(t[0].1)
    else
      var r := Lookup(t[1..], k);
      KeysCons(t[0], t[1..]);
      assert t == [t[0]] + t[1..];
      if r.Some? then
        var i :| 0 <= i < |t[1..]| && t[1..][i] == (k, r.value);
        assert t[i + 1] == (k, r.value);
        r
      else r
  }

  /** In a sorted table the entry at `i` is the one `Lookup` finds for its key. */
  lemma {:induction false} LookupAt(t: seq<Entry>, i: int)
    requires Sorted(t) && 0 <= i < |t|
    ensures Lookup(t, t[i].0) == Some(t[i].1)
  {
    if i > 0 {
      assert LexLess(t[0].0, t[i].0);
      LexIrreflexive(t[0].0);
      LookupAt(t[1..], i - 1);
    }
  }

  /** `m[k] = v`: inserts `k` at its place in key order, or overwrites its value. */
  function Put(t: seq<Entry>, k: seq<int>, v: int): (r: seq<Entry>)
    requires Sorted(t)
    ensures Sorted(r)
    ensures Keys(r) == Keys(t) + {k}
  {
    if |t| == 0 then
      KeysCons((k, v), []);
      [(k, v)]
    else if t[0].0 == k then
      KeysCons(t[0], t[1..]);
      assert t == [t[0]] + t[1..];
      KeysCons((k, v), t[1..]);
      [(k, v)] + t[1..]
    else if LexLess(k, t[0].0) then
      forall i | 0 < i < |t| ensures LexLess(k, t[i].0) {
        LexTransitive(k, t[0].0, t[i].0);
      }
      KeysCons((k, v), t);
      [(k, v)] + t
    else
      LexTotal(k, t[0].0);
      var rest := Put(t[1..], k, v);
      var r := [t[0]] + rest;
      KeysCons(t[0], t[1..]);
      assert t == [t[0]] + t[1..];
      KeysCons(t[0], rest);
      forall j | 0 < j < |r| ensures LexLess(t[0].0, r[j].0) {
        var x := r[j].0;
        assert rest[j - 1].0 == x;
        assert x in Keys(rest);
        if x != k {
          assert x in Keys(t[1..]);
          var i :| 0 <= i < |t[1..]| && t[1..][i].0 == x;
          assert LexLess(t[0].0, t[i + 1].0);
        }
      }
      r
  }

  /** The map laws of `Put`: the new key reads back, every other key is unchanged. */
  lemma {:induction false} PutLookup(t: seq<Entry>, k: seq<int>, v: int, k': seq<int>)
    requires Sorted(t)
    ensures Lookup(Put(t, k, v), k') == if k' == k then Some(v) else Lookup(t, k')
  {
    var r := Put(t, k, v);
    if |t| > 0 && t[0].0 != k && !LexLess(k, t[0].0) && k' != t[0].0 {
      assert r[1..] == Put(t[1..], k, v);
      PutLookup(t[1..], k, v, k');
    }
  }
}

=== FILE: linear_rep.dfy ===
/** `show_matrix` (walnut.hh): the linear representation of an automaton, an
    initial row vector λ, one square matrix μ per label and a final column vector ρ,
    together with the smallest and largest value printed and the optional check
    that every value is an integer. */
module LinearRep {
  import opened Results
  import opened Rationals
  import opened Gmpq
  import opened Labels
  import opened Automata
  import opened Recipes

  /** One `mu[...]` block: the label code, the tuple `al[label]` printed as its
      name, and the matrix. */
  datatype Letter = Letter(code: int, tuple: Tuple, matrix: seq<Vec>)

  /** λ, the μ blocks in printing order, ρ, and the final `damin` and `damax`. */
  datatype Rep = Rep(lambda: Vec, mu: seq<Letter>, rho: Vec, min: Rat, max: Rat)

  // ---------------------------------------------------------------------
  // The matrices

  /** `matrix[src][dst] = weight` for every transition in store order: the entry of
      key `k` holds the weight of the last transition with that key, zero when none. */
  function Assigned(ts: seq<Transition>, k: Key): Rat
    decreases |ts|
  {
    if |ts| == 0 then Zero
    else if KeyOf(ts[|ts| - 1]) == k then ts[|ts| - 1].weight
    else Assigned(ts[..|ts| - 1], k)
  }

  /** Without parallel transitions the last assignment is the transition's weight. */
  lemma {:induction false} AssignedIsWeight(ts: seq<Transition>, k: Key)
    requires NoDup(ts)
    ensures Assigned(ts, k) == Weight(ts, k)
    decreases |ts|
  {
    if |ts| > 0 {
      var m := |ts| - 1;
      var init := ts[..m];
      assert forall i :: 0 <= i < m ==> init[i] == ts[i];
      AssignedIsWeight(init, k);
      if KeyOf(ts[m]) == k {
        WeightAt(ts, m);
      } else {
        match Find(init, k)
        case Some(i) =>
          WeightAt(ts, i);
          WeightAt(init, i);
        case None =>
          assert Find(ts, k).None?;
      }
    }
  }

  /** The labels that occur on transitions, in increasing order (the key order of
      `letter_matrix_set`). */
  function Alphabet(ts: seq<Transition>): (r: seq<int>)
    ensures Increasing(r)
    ensures forall y :: y in r <==> exists i :: 0 <= i < |ts| && ts[i].letter == y
  {
    if |ts| == 0 then []
    else
      var m := |ts| - 1;
      var prev := Alphabet(ts[..m]);
      var r := InsertLetter(prev, ts[m].letter);
      forall y ensures y in r <==> exists i :: 0 <= i < |ts| && ts[i].letter == y {
        if exists i :: 0 <= i < |ts| && ts[i].letter == y {
          var i :| 0 <= i < |ts| && ts[i].letter == y;
          if i < m {
            assert ts[..m][i] == ts[i];
          }
        }
        if exists i :: 0 <= i < m && ts[..m][i].letter == y {
          var i :| 0 <= i < m && ts[..m][i].letter == y;
          assert ts[i].letter == y;
        }
      }
      r
  }

  /** The `dimension × dimension` matrix of label `c`. */
  function Matrix(ts: seq<Transition>, c: int, n: nat): (m: seq<Vec>)
    ensures |m| == n && forall i :: 0 <= i < n ==> |m[i]| == n
    ensures forall i, j :: 0 <= i < n && 0 <= j < n ==> m[i][j] == Assigned(ts, (i, c, j))
  {
    seq(n, (i: int) requires 0 <= i < n => seq(n, (j: int) requires 0 <= j < n => Assigned(ts, (i, c, j))))
  }

  /** `l` is the block of its label: a `n × n` matrix of the last weights assigned. */
  predicate BlockOf(l: Letter, ts: seq<Transition>, n: nat)
  {
    l.matrix == Matrix(ts, l.code, n)
  }

  function MuOf(ts: seq<Transition>, al: Mapper, n: nat, letters: seq<int>): (mu: seq<Letter>)
    requires forall k :: 0 <= k < |letters| ==> 0 <= letters[k] < Size(al)
    ensures |mu| == |letters|
    ensures forall k :: 0 <= k < |mu| ==> mu[k].code == letters[k] && mu[k].tuple == At(al, letters[k])
    ensures forall k :: 0 <= k < |mu| ==> BlockOf(mu[k], ts, n)
  {
    seq(|letters|, (k: int) requires 0 <= k < |letters| =>
      Letter(letters[k], At(al, letters[k]), Matrix(ts, letters[k], n)))
  }

  /** The μ blocks, one per label that occurs, in increasing label order. */
  function Mu(a: Aut, al: Mapper): (mu: seq<Letter>)
    requires Coded(a.trans, al)
    ensures |mu| == |Alphabet(a.trans)|
    ensures forall k :: 0 <= k < |mu| ==> mu[k].code == Alphabet(a.trans)[k]
    ensures forall k, k' :: 0 <= k < k' < |mu| ==> mu[k].code < mu[k'].code
    ensures forall k :: 0 <= k < |mu| ==> 0 <= mu[k].code < Size(al) && mu[k].tuple == At(al, mu[k].code)
    ensures forall k :: 0 <= k < |mu| ==> BlockOf(mu[k], a.trans, a.n)
  {
    var letters := Alphabet(a.trans);
    forall k | 0 <= k < |letters| ensures 0 <= letters[k] < Size(al) {
      assert letters[k] in letters;
    }
    MuOf(a.trans, al, a.n, letters)
  }

  // ---------------------------------------------------------------------
  // The values in printing order

  /** The rows of a matrix one after the other. */
  function Flatten(m: seq<Vec>): (r: Vec)
    ensures forall v :: v in r <==> exists i, j :: 0 <= i < |m| && 0 <= j < |m[i]| && m[i][j] == v
    decreases |m|
  {
    if |m| == 0 then []
    else
      var k := |m| - 1;
      var prev := Flatten(m[..k]);
      var r := prev + m[k];
      forall v ensures v in r <==> exists i, j :: 0 <= i < |m| && 0 <= j < |m[i]| && m[i][j] == v {
        if v in prev {
          var i, j :| 0 <= i < k && 0 <= j < |m[..k][i]| && m[..k][i][j] == v;
          assert m[i][j] == v;
        }
        if exists i, j :: 0 <= i < |m| && 0 <= j < |m[i]| && m[i][j] == v {
          var i, j :| 0 <= i < |m| && 0 <= j < |m[i]| && m[i][j] == v;
          if i < k {
            assert m[..k][i][j] == v;
          } else {
            assert m[k][j] == v;
          }
        }
      }
      r
  }

  /** `v` is an entry of one of the blocks. */
  predicate InBlocks(mu: seq<Letter>, v: Rat)
  {
    exists k :: 0 <= k < |mu| && v in Flatten(mu[k].matrix)
  }

  /** Every matrix entry, block after block. */
  function MuValues(mu: seq<Letter>): (r: Vec)
    ensures forall v :: v in r <==> InBlocks(mu, v)
    decreases |mu|
  {
    if |mu| == 0 then []
    else
      var k := |mu| - 1;
      var prev := MuValues(mu[..k]);
      var r := prev + Flatten(mu[k].matrix);
      forall v ensures v in r <==> InBlocks(mu, v) {
        InBlocksSnoc(mu, v);
      }
      r
  }

  /** An entry of the blocks is an entry of all but the last block or of the last. */
  lemma InBlocksSnoc(mu: seq<Letter>, v: Rat)
    requires |mu| > 0
    ensures InBlocks(mu, v) <==> InBlocks(mu[..|mu| - 1], v) || v in Flatten(mu[|mu| - 1].matrix)
  {
    var k := |mu| - 1;
    if InBlocks(mu[..k], v) {
      var k' :| 0 <= k' < k && v in Flatten(mu[..k][k'].matrix);
      assert mu[..k][k'] == mu[k'];
    }
    if InBlocks(mu, v) {
      var k' :| 0 <= k' < |mu| && v in Flatten(mu[k'].matrix);
      if k' < k {
        assert mu[..k][k'] == mu[k'];
      }
    }
  }

  /** `damin`: starts at `m` and takes every value below it. */
  function MinOf(vs: Vec, m: Rat): (r: Rat)
    ensures !Less(m, r)
    ensures forall i :: 0 <= i < |vs| ==> !Less(vs[i], r)
    ensures r == m || r in vs
    decreases |vs|
  {
    if |vs| == 0 then m
    else
      var m' := if Less(vs[0], m) then vs[0] else m;
      var r := MinOf(vs[1..], m');
      LessReal(m, m');
      LessReal(vs[0], m');
      LessReal(m', r);
      LessReal(m, r);
      LessReal(vs[0], r);
      assert forall i :: 1 <= i < |vs| ==> vs[i] == vs[1..][i - 1];
      r
  }

  /** `damax`: starts at `m` and takes every value above it. */
  function MaxOf(vs: Vec, m: Rat): (r: Rat)
    ensures !Less(r, m)
    ensures forall i :: 0 <= i < |vs| ==> !Less(r, vs[i])
    ensures r == m || r in vs
    decreases |vs|
  {
    if |vs| == 0 then m
    else
      var m' := if Less(m, vs[0]) then vs[0] else m;
      var r := MaxOf(vs[1..], m');
      LessReal(m', m);
      LessReal(m', vs[0]);
      LessReal(r, m');
      LessReal(r, m);
      LessReal(r, vs[0]);
      assert forall i :: 1 <= i < |vs| ==> vs[i] == vs[1..][i - 1];
      r
  }

  // ---------------------------------------------------------------------
  // show_matrix

  /** `show_matrix(A, al, out, check_int)` with asserts enabled: nothing for an
      automaton without states; otherwise λ, μ, ρ and the extremes, unless
      `check_int` is set and some printed value is not an integer, in which case the
      `assert` aborts. */
  function ShowMatrix(a: Aut, al: Mapper, checkInt: bool): (r: Result<Option<Rep>>)
    requires Coded(a.trans, al)
    ensures r == Ok(None) <==> a.n == 0
    ensures r.Err? ==> r.error == AssertionFailure && checkInt
    ensures r.Ok? && r.value.Some? ==>
      var rep := r.value.value;
      && |rep.lambda| == a.n && |rep.rho| == a.n && rep.mu == Mu(a, al)
      && (forall i :: 0 <= i < a.n ==> rep.lambda[i] == ValueAt(a.initial, i) && rep.rho[i] == ValueAt(a.final, i))
      && !Less(Zero, rep.min) && !Less(rep.max, Zero)
  {
    if a.n == 0 then Ok(None)
    else
      var lambda := Dense(a.initial, a.n);
      var mu := Mu(a, al);
      var rho := Dense(a.final, a.n);
      var vals := lambda + MuValues(mu) + rho;
      if checkInt && exists i :: 0 <= i < |vals| && vals[i].den != 1 then Err(AssertionFailure)
      else Ok(Some(Rep(lambda, mu, rho, MinOf(vals, Zero), MaxOf(vals, Zero))))
  }

  // ---------------------------------------------------------------------
  // What the printed values are

  /** Every weight of the automaton is an integer. */
  predicate AllIntegral(a: Aut)
  {
    && (forall q :: q in a.initial ==> a.initial[q].den == 1)
    && (forall i :: 0 <= i < |a.trans| ==> a.trans[i].weight.den == 1)
    && (forall q :: q in a.final ==> a.final[q].den == 1)
  }

  /** `v` is an initial, transition or final weight of `a`. */
  predicate Carried(a: Aut, v: Rat)
  {
    || (exists q :: q in a.initial && a.initial[q] == v)
    || (exists i :: 0 <= i < |a.trans| && a.trans[i].weight == v)
    || (exists q :: q in a.final && a.final[q] == v)
  }

  /** Every value `show_matrix` inspects, in order. */
  function Values(a: Aut, al: Mapper): Vec
    requires Coded(a.trans, al)
  {
    Dense(a.initial, a.n) + MuValues(Mu(a, al)) + Dense(a.final, a.n)
  }

  lemma ZeroIntegral()
    ensures Zero.den == 1
  {
  }

  /** A matrix entry is zero or the weight of a transition. */
  lemma EntryCarried(a: Aut, c: int, i: nat, j: nat)
    requires WellFormed(a)
    ensures var v := Assigned(a.trans, (i, c, j)); v == Zero || Carried(a, v)
  {
    AssignedIsWeight(a.trans, (i, c, j));
    match Find(a.trans, (i, c, j))
    case Some(x) =>
      assert a.trans[x].weight == Weight(a.trans, (i, c, j));
    case None =>
  }

  lemma MuEntryCarried(a: Aut, l: Letter, i: int, j: int)
    requires WellFormed(a) && BlockOf(l, a.trans, a.n)
    requires 0 <= i < |l.matrix| && 0 <= j < |l.matrix[i]|
    ensures var v := l.matrix[i][j]; v == Zero || Carried(a, v)
  {
    assert l.matrix[i][j] == Assigned(a.trans, (i, l.code, j));
    EntryCarried(a, l.code, i, j);
  }

  lemma MuCarried(a: Aut, al: Mapper)
    requires WellFormed(a) && Coded(a.trans, al)
    ensures forall v :: v in MuValues(Mu(a, al)) ==> v == Zero || Carried(a, v)
  {
    BlocksCarried(a, Mu(a, al));
  }

  /** The entries of blocks of the automaton are zero or weights it carries. */
  lemma BlocksCarried(a: Aut, mu: seq<Letter>)
    requires WellFormed(a)
    requires forall k :: 0 <= k < |mu| ==> BlockOf(mu[k], a.trans, a.n)
    ensures forall v :: v in MuValues(mu) ==> v == Zero || Carried(a, v)
  {
    forall v | v in MuValues(mu) ensures v == Zero || Carried(a, v) {
      ValueCarried(a, mu, v);
    }
  }

  lemma ValueCarried(a: Aut, mu: seq<Letter>, v: Rat)
    requires WellFormed(a)
    requires forall k :: 0 <= k < |mu| ==> BlockOf(mu[k], a.trans, a.n)
    requires InBlocks(mu, v)
    ensures v == Zero || Carried(a, v)
  {
    var k :| 0 <= k < |mu| && v in Flatten(mu[k].matrix);
    FlatCarried(a, mu[k], v);
  }

  lemma FlatCarried(a: Aut, l: Letter, v: Rat)
    requires WellFormed(a) && BlockOf(l, a.trans, a.n)
    requires v in Flatten(l.matrix)
    ensures v == Zero || Carried(a, v)
  {
    var i, j :| 0 <= i < |l.matrix| && 0 <= j < |l.matrix[i]| && l.matrix[i][j] == v;
    MuEntryCarried(a, l, i, j);
  }

  lemma DenseInitialCarried(a: Aut)
    ensures forall v :: v in Dense(a.initial, a.n) ==> v == Zero || Carried(a, v)
  {
    var d := Dense(a.initial, a.n);
    forall v | v in d ensures v == Zero || Carried(a, v) {
      var i :| 0 <= i < |d| && d[i] == v;
      assert v == ValueAt(a.initial, i);
    }
  }

  lemma DenseFinalCarried(a: Aut)
    ensures forall v :: v in Dense(a.final, a.n) ==> v == Zero || Carried(a, v)
  {
    var d := Dense(a.final, a.n);
    forall v | v in d ensures v == Zero || Carried(a, v) {
      var i :| 0 <= i < |d| && d[i] == v;
      assert v == ValueAt(a.final, i);
    }
  }

  /** The value list holds nothing but zero and weights of the automaton. */
  lemma ValuesCarried(a: Aut, al: Mapper)
    requires WellFormed(a) && Coded(a.trans, al)
    ensures forall v :: v in Values(a, al) ==> v == Zero || Carried(a, v)
  {
    MuCarried(a, al);
    DenseInitialCarried(a);
    DenseFinalCarried(a);
  }

  lemma EntryListed(mu: seq<Letter>, k: int, i: int, j: int)
    requires 0 <= k < |mu| && 0 <= i < |mu[k].matrix| && 0 <= j < |mu[k].matrix[i]|
    ensures mu[k].matrix[i][j] in MuValues(mu)
  {
  }

  /** The block of a transition's label holds its weight at `[src][dst]`. */
  lemma BlockHolds(a: Aut, l: Letter, x: int)
    requires WellFormed(a) && 0 <= x < |a.trans| && BlockOf(l, a.trans, a.n)
    requires l.code == a.trans[x].letter
    ensures a.trans[x].src < |l.matrix| && a.trans[x].dst < |l.matrix[a.trans[x].src]|
    ensures l.matrix[a.trans[x].src][a.trans[x].dst] == a.trans[x].weight
  {
    var t := a.trans[x];
    assert t.src < a.n && t.dst < a.n;
    AssignedIsWeight(a.trans, KeyOf(t));
    WeightAt(a.trans, x);
  }

  lemma MuListed(a: Aut, al: Mapper, x: int)
    requires WellFormed(a) && Coded(a.trans, al) && 0 <= x < |a.trans|
    ensures a.trans[x].weight in MuValues(Mu(a, al))
  {
    var mu := Mu(a, al);
    var letters := Alphabet(a.trans);
    var t := a.trans[x];
    assert t.letter in letters;
    var k :| 0 <= k < |letters| && letters[k] == t.letter;
    BlockHolds(a, mu[k], x);
    EntryListed(mu, k, t.src, t.dst);
  }

  /** Every weight of the automaton appears in the value list. */
  lemma WeightsListed(a: Aut, al: Mapper)
    requires WellFormed(a) && Coded(a.trans, al)
    ensures forall q :: q in a.initial ==> a.initial[q] in Values(a, al)
    ensures forall x :: 0 <= x < |a.trans| ==> a.trans[x].weight in Values(a, al)
    ensures forall q :: q in a.final ==> a.final[q] in Values(a, al)
  {
    var lambda := Dense(a.initial, a.n);
    var rho := Dense(a.final, a.n);
    forall q | q in a.initial ensures a.initial[q] in Values(a, al) {
      assert lambda[q] == a.initial[q];
    }
    forall q | q in a.final ensures a.final[q] in Values(a, al) {
      assert rho[q] == a.final[q];
    }
    forall x | 0 <= x < |a.trans| ensures a.trans[x].weight in Values(a, al) {
      MuListed(a, al, x);
    }
  }

  /** Some listed value is not an integer exactly when some weight is not. */
  lemma ValuesIntegral(a: Aut, al: Mapper)
    requires WellFormed(a) && Coded(a.trans, al)
    ensures (exists i :: 0 <= i < |Values(a, al)| && Values(a, al)[i].den != 1) <==> !AllIntegral(a)
  {
    var vals := Values(a, al);
    if exists i :: 0 <= i < |vals| && vals[i].den != 1 {
      var i :| 0 <= i < |vals| && vals[i].den != 1;
      ListedNotIntegral(a, al, i);
    }
    if !AllIntegral(a) {
      NotIntegralListed(a, al);
    }
  }

  /** A listed value that is not an integer is a weight that is not. */
  lemma ListedNotIntegral(a: Aut, al: Mapper, i: int)
    requires WellFormed(a) && Coded(a.trans, al)
    requires 0 <= i < |Values(a, al)| && Values(a, al)[i].den != 1
    ensures !AllIntegral(a)
  {
    var vals := Values(a, al);
    ValuesCarried(a, al);
    ZeroIntegral();
    assert vals[i] in vals;
  }

  /** A weight that is not an integer is listed. */
  lemma NotIntegralListed(a: Aut, al: Mapper)
    requires WellFormed(a) && Coded(a.trans, al) && !AllIntegral(a)
    ensures exists i :: 0 <= i < |Values(a, al)| && Values(a, al)[i].den != 1
  {
    var vals := Values(a, al);
    WeightsListed(a, al);
    var v: Rat;
    if exists q :: q in a.initial && a.initial[q].den != 1 {
      var q :| q in a.initial && a.initial[q].den != 1;
      v := a.initial[q];
    } else if exists x :: 0 <= x < |a.trans| && a.trans[x].weight.den != 1 {
      var x :| 0 <= x < |a.trans| && a.trans[x].weight.den != 1;
      v := a.trans[x].weight;
    } else {
      var q :| q in a.final && a.final[q].den != 1;
      v := a.final[q];
    }
    assert v in vals && v.den != 1;
    var i :| 0 <= i < |vals| && vals[i] == v;
  }

  /** `show_matrix` fails on its own value list. */
  lemma ShowMatrixErr(a: Aut, al: Mapper, checkInt: bool)
    requires Coded(a.trans, al)
    ensures ShowMatrix(a, al, checkInt).Err? <==>
      a.n > 0 && checkInt && exists i :: 0 <= i < |Values(a, al)| && Values(a, al)[i].den != 1
  {
    var vals := Values(a, al);
    if a.n > 0 && checkInt && exists i :: 0 <= i < |vals| && vals[i].den != 1 {
      assert ShowMatrix(a, al, checkInt) == Err(AssertionFailure);
    }
  }

  /** With `check_int`, `show_matrix` aborts exactly when the automaton has states
      and some initial, transition or final weight is not an integer. */
  lemma ShowMatrixFails(a: Aut, al: Mapper, checkInt: bool)
    requires WellFormed(a) && Coded(a.trans, al)
    ensures ShowMatrix(a, al, checkInt).Err? <==> a.n > 0 && checkInt && !AllIntegral(a)
  {
    ShowMatrixErr(a, al, checkInt);
    ValuesIntegral(a, al);
  }

  lemma LetterOccurs(a: Aut, al: Mapper, k: int)
    requires Coded(a.trans, al) && 0 <= k < |Mu(a, al)|
    ensures exists x :: 0 <= x < |a.trans| && a.trans[x].letter == Mu(a, al)[k].code
  {
    var letters := Alphabet(a.trans);
    assert letters[k] in letters;
  }

  lemma LetterHasBlock(a: Aut, al: Mapper, x: int)
    requires Coded(a.trans, al) && 0 <= x < |a.trans|
    ensures exists k :: 0 <= k < |Mu(a, al)| && Mu(a, al)[k].code == a.trans[x].letter
  {
    var letters := Alphabet(a.trans);
    assert a.trans[x].letter in letters;
    var k :| 0 <= k < |letters| && letters[k] == a.trans[x].letter;
    assert Mu(a, al)[k].code == a.trans[x].letter;
  }

  /** There is a μ block for exactly the labels that occur on some transition. */
  lemma MuCovers(a: Aut, al: Mapper)
    requires Coded(a.trans, al)
    ensures var mu := Mu(a, al);
      forall k :: 0 <= k < |mu| ==> exists x :: 0 <= x < |a.trans| && a.trans[x].letter == mu[k].code
    ensures var mu := Mu(a, al);
      forall x :: 0 <= x < |a.trans| ==> exists k :: 0 <= k < |mu| && mu[k].code == a.trans[x].letter
  {
    forall k | 0 <= k < |Mu(a, al)| ensures exists x :: 0 <= x < |a.trans| && a.trans[x].letter == Mu(a, al)[k].code {
      LetterOccurs(a, al, k);
    }
    forall x | 0 <= x < |a.trans| ensures exists k :: 0 <= k < |Mu(a, al)| && Mu(a, al)[k].code == a.trans[x].letter {
      LetterHasBlock(a, al, x);
    }
  }

  /** `l` is a `dimension × dimension` matrix whose entry `[i][j]` is the weight of
      the transition `i --c--> j` for its label `c`, zero when there is none. */
  predicate Weighs(l: Letter, a: Aut)
  {
    && |l.matrix| == a.n
    && (forall i :: 0 <= i < a.n ==> |l.matrix[i]| == a.n)
    && (forall i, j :: 0 <= i < a.n && 0 <= j < a.n ==> l.matrix[i][j] == Weight(a.trans, (i, l.code, j)))
  }

  /** Without parallel transitions a block holds the weights of its label. */
  lemma BlockWeighs(a: Aut, l: Letter)
    requires WellFormed(a) && BlockOf(l, a.trans, a.n)
    ensures Weighs(l, a)
  {
    forall i, j | 0 <= i < a.n && 0 <= j < a.n ensures l.matrix[i][j] == Weight(a.trans, (i, l.code, j)) {
      AssignedIsWeight(a.trans, (i, l.code, j));
    }
  }

  /** Each μ block is `dimension × dimension`, and its entry `[i][j]` is the weight
      of the transition `i --c--> j`, zero when there is none. */
  lemma MuEntries(a: Aut, al: Mapper)
    requires WellFormed(a) && Coded(a.trans, al)
    ensures forall k :: 0 <= k < |Mu(a, al)| ==> Weighs(Mu(a, al)[k], a)
  {
    var mu := Mu(a, al);
    forall k | 0 <= k < |mu| ensures Weighs(mu[k], a) {
      BlockWeighs(a, mu[k]);
    }
  }

  /** The printed extremes: `damin` is at most zero and at most every weight,
      `damax` at least zero and at least every weight, and each is zero or a weight
      that the automaton carries. */
  lemma ShowMatrixBounds(a: Aut, al: Mapper, checkInt: bool)
    requires WellFormed(a) && Coded(a.trans, al)
    ensures ShowMatrix(a, al, checkInt).Ok? && ShowMatrix(a, al, checkInt).value.Some? ==>
      var rep := ShowMatrix(a, al, checkInt).value.value;
      && (forall q :: q in a.initial ==> !Less(a.initial[q], rep.min) && !Less(rep.max, a.initial[q]))
      && (forall x :: 0 <= x < |a.trans| ==> !Less(a.trans[x].weight, rep.min) && !Less(rep.max, a.trans[x].weight))
      && (forall q :: q in a.final ==> !Less(a.final[q], rep.min) && !Less(rep.max, a.final[q]))
    ensures ShowMatrix(a, al, checkInt).Ok? && ShowMatrix(a, al, checkInt).value.Some? ==>
      var rep := ShowMatrix(a, al, checkInt).value.value;
      (rep.min == Zero || Carried(a, rep.min)) && (rep.max == Zero || Carried(a, rep.max))
  {
    if ShowMatrix(a, al, checkInt).Ok? && ShowMatrix(a, al, checkInt).value.Some? {
      var vals := Values(a, al);
      var rep := ShowMatrix(a, al, checkInt).value.value;
      assert rep.min == MinOf(vals, Zero) && rep.max == MaxOf(vals, Zero);
      WeightsListed(a, al);
      ValuesCarried(a, al);
      BoundsOver(a, vals, rep.min, rep.max);
    }
  }

  lemma BoundsOver(a: Aut, vals: Vec, lo: Rat, hi: Rat)
    requires forall i :: 0 <= i < |vals| ==> !Less(vals[i], lo) && !Less(hi, vals[i])
    requires forall q :: q in a.initial ==> a.initial[q] in vals
    requires forall x :: 0 <= x < |a.trans| ==> a.trans[x].weight in vals
    requires forall q :: q in a.final ==> a.final[q] in vals
    ensures forall q :: q in a.initial ==> !Less(a.initial[q], lo) && !Less(hi, a.initial[q])
    ensures forall x :: 0 <= x < |a.trans| ==> !Less(a.trans[x].weight, lo) && !Less(hi, a.trans[x].weight)
    ensures forall q :: q in a.final ==> !Less(a.final[q], lo) && !Less(hi, a.final[q])
  {
  }
}

=== FILE: number_theory.dfy ===
/** Greatest common divisors, Bezout coefficients and Euclid's lemma:
    the arithmetic that makes the canonical form of a rational unique. */
module NumberTheory {

  function Abs(x: int): nat
  {
    if x < 0 then -x else x
  }

  /** Euclid's algorithm. */
  function Gcd(a: nat, b: nat): nat
    decreases b
  {
    if b == 0 then a else Gcd(b, a % b)
  }

  lemma DivMod(a: int, b: int)
    requires b > 0
    ensures a == b * (a / b) + a % b
    ensures 0 <= a % b < b
  {
  }

  lemma MulPositive(g: int, t: int)
    requires g > 0 && t > 0
    ensures g * t >= g
  {
  }

  /** A multiple of a positive number leaves no remainder. */
  lemma MultipleMod(g: int, m: int)
    requires g > 0
    ensures (g * m) % g == 0
    ensures (g * m) / g == m
  {
    var x := g * m;
    DivMod(x, g);
    var t := m - x / g;
    assert g * t == x % g;
    if t > 0 {
      MulPositive(g, t);
    } else if t < 0 {
      MulPositive(g, -t);
    }
  }

  lemma {:induction false} GcdPositive(a: nat, b: nat)
    requires a > 0 || b > 0
    ensures Gcd(a, b) > 0
    decreases b
  {
    if b != 0 {
      GcdPositive(b, a % b);
    }
  }

  lemma Regroup(a: int, b: int, q: int, r: int, g: int, kb: int, kr: int)
    requires a == b * q + r && b == g * kb && r == g * kr
    ensures a == g * (q * kb + kr)
  {
  }

  /** `Gcd(a, b)` divides both arguments. */
  lemma {:induction false} GcdDivides(a: nat, b: nat)
    requires a > 0 || b > 0
    ensures Gcd(a, b) > 0
    ensures a % Gcd(a, b) == 0 && b % Gcd(a, b) == 0
    decreases b
  {
    GcdPositive(a, b);
    if b == 0 {
      MultipleMod(a, 1);
    } else {
      var g := Gcd(a, b);
      GcdDivides(b, a % b);
      DivMod(b, g);
      DivMod(a % b, g);
      DivMod(a, b);
      Regroup(a, b, a / b, a % b, g, b / g, (a % b) / g);
      MultipleMod(g, (a / b) * (b / g) + (a % b) / g);
    }
  }

  lemma BezoutStep(a: int, b: int, q: int, r: int, x: int, y: int)
    requires a == b * q + r
    ensures a * y + b * (x - q * y) == b * x + r * y
  {
  }

  /** Bezout coefficients computed alongside Euclid's algorithm. */
  function Bezout(a: nat, b: nat): (r: (int, int))
    ensures a * r.0 + b * r.1 == Gcd(a, b)
    decreases b
  {
    if b == 0 then (1, 0)
    else
      var c := Bezout(b, a % b);
      DivMod(a, b);
      BezoutStep(a, b, a / b, a % b, c.0, c.1);
      (c.1, c.0 - (a / b) * c.1)
  }

  /** A positive number whose product with an integer is 1 is 1. */
  lemma UnitFactor(h: int, m: int)
    requires h > 0 && h * m == 1
    ensures h == 1
  {
    if m > 0 && h > 1 {
      MulPositive(m, h - 1);
    }
  }

  lemma EuclidStep(n: int, d: int, m: int, k: int, x: int, y: int)
    requires n * m == d * k && n * x + d * y == 1
    ensures m == d * (k * x + m * y)
  {
    assert d * (k * x + m * y) == (d * k) * x + d * m * y;
    assert (d * k) * x == (n * m) * x;
    assert (n * m) * x + d * m * y == m * (n * x + d * y);
  }

  /** Euclid's lemma: if `d` divides `n * m` and `n`, `d` are coprime then `d` divides `m`. */
  lemma Euclid(n: nat, d: nat, m: int, k: int)
    requires d > 0 && Gcd(n, d) == 1
    requires n * m == d * k
    ensures m == d * (k * Bezout(n, d).0 + m * Bezout(n, d).1)
  {
    var c := Bezout(n, d);
    EuclidStep(n, d, m, k, c.0, c.1);
  }

  lemma Cancel(g: int, e: int, f: int)
    requires g > 0 && g * e == g * f
    ensures e == f
  {
    if e > f {
      MulPositive(g, e - f);
    } else if e < f {
      MulPositive(g, f - e);
    }
  }

  lemma Factor3(g: int, a': int, b': int, x: int, y: int)
    ensures g * (a' * x + b' * y) == (g * a') * x + (g * b') * y
  {
  }

  /** Dividing both arguments by their gcd leaves coprime quotients. */
  lemma {:induction false} GcdOfQuotients(a: nat, b: nat)
    requires b > 0
    ensures Gcd(a, b) > 0
    ensures Gcd(a / Gcd(a, b), b / Gcd(a, b)) == 1
  {
    GcdDivides(a, b);
    var g := Gcd(a, b);
    DivMod(a, g);
    DivMod(b, g);
    var a', b' := a / g, b / g;
    assert b' > 0 by {
      if b' <= 0 { MulPositive(g, 1 - b'); }
    }
    var c := Bezout(a, b);
    Factor3(g, a', b', c.0, c.1);
    Cancel(g, a' * c.0 + b' * c.1, 1);
    GcdDivides(a', b');
    var h := Gcd(a', b');
    DivMod(a', h);
    DivMod(b', h);
    var s, t := a' / h, b' / h;
    Factor3(h, s, t, c.0, c.1);
    UnitFactor(h, s * c.0 + t * c.1);
  }

  lemma GcdWithOne(a: nat)
    ensures Gcd(a, 1) == 1
  {
    assert a % 1 == 0;
    assert Gcd(a, 1) == Gcd(1, 0);
  }
}

=== FILE: py_dfa.dfy ===
/** The picture scripts' own reader for Walnut automaton files (`dfa_from_walnut`
    in `drawtri.py` and `drawvectortri.py`), the run of an automaton on a word
    (`value`), and the windowed sum `vvalue` of `drawvectortri.py`. */
module PyDfa {
  import opened Results
  import opened Text
  import opened Lex
  import opened Tribonacci
  import Export

  /** A parsed automaton: `trans[q][label]` is the target of the transition of `q` on the
      label tuple, `out[q]` the output of `q`. */
  datatype Dfa = Dfa(trans: map<int, map<Tuple, int>>, out: map<int, int>)

  type Tuple = seq<int>

  /** The reader's locals between two lines: `trans`, `out`, the current state `cur`
      (`None` before the first state line) and its transitions `curt`. */
  datatype Reader = Reader(trans: map<int, map<Tuple, int>>, out: map<int, int>, cur: Option<int>, curt: map<Tuple, int>)

  const Start := Reader(map[], map[], None, map[])

  // ---------------------------------------------------------------------
  // str.split('->')

  /** `s.split('->')`: the pieces between the occurrences of `->`, left to right. */
  function SplitArrows(s: string): (parts: seq<string>)
    ensures |parts| >= 1
    ensures |parts| == 1 <==> FindArrow(s).None?
    decreases |s|
  {
    match FindArrow(s)
    case None => [s]
    case Some(j) => [s[..j]] + SplitArrows(s[j + 2..])
  }

  /** `'->'.join(parts)` */
  function JoinArrows(parts: seq<string>): string
    requires |parts| >= 1
  {
    if |parts| == 1 then parts[0] else parts[0] + "->" + JoinArrows(parts[1..])
  }

  lemma NoArrowBefore(s: string, j: nat)
    requires FindArrow(s) == Some(j)
    ensures forall p :: !ArrowAt(s[..j], p)
  {
    forall p | ArrowAt(s[..j], p) ensures false {
      assert ArrowAt(s, p);
    }
  }

  lemma SplitArrowsAt(s: string, j: nat)
    requires FindArrow(s) == Some(j)
    ensures SplitArrows(s) == [s[..j]] + SplitArrows(s[j + 2..])
    ensures s == s[..j] + "->" + s[j + 2..]
  {
  }

  /** Splitting at `->` and joining again gives the text back. */
  lemma {:induction false} SplitJoin(s: string)
    ensures JoinArrows(SplitArrows(s)) == s
    decreases |s|
  {
    match FindArrow(s)
    case None =>
    case Some(j) =>
      var rest := s[j + 2..];
      SplitJoin(rest);
      SplitArrowsAt(s, j);
      var parts := SplitArrows(s);
      assert parts[0] == s[..j];
      assert parts[1..] == SplitArrows(rest);
  }

  /** No piece of a split holds an arrow. */
  lemma {:induction false} SplitNoArrow(s: string)
    ensures forall i, p :: 0 <= i < |SplitArrows(s)| ==> !ArrowAt(SplitArrows(s)[i], p)
    decreases |s|
  {
    match FindArrow(s)
    case None =>
    case Some(j) =>
      var rest := s[j + 2..];
      SplitNoArrow(rest);
      NoArrowBefore(s, j);
      SplitArrowsAt(s, j);
      var parts := SplitArrows(s);
      forall i, p | 0 <= i < |parts| ensures !ArrowAt(parts[i], p) {
        if i > 0 {
          assert parts[i] == SplitArrows(rest)[i - 1];
        }
      }
  }

  // ---------------------------------------------------------------------
  // One line

  /** `tuple(map(int, words))`: the first word `int` rejects raises `ValueError`. */
  function PyInts(ws: seq<string>): (r: Result<seq<int>>)
    ensures r.Ok? ==> |r.value| == |ws|
    ensures r.Err? ==> r.error == ValueError
    decreases |ws|
  {
    if |ws| == 0 then Ok([])
    else
      var x :- PyInt(ws[0]);
      var xs :- PyInts(ws[1..]);
      Ok([x] + xs)
  }

  /** A state line ends the transitions of the previous state: `trans[cur] = curt`. */
  function Flush(r: Reader): (r': Reader)
    ensures r'.out == r.out && r'.cur == r.cur && r'.curt == (if r.cur.Some? then map[] else r.curt)
    ensures r'.trans == if r.cur.Some? then r.trans[r.cur.value := r.curt] else r.trans
  {
    if r.cur.Some? then r.(trans := r.trans[r.cur.value := r.curt], curt := map[]) else r
  }

  /** A line without `->`: `(q, o) = s.split()` (exactly two words, else `ValueError`),
      after `trans[cur] = curt` for the state it ends. */
  function StateStep(r: Reader, s: string): (r': Result<Reader>)
    ensures r'.Err? ==> r'.error == ValueError
    ensures r'.Ok? ==> r'.value.trans == Flush(r).trans && r'.value.curt == Flush(r).curt
    ensures r'.Ok? ==> r'.value.cur.Some? && r'.value.out.Keys == r.out.Keys + {r'.value.cur.value}
  {
    var r1 := Flush(r);
    var ws := SplitWords(s);
    if |ws| != 2 then Err(ValueError)
    else
      var q :- PyInt(ws[0]);
      var o :- PyInt(ws[1]);
      Ok(r1.(cur := Some(q), out := r1.out[q := o]))
  }

  /** A line with `->`: the label from the words before the first arrow, the target
      from the text between the first and the second arrow; `curt[a] = q`. */
  function EdgeStep(r: Reader, before: string, between: string): (r': Result<Reader>)
    ensures r'.Err? ==> r'.error == ValueError
    ensures r'.Ok? ==> r'.value.trans == r.trans && r'.value.out == r.out && r'.value.cur == r.cur
  {
    var q :- PyInt(between);
    var a :- PyInts(SplitWords(before));
    Ok(r.(curt := r.curt[a := q]))
  }

  /** Every state with a transition table, and the current state, has an output. */
  predicate Good(r: Reader)
  {
    && (r.cur.Some? ==> r.cur.value in r.out)
    && r.trans.Keys <= r.out.Keys
  }

  /** One line of the loop body: blank lines are skipped, a line without `->` is a
      state line, any other line a transition. */
  function Step(r: Reader, line: string): (r': Result<Reader>)
    ensures r'.Err? ==> r'.error == ValueError
  {
    var s := Strip(line);
    if s == "" then Ok(r)
    else
      var parts := SplitArrows(s);
      if |parts| == 1 then StateStep(r, Strip(parts[0]))
      else EdgeStep(r, parts[0], parts[1])
  }

  function ParseLines(r: Reader, lines: seq<string>): (r': Result<Reader>)
    ensures r'.Err? ==> r'.error == ValueError
    decreases |lines|
  {
    if |lines| == 0 then Ok(r)
    else
      var r1 :- Step(r, lines[0]);
      ParseLines(r1, lines[1..])
  }

  /** After the loop: `if cur is not None: trans[cur] = curt`. */
  function Finish(r: Reader): Dfa
  {
    var f := Flush(r);
    Dfa(f.trans, f.out)
  }

  /** `dfa_from_walnut(f)`: the header line is dropped with `next(f)`, which raises
      `StopIteration` on an empty file. */
  function DfaFromWalnut(lines: seq<string>): (r: Result<Dfa>)
  {
    if |lines| == 0 then Err(StopIteration)
    else
      var rd :- ParseLines(Start, lines[1..]);
      Ok(Finish(rd))
  }

  // ---------------------------------------------------------------------
  // What the reader keeps

  lemma StepGood(r: Reader, line: string)
    requires Good(r)
    ensures Step(r, line).Ok? ==> Good(Step(r, line).value)
  {
  }

  lemma {:induction false} ParseLinesGood(r: Reader, lines: seq<string>)
    requires Good(r)
    ensures ParseLines(r, lines).Ok? ==> Good(ParseLines(r, lines).value)
    decreases |lines|
  {
    if |lines| > 0 {
      StepGood(r, lines[0]);
      if Step(r, lines[0]).Ok? {
        ParseLinesGood(Step(r, lines[0]).value, lines[1..]);
      }
    }
  }

  /** Every state that has transitions also has an output; the file's first line is
      never read; only an empty file raises `StopIteration`, and otherwise the only
      failure is `ValueError`. */
  lemma DfaFromWalnutShape(lines: seq<string>)
    ensures DfaFromWalnut(lines).Ok? ==> DfaFromWalnut(lines).value.trans.Keys <= DfaFromWalnut(lines).value.out.Keys
    ensures DfaFromWalnut(lines).Err? ==> (DfaFromWalnut(lines).error == StopIteration <==> |lines| == 0)
    ensures DfaFromWalnut(lines).Err? && |lines| > 0 ==> DfaFromWalnut(lines).error == ValueError
    ensures |lines| > 0 ==> forall h :: DfaFromWalnut([h] + lines[1..]) == DfaFromWalnut(lines)
  {
    if |lines| > 0 {
      ParseLinesGood(Start, lines[1..]);
      forall h ensures DfaFromWalnut([h] + lines[1..]) == DfaFromWalnut(lines) {
        assert ([h] + lines[1..])[1..] == lines[1..];
      }
    }
  }

  /** Parsing two pieces of text one after the other. */
  lemma {:induction false} ParseLinesAppend(r: Reader, xs: seq<string>, ys: seq<string>)
    ensures ParseLines(r, xs + ys) ==
      match ParseLines(r, xs)
      case Ok(r1) => ParseLines(r1, ys)
      case Err(e) => Err(e)
    decreases |xs|
  {
    if |xs| > 0 {
      assert (xs + ys)[0] == xs[0];
      assert (xs + ys)[1..] == xs[1..] + ys;
      if Step(r, xs[0]).Ok? {
        ParseLinesAppend(Step(r, xs[0]).value, xs[1..], ys);
      }
    } else {
      assert xs + ys == ys;
    }
  }

  /** Blank lines may be added or removed anywhere without changing the result. */
  lemma BlankLine(r: Reader, xs: seq<string>, blank: string, ys: seq<string>)
    requires Strip(blank) == ""
    ensures ParseLines(r, xs + [blank] + ys) == ParseLines(r, xs + ys)
  {
    assert xs + [blank] + ys == xs + ([blank] + ys);
    ParseLinesAppend(r, xs, [blank] + ys);
    ParseLinesAppend(r, xs, ys);
    if ParseLines(r, xs).Ok? {
      BlankFirst(ParseLines(r, xs).value, blank, ys);
    }
  }

  lemma BlankFirst(r: Reader, blank: string, ys: seq<string>)
    requires Strip(blank) == ""
    ensures ParseLines(r, [blank] + ys) == ParseLines(r, ys)
  {
    assert ([blank] + ys)[0] == blank && ([blank] + ys)[1..] == ys;
    BlankStep(r, blank);
  }

  lemma BlankStep(r: Reader, blank: string)
    requires Strip(blank) == ""
    ensures Step(r, blank) == Ok(r)
  {
  }

  // ---------------------------------------------------------------------
  // Reading back what Walnut writes

  /** What a state block holds: the state, its output, and its transitions in file order. */
  datatype Block = Block(q: int, o: int, edges: seq<Entry>)

  function StateLine(q: int, o: int): string
  {
    IntToString(q) + " " + IntToString(o)
  }

  function BlockLines(b: Block): seq<string>
  {
    [StateLine(b.q, b.o)] + Export.EdgeLines(b.edges)
  }

  function Body(bs: seq<Block>): seq<string>
    decreases |bs|
  {
    if |bs| == 0 then [] else Body(bs[..|bs| - 1]) + BlockLines(bs[|bs| - 1])
  }

  /** A Walnut automaton file: a header line and the state blocks. */
  function Render(header: string, bs: seq<Block>): seq<string>
  {
    [header] + Body(bs)
  }

  /** `curt[a] = q` for every transition in order. */
  function Table(t: map<Tuple, int>, es: seq<Entry>): map<Tuple, int>
    decreases |es|
  {
    if |es| == 0 then t else Table(t[es[0].0 := es[0].1], es[1..])
  }

  /** The automaton the blocks describe: block after block, a repeated state takes the
      later block's output and table, a repeated label in a block the later target. */
  function Described(bs: seq<Block>): Dfa
    decreases |bs|
  {
    if |bs| == 0 then Dfa(map[], map[])
    else
      var d := Described(bs[..|bs| - 1]);
      var b := bs[|bs| - 1];
      Dfa(d.trans[b.q := Table(map[], b.edges)], d.out[b.q := b.o])
  }

  /** A label Walnut writes has at least one component. */
  predicate Labelled(bs: seq<Block>)
  {
    forall i :: 0 <= i < |bs| ==> LabelledBlock(bs[i])
  }

  predicate LabelledBlock(b: Block)
  {
    forall j :: 0 <= j < |b.edges| ==> |b.edges[j].0| > 0
  }

  predicate NoSpace(s: string)
  {
    forall j :: 0 <= j < |s| ==> !IsPySpace(s[j])
  }

  lemma IntToStringShape(i: int)
    ensures |IntToString(i)| > 0 && NoSpace(IntToString(i))
    ensures IsDigit(IntToString(i)[|IntToString(i)| - 1])
    ensures forall p :: !ArrowAt(IntToString(i), p)
  {
    var s := IntToString(i);
    if i < 0 {
      var u := NatToString(-i);
      assert forall j :: 1 <= j < |s| ==> s[j] == u[j - 1];
    }
  }

  lemma StripClean(s: string)
    requires |s| > 0 && !IsPySpace(s[0]) && !IsPySpace(s[|s| - 1])
    ensures Strip(s) == s
  {
  }

  lemma {:induction false} WordRunWord(w: string, rest: string)
    requires NoSpace(w)
    requires |rest| == 0 || IsPySpace(rest[0])
    ensures WordRun(w + rest) == |w|
    decreases |w|
  {
    if |w| > 0 {
      assert (w + rest)[1..] == w[1..] + rest;
      WordRunWord(w[1..], rest);
    } else {
      assert w + rest == rest;
    }
  }

  lemma LeadingSpaceWords(t: string)
    ensures SplitWords(" " + t) == SplitWords(t)
  {
    assert (" " + t)[1..] == t;
    assert LStrip(" " + t) == LStrip(t);
  }

  /** A word followed by a blank and more text. */
  lemma WordThenRest(w: string, t: string)
    requires |w| > 0 && NoSpace(w)
    ensures SplitWords(w + " " + t) == [w] + SplitWords(t)
  {
    var s := w + " " + t;
    assert s == w + (" " + t);
    WordRunWord(w, " " + t);
    assert LStrip(s) == s;
    assert s[..|w|] == w;
    assert s[|w|..] == " " + t;
    LeadingSpaceWords(t);
  }

  lemma PyIntsCons(w: string, ws: seq<string>)
    ensures PyInts([w] + ws) ==
      match PyInt(w)
      case Err(e) => Err(e)
      case Ok(x) =>
        match PyInts(ws)
        case Err(e) => Err(e)
        case Ok(xs) => Ok([x] + xs)
  {
    assert ([w] + ws)[0] == w;
    assert ([w] + ws)[1..] == ws;
  }

  /** A word `int` reads, then a blank, then more words. */
  lemma PyIntsWord(w: string, t: string, x: int, xs: seq<int>)
    requires |w| > 0 && NoSpace(w)
    requires PyInt(w) == Ok(x) && PyInts(SplitWords(t)) == Ok(xs)
    ensures PyInts(SplitWords(w + " " + t)) == Ok([x] + xs)
  {
    WordThenRest(w, t);
    PyIntsCons(w, SplitWords(t));
  }

  /** `int` reads the components of a label back from its `pretty` text. */
  lemma {:induction false} PrettyWords(v: seq<int>)
    requires |v| > 0
    ensures PyInts(SplitWords(Export.Pretty(v) + " ")) == Ok(v)
    decreases |v|
  {
    var w := IntToString(v[0]);
    IntToStringShape(v[0]);
    PyIntOfString(v[0]);
    var xs := v[1..];
    if |v| == 1 {
      NoWords();
      assert xs == [];
      assert Export.Pretty(v) + " " == w + " " + "";
      PyIntsWord(w, "", v[0], xs);
    } else {
      var tail := Export.Pretty(xs) + " ";
      Export.PrettyCons(v);
      PrettyWords(xs);
      Assoc(w + " ", Export.Pretty(xs), " ");
      PyIntsWord(w, tail, v[0], xs);
    }
    HeadTail(v);
  }

  lemma Assoc(x: string, y: string, z: string)
    ensures x + y + z == x + (y + z)
  {
  }

  lemma NoWords()
    ensures PyInts(SplitWords("")) == Ok([])
  {
    assert LStrip("") == "";
  }

  lemma HeadTail(v: seq<int>)
    requires |v| > 0
    ensures [v[0]] + v[1..] == v
  {
  }

  /** A word alone is read as itself. */
  lemma OneWord(w: string)
    requires |w| > 0 && NoSpace(w)
    ensures SplitWords(w) == [w]
  {
    WordRunWord(w, "");
    assert w + "" == w;
    assert LStrip(w) == w;
    assert w[..|w|] == w;
    assert w[|w|..] == "";
    assert LStrip("") == "";
  }

  /** Two texts without arrows, a blank between them: no arrow either. */
  lemma NoArrowAcross(a: string, b: string)
    requires forall p :: !ArrowAt(a, p)
    requires forall p :: !ArrowAt(b, p)
    ensures forall p :: !ArrowAt(a + " " + b, p)
  {
    var s := a + " " + b;
    forall p | 0 <= p && p + 1 < |s| ensures !ArrowAt(s, p) {
      if p + 1 < |a| {
        assert s[p] == a[p] && s[p + 1] == a[p + 1];
        assert !ArrowAt(a, p);
      } else if p + 1 == |a| {
        assert s[p + 1] == ' ';
      } else if p == |a| {
        assert s[p] == ' ';
      } else {
        assert s[p] == b[p - |a| - 1] && s[p + 1] == b[p - |a|];
        assert !ArrowAt(b, p - |a| - 1);
      }
    }
  }

  lemma StateLineParts(q: int, o: int)
    ensures Strip(StateLine(q, o)) == StateLine(q, o)
    ensures SplitArrows(StateLine(q, o)) == [StateLine(q, o)]
    ensures SplitWords(StateLine(q, o)) == [IntToString(q), IntToString(o)]
  {
    var s := StateLine(q, o);
    var a, b := IntToString(q), IntToString(o);
    IntToStringShape(q);
    IntToStringShape(o);
    assert s[0] == a[0] && s[|s| - 1] == b[|b| - 1];
    StripClean(s);
    NoArrowAcross(a, b);
    assert FindArrow(s).None?;
    TwoWords(a, b);
  }

  lemma TwoWords(a: string, b: string)
    requires |a| > 0 && NoSpace(a)
    requires |b| > 0 && NoSpace(b)
    ensures SplitWords(a + " " + b) == [a, b]
  {
    WordThenRest(a, b);
    OneWord(b);
    assert [a] + [b] == [a, b];
  }

  /** A state line flushes the previous state and starts `q` with output `o`. */
  lemma StateLineStep(r: Reader, q: int, o: int)
    ensures Step(r, StateLine(q, o)) == Ok(Flush(r).(cur := Some(q), out := r.out[q := o]))
  {
    var s := StateLine(q, o);
    StateLineParts(q, o);
    assert |s| > 0;
    StepWithoutArrow(r, s);
    PyIntOfString(q);
    PyIntOfString(o);
    StateStepReads(r, s, q, o);
  }

  lemma StepWithoutArrow(r: Reader, s: string)
    requires s != "" && Strip(s) == s && SplitArrows(s) == [s]
    ensures Step(r, s) == StateStep(r, s)
  {
  }

  lemma StateStepReads(r: Reader, s: string, q: int, o: int)
    requires SplitWords(s) == [IntToString(q), IntToString(o)]
    requires PyInt(IntToString(q)) == Ok(q) && PyInt(IntToString(o)) == Ok(o)
    ensures StateStep(r, s) == Ok(Flush(r).(cur := Some(q), out := r.out[q := o]))
  {
  }

  /** Where the arrow of a transition line sits. */
  lemma EdgeLineParts(e: Entry)
    requires |e.0| > 0
    ensures Strip(Export.EdgeLine(e)) == Export.EdgeLine(e)
    ensures SplitArrows(Export.EdgeLine(e)) == [Export.Pretty(e.0) + " ", " " + IntToString(e.1)]
  {
    var p := Export.Pretty(e.0);
    var d := IntToString(e.1);
    var s := Export.EdgeLine(e);
    assert s == (p + " ") + "->" + (" " + d);
    IntToStringShape(e.1);
    Export.PrettyNoGt(e.0);
    PrettyStart(e.0);
    assert s[0] == p[0];
    assert s[|s| - 1] == d[|d| - 1];
    StripClean(s);
    NoGtThenSpace(p);
    SpaceThenNoArrow(d);
    ArrowSplit(p + " ", " " + d);
  }

  /** Text without `>`, then a blank: no arrow. */
  lemma NoGtThenSpace(s: string)
    requires Export.NoGt(s)
    ensures forall k :: !ArrowAt(s + " ", k)
  {
    var t := s + " ";
    forall k | 0 <= k && k + 1 < |t| ensures !ArrowAt(t, k) {
      if k + 1 < |s| {
        assert t[k + 1] == s[k + 1];
      } else {
        assert t[k + 1] == ' ';
      }
    }
  }

  /** A blank, then text without an arrow: no arrow. */
  lemma SpaceThenNoArrow(d: string)
    requires forall k :: !ArrowAt(d, k)
    ensures forall k :: !ArrowAt(" " + d, k)
  {
    var t := " " + d;
    forall k | 0 <= k && k + 1 < |t| ensures !ArrowAt(t, k) {
      if k == 0 {
        assert t[0] == ' ';
      } else {
        assert t[k] == d[k - 1] && t[k + 1] == d[k];
        assert !ArrowAt(d, k - 1);
      }
    }
  }

  /** Two texts without arrows joined by one arrow split back into the two. */
  lemma ArrowSplit(x: string, y: string)
    requires forall k :: !ArrowAt(x, k)
    requires forall k :: !ArrowAt(y, k)
    ensures SplitArrows(x + "->" + y) == [x, y]
  {
    var t := x + "->" + y;
    var j := |x|;
    assert t[j] == '-' && t[j + 1] == '>';
    assert ArrowAt(t, j);
    forall k | 0 <= k < j ensures !ArrowAt(t, k) {
      if k + 1 < j {
        assert t[k] == x[k] && t[k + 1] == x[k + 1];
        assert !ArrowAt(x, k);
      } else {
        assert t[k + 1] == '-';
      }
    }
    var f := FindArrow(t);
    assert f.Some?;
    assert f.value == j;
    assert t[..j] == x;
    assert t[j + 2..] == y;
    assert SplitArrows(y) == [y];
    assert [x] + [y] == [x, y];
  }

  lemma PrettyStart(v: seq<int>)
    requires |v| > 0
    ensures |Export.Pretty(v)| > 0 && !IsPySpace(Export.Pretty(v)[0])
  {
    IntToStringShape(v[0]);
    if |v| > 1 {
      Export.PrettyCons(v);
    }
  }

  lemma StripLeadingSpace(t: string)
    ensures Strip(" " + t) == Strip(t)
  {
    assert (" " + t)[1..] == t;
  }

  lemma PyIntLeadingSpace(t: string)
    ensures PyInt(" " + t) == PyInt(t)
  {
    StripLeadingSpace(t);
  }

  lemma PyIntAfterSpace(i: int)
    ensures PyInt(" " + IntToString(i)) == Ok(i)
  {
    PyIntLeadingSpace(IntToString(i));
    PyIntOfString(i);
  }

  /** A transition line sets `curt[label] = target`. */
  lemma EdgeLineStep(r: Reader, e: Entry)
    requires |e.0| > 0
    ensures Step(r, Export.EdgeLine(e)) == Ok(r.(curt := r.curt[e.0 := e.1]))
  {
    var s := Export.EdgeLine(e);
    EdgeLineParts(e);
    PrettyStart(e.0);
    assert Strip(s) != "";
    PyIntAfterSpace(e.1);
    PrettyWords(e.0);
  }

  lemma {:induction false} EdgesStep(r: Reader, es: seq<Entry>)
    requires forall j :: 0 <= j < |es| ==> |es[j].0| > 0
    ensures ParseLines(r, Export.EdgeLines(es)) == Ok(r.(curt := Table(r.curt, es)))
    decreases |es|
  {
    if |es| > 0 {
      var ls := Export.EdgeLines(es);
      EdgeLineStep(r, es[0]);
      assert ls[0] == Export.EdgeLine(es[0]);
      assert ls[1..] == Export.EdgeLines(es[1..]);
      EdgesStep(r.(curt := r.curt[es[0].0 := es[0].1]), es[1..]);
    }
  }

  /** No transitions are pending outside a state: true at the start and after any state line. */
  predicate Settled(r: Reader)
  {
    r.cur.Some? || r.curt == map[]
  }

  lemma ParseOne(r: Reader, line: string, r1: Reader)
    requires Step(r, line) == Ok(r1)
    ensures ParseLines(r, [line]) == Ok(r1)
  {
    assert [line][1..] == [];
  }

  /** A block read after the previous ones. */
  lemma BlockStep(r: Reader, b: Block)
    requires Settled(r)
    requires LabelledBlock(b)
    ensures ParseLines(r, BlockLines(b)).Ok?
    ensures var r' := ParseLines(r, BlockLines(b)).value;
      Settled(r') && Finish(r') == Dfa(Finish(r).trans[b.q := Table(map[], b.edges)], r.out[b.q := b.o])
  {
    var line := StateLine(b.q, b.o);
    var r1 := Flush(r).(cur := Some(b.q), out := r.out[b.q := b.o]);
    assert r1.curt == map[];
    StateLineStep(r, b.q, b.o);
    ParseOne(r, line, r1);
    ParseLinesAppend(r, [line], Export.EdgeLines(b.edges));
    EdgesStep(r1, b.edges);
    var r' := r1.(curt := Table(map[], b.edges));
    assert ParseLines(r, BlockLines(b)) == Ok(r');
  }

  lemma LabelledParts(bs: seq<Block>)
    requires |bs| > 0 && Labelled(bs)
    ensures Labelled(bs[..|bs| - 1])
    ensures LabelledBlock(bs[|bs| - 1])
  {
    var init := bs[..|bs| - 1];
    assert forall i :: 0 <= i < |init| ==> init[i] == bs[i];
  }

  /** Reading the blocks leaves exactly the described automaton. */
  lemma {:induction false} BodyReads(bs: seq<Block>)
    requires Labelled(bs)
    ensures ParseLines(Start, Body(bs)).Ok?
    ensures Settled(ParseLines(Start, Body(bs)).value)
    ensures Finish(ParseLines(Start, Body(bs)).value) == Described(bs)
    decreases |bs|
  {
    if |bs| > 0 {
      var m := |bs| - 1;
      var init := bs[..m];
      LabelledParts(bs);
      BodyReads(init);
      ParseLinesAppend(Start, Body(init), BlockLines(bs[m]));
      var r := ParseLines(Start, Body(init)).value;
      BlockStep(r, bs[m]);
    }
  }

  /** Reading back a file laid out as Walnut writes it gives the automaton it describes,
      whatever the header. */
  lemma RenderRoundTrip(header: string, bs: seq<Block>)
    requires Labelled(bs)
    ensures DfaFromWalnut(Render(header, bs)) == Ok(Described(bs))
  {
    assert Render(header, bs)[1..] == Body(bs);
    BodyReads(bs);
  }

  // ---------------------------------------------------------------------
  // value

  /** The loop of `value`: `cur = trans[cur][a]` for each letter; a missing state or
      label is a `KeyError`. */
  function Run(trans: map<int, map<Tuple, int>>, q: int, w: seq<Tuple>): (r: Result<int>)
    ensures r.Err? ==> r.error == KeyError
    decreases |w|
  {
    if |w| == 0 then Ok(q)
    else if q !in trans || w[0] !in trans[q] then Err(KeyError)
    else Run(trans, trans[q][w[0]], w[1..])
  }

  /** `value(d, w)`: the output of the state reached from state 0. */
  function Value(d: Dfa, w: seq<Tuple>): (r: Result<int>)
    ensures r.Err? ==> r.error == KeyError
  {
    var q :- Run(d.trans, 0, w);
    if q in d.out then Ok(d.out[q]) else Err(KeyError)
  }

  /** Reading `u + v` is reading `u`, then `v` from where `u` ended. */
  lemma {:induction false} RunConcat(trans: map<int, map<Tuple, int>>, q: int, u: seq<Tuple>, v: seq<Tuple>)
    ensures Run(trans, q, u + v) ==
      match Run(trans, q, u)
      case Ok(p) => Run(trans, p, v)
      case Err(e) => Err(e)
    decreases |u|
  {
    if |u| == 0 {
      assert u + v == v;
    } else {
      assert (u + v)[0] == u[0];
      assert (u + v)[1..] == u[1..] + v;
      if q in trans && u[0] in trans[q] {
        RunConcat(trans, trans[q][u[0]], u[1..], v);
      }
    }
  }

  /** `value` on one more letter. */
  lemma ValueSnoc(d: Dfa, w: seq<Tuple>, a: Tuple)
    ensures Value(d, w + [a]) ==
      match Run(d.trans, 0, w)
      case Err(e) => Err(e)
      case Ok(p) =>
        if p in d.trans && a in d.trans[p] && d.trans[p][a] in d.out then Ok(d.out[d.trans[p][a]])
        else Err(KeyError)
  {
    RunConcat(d.trans, 0, w, [a]);
    if Run(d.trans, 0, w).Ok? {
      var p := Run(d.trans, 0, w).value;
      assert [a][1..] == [];
    }
  }

  // ---------------------------------------------------------------------
  // vvalue

  /** Python compares the pair `(x, y)` from `repair` with the tuple parsed from `x y`. */
  function Letters(ps: seq<(int, int)>): (w: seq<Tuple>)
    ensures |w| == |ps| && forall i :: 0 <= i < |ps| ==> w[i] == [ps[i].0, ps[i].1]
  {
    seq(|ps|, i requires 0 <= i < |ps| => [ps[i].0, ps[i].1])
  }

  /** `value(d, repair(k, n))`: the automaton's output on the pair word of `(k, n)`. */
  function PairValue(d: Dfa, k: int, n: int): (r: Result<int>)
    ensures r.Err? ==> r.error == IndexError || r.error == KeyError
  {
    var ps :- Repair(k, n);
    Value(d, Letters(ps))
  }

  /** The `z`-th term of a window: along `n` or along `k`. */
  function Term(d: Dfa, k: int, n: int, z: int, alongN: bool): Result<int>
  {
    if alongN then PairValue(d, k, n + z) else PairValue(d, k + z, n)
  }

  /** The `m` terms of a window, in loop order. */
  function Terms(d: Dfa, k: int, n: int, m: nat, alongN: bool): (ts: seq<Result<int>>)
    ensures |ts| == m && forall z :: 0 <= z < m ==> ts[z] == Term(d, k, n, z, alongN)
  {
    seq(m, z requires 0 <= z < m => Term(d, k, n, z, alongN))
  }

  /** `acc += t` for each term in order, the first failing term raising. */
  function SumAll(ts: seq<Result<int>>): Result<int>
    decreases |ts|
  {
    if |ts| == 0 then Ok(0)
    else
      var acc :- SumAll(ts[..|ts| - 1]);
      var v :- ts[|ts| - 1];
      Ok(acc + v)
  }

  /** Every term is defined. */
  predicate AllOk(ts: seq<Result<int>>)
  {
    forall i :: 0 <= i < |ts| ==> ts[i].Ok?
  }

  /** The plain sum of defined terms, first to last. */
  function Total(ts: seq<Result<int>>): int
    requires AllOk(ts)
    decreases |ts|
  {
    if |ts| == 0 then 0 else ts[0].value + Total(ts[1..])
  }

  /** `Σ_{z < m} value(d, repair(k, n + z))` (when `along_n`) or
      `Σ_{z < m} value(d, repair(k + z, n))` (otherwise), the first failing term raising. */
  function Window(d: Dfa, k: int, n: int, m: nat, alongN: bool): Result<int>
  {
    SumAll(Terms(d, k, n, m, alongN))
  }

  /** The value `vvalue(k, n)` is meant to be: `dx` terms of the first automaton along
      `n`, then `dy` terms of the second along `k` from column `n + dx`; a count that is
      not positive contributes no terms. */
  function VValueOf(ax: Dfa, ay: Dfa, dx: int, dy: int, k: int, n: int): Result<int>
  {
    Then(Window(ax, k, n, if dx > 0 then dx else 0, true), Window(ay, k, n + dx, if dy > 0 then dy else 0, false))
  }

  /** `x + y` where `x` is computed first, the first failure raising. */
  function Then(x: Result<int>, y: Result<int>): (r: Result<int>)
    ensures r.Ok? <==> x.Ok? && y.Ok?
    ensures r.Ok? ==> r.value == x.value + y.value
    ensures r.Err? ==> r.error == if x.Err? then x.error else y.error
  {
    if x.Err? then x else if y.Err? then y else Ok(x.value + y.value)
  }

  lemma SumAllSnoc(ts: seq<Result<int>>, i: nat)
    requires i < |ts|
    ensures SumAll(ts[..i + 1]) ==
      match SumAll(ts[..i])
      case Err(e) => Err(e)
      case Ok(acc) => if ts[i].Err? then Err(ts[i].error) else Ok(acc + ts[i].value)
  {
    assert ts[..i + 1][..i] == ts[..i];
  }

  /** Once a term fails, the whole sum fails with that term's error. */
  lemma {:induction false} SumAllFails(ts: seq<Result<int>>, i: nat, m: nat)
    requires i < m <= |ts|
    requires SumAll(ts[..i]).Ok? && ts[i].Err?
    ensures SumAll(ts[..m]) == Err(ts[i].error)
    decreases m
  {
    SumAllSnoc(ts, m - 1);
    if m - 1 > i {
      SumAllFails(ts, i, m - 1);
    }
  }

  /** One `for z in range(m): acc += term(z)` loop, from `acc == 0`, over the terms
      the loop would compute. */
  method SumTerms(ts: seq<Result<int>>) returns (r: Result<int>)
    ensures r == SumAll(ts)
  {
    var acc := 0;
    var z := 0;
    while z < |ts|
      invariant 0 <= z <= |ts|
      invariant SumAll(ts[..z]) == Ok(acc)
    {
      var v := ts[z];
      SumAllSnoc(ts, z);
      if v.Err? {
        SumAllFails(ts, z, |ts|);
        assert ts[..|ts|] == ts;
        return Err(v.error);
      }
      acc := acc + v.value;
      z := z + 1;
    }
    assert ts[..|ts|] == ts;
    return Ok(acc);
  }

  /** `vvalue(k, n)` with `args.dx`, `args.dy` and the automata read from
      `input_dx`, `input_dy` passed in. */
  method VValue(ax: Dfa, ay: Dfa, dx: int, dy: int, k: int, n: int) returns (r: Result<int>)
    ensures r == VValueOf(ax, ay, dx, dy, k, n)
  {
    var tx := Terms(ax, k, n, if dx > 0 then dx else 0, true);
    var ty := Terms(ay, k, n + dx, if dy > 0 then dy else 0, false);
    var sx := SumTerms(tx);
    var sy := SumTerms(ty);
    r := Then(sx, sy);
    WindowsThen(ax, ay, dx, dy, k, n, tx, ty, r);
  }

  lemma WindowsThen(ax: Dfa, ay: Dfa, dx: int, dy: int, k: int, n: int, tx: seq<Result<int>>, ty: seq<Result<int>>, r: Result<int>)
    requires tx == Terms(ax, k, n, if dx > 0 then dx else 0, true)
    requires ty == Terms(ay, k, n + dx, if dy > 0 then dy else 0, false)
    requires r == Then(SumAll(tx), SumAll(ty))
    ensures r == VValueOf(ax, ay, dx, dy, k, n)
  {
  }

  lemma {:induction false} TotalSnoc(ts: seq<Result<int>>, t: Result<int>)
    requires AllOk(ts) && t.Ok?
    ensures AllOk(ts + [t]) && Total(ts + [t]) == Total(ts) + t.value
    decreases |ts|
  {
    if |ts| == 0 {
      assert ts + [t] == [t];
    } else {
      assert (ts + [t])[1..] == ts[1..] + [t];
      TotalSnoc(ts[1..], t);
    }
  }

  /** The sum is defined exactly when every term is, and is then their plain sum. */
  lemma {:induction false} SumAllTotal(ts: seq<Result<int>>)
    ensures SumAll(ts).Ok? <==> AllOk(ts)
    ensures AllOk(ts) ==> SumAll(ts) == Ok(Total(ts))
    decreases |ts|
  {
    if |ts| > 0 {
      var m := |ts| - 1;
      var init := ts[..m];
      SumAllTotal(init);
      assert ts == init + [ts[m]];
      if AllOk(ts) {
        TotalSnoc(init, ts[m]);
      }
      if AllOk(init) && ts[m].Ok? {
        forall i | 0 <= i < |ts| ensures ts[i].Ok? {
          if i < m {
            assert ts[i] == init[i];
          }
        }
      }
    }
  }

  /** `vvalue(k, n)` is defined exactly when every term it adds is, and is then the
      plain sum of the `dx` terms along `n` and the `dy` terms along `k`. */
  lemma VValueSum(ax: Dfa, ay: Dfa, dx: int, dy: int, k: int, n: int, tx: seq<Result<int>>, ty: seq<Result<int>>)
    requires tx == Terms(ax, k, n, if dx > 0 then dx else 0, true)
    requires ty == Terms(ay, k, n + dx, if dy > 0 then dy else 0, false)
    ensures VValueOf(ax, ay, dx, dy, k, n).Ok? <==> AllOk(tx) && AllOk(ty)
    ensures AllOk(tx) && AllOk(ty) ==> VValueOf(ax, ay, dx, dy, k, n) == Ok(Total(tx) + Total(ty))
  {
    ThenTotal(tx, ty);
    WindowsThen(ax, ay, dx, dy, k, n, tx, ty, Then(SumAll(tx), SumAll(ty)));
  }

  lemma ThenTotal(tx: seq<Result<int>>, ty: seq<Result<int>>)
    ensures Then(SumAll(tx), SumAll(ty)).Ok? <==> AllOk(tx) && AllOk(ty)
    ensures AllOk(tx) && AllOk(ty) ==> Then(SumAll(tx), SumAll(ty)) == Ok(Total(tx) + Total(ty))
  {
    SumAllTotal(tx);
    SumAllTotal(ty);
  }

  /** With no positive count, `vvalue` is 0 whatever the automata. */
  lemma VValueEmpty(ax: Dfa, ay: Dfa, dx: int, dy: int, k: int, n: int)
    requires dx <= 0 && dy <= 0
    ensures VValueOf(ax, ay, dx, dy, k, n) == Ok(0)
  {
  }
}

=== FILE: rationals.dfy ===
/** Exact rationals as GMP's `mpq_class` keeps them: a numerator and a
    positive denominator with no common factor, so that every rational
    number has exactly one representation. */
module Rationals {
  import opened NumberTheory

  datatype Frac = Frac(num: int, den: int)

  predicate Canonical(f: Frac)
  {
    f.den > 0 && Gcd(Abs(f.num), f.den) == 1
  }

  type Rat = f: Frac | Canonical(f) witness Frac(0, 1)

  /** The real number a fraction denotes. */
  function ToReal(f: Frac): real
    requires f.den != 0
  {
    f.num as real / f.den as real
  }

  /** Reduction to lowest terms with a positive denominator (mpq_canonicalize). */
  function Normalize(n: int, d: int): (r: Rat)
    requires d != 0
    ensures r.num * d == n * r.den
    ensures (r.num == 0) == (n == 0)
    ensures (r.num > 0) == ((n > 0) == (d > 0) && n != 0)
  {
    GcdOfQuotients(Abs(n), Abs(d));
    var g := Gcd(Abs(n), Abs(d));
    var a := Abs(n) / g;
    var b := Abs(d) / g;
    DivMod(Abs(n), g);
    DivMod(Abs(d), g);
    GcdDivides(Abs(n), Abs(d));
    NormalizeValue(n, d, g, a, b);
    Frac(if (n < 0) == (d < 0) then a else -a, b)
  }

  lemma NormalizeValue(n: int, d: int, g: int, a: int, b: int)
    requires d != 0 && g > 0 && Abs(n) == g * a && Abs(d) == g * b && a >= 0 && b >= 0
    ensures b > 0
    ensures (if (n < 0) == (d < 0) then a else -a) * d == n * b
    ensures (a == 0) == (n == 0)
  {
    if a == 0 {
      assert Abs(n) == 0;
    } else {
      MulPositive(g, a);
    }
  }

  lemma CrossAbs(pn: int, pd: int, qn: int, qd: int)
    requires pd > 0 && qd > 0 && pn * qd == qn * pd
    ensures Abs(pn) * qd == pd * Abs(qn)
  {
    if pn < 0 {
      assert (-pn) * qd == -(pn * qd);
      assert pd * (-qn) == -(qn * pd);
    }
  }

  lemma DividesBoth(d1: int, d2: int, k1: int, k2: int)
    requires d1 > 0 && d2 > 0 && d2 == d1 * k1 && d1 == d2 * k2
    ensures d1 == d2
  {
    assert d1 * 1 == d1 * (k1 * k2);
    Cancel(d1, 1, k1 * k2);
    if k1 <= 0 { MulPositive(d1, 1 - k1); }
    UnitFactor(k1, k2);
  }

  /** One direction of Euclid's lemma in the shape `Unique` needs. */
  lemma DenDivides(pn: int, pd: int, qn: int, qd: int) returns (k: int)
    requires pd > 0 && qd > 0 && Gcd(Abs(pn), pd) == 1 && pn * qd == qn * pd
    ensures qd == pd * k
  {
    CrossAbs(pn, pd, qn, qd);
    Euclid(Abs(pn), pd, qd, Abs(qn));
    var c := Bezout(Abs(pn), pd);
    k := Abs(qn) * c.0 + qd * c.1;
  }

  /** Two canonical fractions that denote the same number are identical. */
  lemma Unique(p: Rat, q: Rat)
    requires p.num * q.den == q.num * p.den
    ensures p == q
  {
    var k1 := DenDivides(p.num, p.den, q.num, q.den);
    var k2 := DenDivides(q.num, q.den, p.num, p.den);
    DividesBoth(p.den, q.den, k1, k2);
    Cancel(p.den, p.num, q.num);
  }

  /** A canonical fraction is its own normal form. */
  lemma NormalizeCanonical(p: Rat, k: int)
    requires k > 0
    ensures Normalize(p.num * k, p.den * k) == p
  {
    var r := Normalize(p.num * k, p.den * k);
    assert r.num * (p.den * k) == (p.num * k) * r.den;
    assert (r.num * p.den) * k == (p.num * r.den) * k;
    Cancel(k, r.num * p.den, p.num * r.den);
    Unique(r, p);
  }

  lemma CastMul(a: int, b: int)
    ensures (a * b) as real == a as real * b as real
  {
  }

  lemma DivEq(a: real, b: real, c: real, d: real)
    requires b != 0.0 && d != 0.0 && a * d == c * b
    ensures a / b == c / d
  {
    assert a / b == (a * d) / (b * d);
    assert c / d == (c * b) / (d * b);
  }

  /** `Normalize(n, d)` denotes `n / d`. */
  lemma NormalizeReal(n: int, d: int)
    requires d != 0
    ensures ToReal(Normalize(n, d)) == n as real / d as real
  {
    var r := Normalize(n, d);
    CastMul(r.num, d);
    CastMul(n, r.den);
    DivEq(r.num as real, r.den as real, n as real, d as real);
  }

  /** Canonical fractions are equal exactly when they denote the same real. */
  lemma RealInjective(p: Rat, q: Rat)
    requires ToReal(p) == ToReal(q)
    ensures p == q
  {
    CastMul(p.num, q.den);
    CastMul(q.num, p.den);
    Unique(p, q);
  }

  const Zero: Rat := Frac(0, 1)
  const One: Rat := Frac(1, 1)

  /** The integer `v` as the rational `v/1`. */
  function FromInt(v: int): (r: Rat)
    ensures ToReal(r) == v as real
  {
    GcdWithOne(Abs(v));
    Frac(v, 1)
  }

  function Neg(a: Rat): (r: Rat)
    ensures ToReal(r) == -ToReal(a)
  {
    Frac(-a.num, a.den)
  }

  function Add(a: Rat, b: Rat): (r: Rat)
    ensures ToReal(r) == ToReal(a) + ToReal(b)
  {
    NormalizeReal(a.num * b.den + b.num * a.den, a.den * b.den);
    AddReal(a.num, a.den, b.num, b.den);
    Normalize(a.num * b.den + b.num * a.den, a.den * b.den)
  }

  lemma AddReal(an: int, ad: int, bn: int, bd: int)
    requires ad > 0 && bd > 0
    ensures (an * bd + bn * ad) as real / (ad * bd) as real
         == an as real / ad as real + bn as real / bd as real
  {
    CastMul(an, bd);
    CastMul(bn, ad);
    CastMul(ad, bd);
    var A, B, C, D := an as real, ad as real, bn as real, bd as real;
    assert (A * D + C * B) / (B * D) == A / B + C / D;
  }

  lemma SubReal(an: int, ad: int, bn: int, bd: int)
    requires ad > 0 && bd > 0
    ensures (an * bd - bn * ad) as real / (ad * bd) as real
         == an as real / ad as real - bn as real / bd as real
  {
    CastMul(an, bd);
    CastMul(bn, ad);
    CastMul(ad, bd);
    var A, B, C, D := an as real, ad as real, bn as real, bd as real;
    assert (A * D - C * B) / (B * D) == A / B - C / D;
  }

  lemma MulReal(an: int, ad: int, bn: int, bd: int)
    requires ad > 0 && bd > 0
    ensures (an * bn) as real / (ad * bd) as real
         == (an as real / ad as real) * (bn as real / bd as real)
  {
    CastMul(an, bn);
    CastMul(ad, bd);
    var A, B, C, D := an as real, ad as real, bn as real, bd as real;
    assert (A * C) / (B * D) == (A / B) * (C / D);
  }

  lemma DivReal(an: int, ad: int, bn: int, bd: int)
    requires ad > 0 && bd > 0 && bn != 0
    ensures (an * bd) as real / (ad * bn) as real
         == (an as real / ad as real) / (bn as real / bd as real)
  {
    CastMul(an, bd);
    CastMul(ad, bn);
    var A, B, C, D := an as real, ad as real, bn as real, bd as real;
    assert (A * D) / (B * C) == (A / B) / (C / D);
  }

  function Sub(a: Rat, b: Rat): (r: Rat)
    ensures ToReal(r) == ToReal(a) - ToReal(b)
  {
    NormalizeReal(a.num * b.den - b.num * a.den, a.den * b.den);
    SubReal(a.num, a.den, b.num, b.den);
    Normalize(a.num * b.den - b.num * a.den, a.den * b.den)
  }

  function Mul(a: Rat, b: Rat): (r: Rat)
    ensures ToReal(r) == ToReal(a) * ToReal(b)
  {
    NormalizeReal(a.num * b.num, a.den * b.den);
    MulReal(a.num, a.den, b.num, b.den);
    Normalize(a.num * b.num, a.den * b.den)
  }

  /** Division; like `mpq_div`, it must not be given a zero divisor. */
  function Div(a: Rat, b: Rat): (r: Rat)
    requires b.num != 0
    ensures ToReal(r) == ToReal(a) / ToReal(b)
  {
    NormalizeReal(a.num * b.den, a.den * b.num);
    DivReal(a.num, a.den, b.num, b.den);
    Normalize(a.num * b.den, a.den * b.num)
  }

  predicate Less(a: Rat, b: Rat)
  {
    a.num * b.den < b.num * a.den
  }

  lemma LessReal(a: Rat, b: Rat)
    ensures Less(a, b) <==> ToReal(a) < ToReal(b)
  {
    CastMul(a.num, b.den);
    CastMul(b.num, a.den);
    var A, B, C, D := a.num as real, a.den as real, b.num as real, b.den as real;
    var x, y := A / B, C / D;
    DivTimes(A, B);
    DivTimes(C, D);
    var p := B * D;
    ScaleBoth(x, B, D);
    ScaleBoth(y, D, B);
    assert D * B == p;
    ScaleLess(x, y, p);
  }

  lemma DivTimes(a: real, b: real)
    requires b > 0.0
    ensures a / b * b == a
  {
  }

  lemma ScaleBoth(x: real, b: real, d: real)
    requires b > 0.0 && d > 0.0
    ensures x * b * d == x * (b * d) && b * d > 0.0
  {
  }

  lemma ScaleLess(x: real, y: real, p: real)
    requires p > 0.0
    ensures x < y <==> x * p < y * p
  {
    if x < y {
      assert (y - x) * p > 0.0;
    } else {
      assert (x - y) * p >= 0.0;
    }
  }

  /** Zero has the single representation 0/1. */
  lemma ZeroIff(a: Rat)
    ensures a == Zero <==> a.num == 0
    ensures a == Zero <==> ToReal(a) == 0.0
  {
    if a.num == 0 {
      assert Gcd(0, a.den) == Gcd(a.den, 0);
    }
  }

  lemma ZeroReal()
    ensures ToReal(Zero) == 0.0 && ToReal(One) == 1.0
  {
  }

  /** Equal reals, equal rationals: the bridge every algebraic law below uses. */
  lemma SameReal(a: Rat, b: Rat)
    requires ToReal(a) == ToReal(b)
    ensures a == b
  {
    RealInjective(a, b);
  }
}

=== FILE: recipes.dfy ===
/** The automaton transformations of walnut.hh: `remap_labels`,
    `opposite_here`, `prefix_absorb` and `modify_transitions`. */
module Recipes {
  import opened Results
  import opened Rationals
  import opened Gmpq
  import opened Labels
  import opened Automata

  // ---------------------------------------------------------------------
  // opposite_here

  /** The vector with every entry negated. */
  function NegVec(v: Vec): (r: Vec)
    ensures |r| == |v| && forall i :: 0 <= i < |v| ==> r[i] == Neg(v[i])
  {
    seq(|v|, i requires 0 <= i < |v| => Neg(v[i]))
  }

  /** `opposite_here(A)`: every initial weight `n/d` becomes `-n/d`; nothing else changes. */
  function OppositeHere(a: Aut): (r: Aut)
    requires WellFormed(a)
    ensures WellFormed(r)
    ensures r.n == a.n && r.final == a.final && r.trans == a.trans
    ensures r.initial.Keys == a.initial.Keys
    ensures forall q :: ValueAt(r.initial, q) == Neg(ValueAt(a.initial, q))
  {
    var m := map q | q in a.initial :: Neg(a.initial[q]);
    forall q | q in m ensures m[q] != Zero {
      NegInvolution(a.initial[q]);
    }
    forall q ensures ValueAt(m, q) == Neg(ValueAt(a.initial, q)) {
      if q !in a.initial {
        NegInvolution(Zero);
      }
    }
    a.(initial := m)
  }

  /** Applying `opposite_here` twice restores the automaton. */
  lemma OppositeInvolution(a: Aut)
    requires WellFormed(a)
    ensures OppositeHere(OppositeHere(a)) == a
  {
    var r := OppositeHere(OppositeHere(a));
    forall q | q in a.initial ensures r.initial[q] == a.initial[q] {
      NegInvolution(a.initial[q]);
    }
  }

  lemma {:induction false} StepNeg(ts: seq<Transition>, v: Vec, a: int)
    requires Fits(ts, |v|)
    ensures Step(ts, NegVec(v), a) == NegVec(Step(ts, v, a))
  {
    if |ts| == 0 {
      NegZeros(|v|);
    } else {
      var init := ts[..|ts| - 1];
      StepNeg(init, v, a);
      var t := ts[|ts| - 1];
      if t.letter == a {
        var acc := Step(init, v, a);
        var nv := NegVec(v);
        var e := Add(acc[t.dst], Mul(v[t.src], t.weight));
        assert Step(ts, v, a) == acc[t.dst := e];
        assert Step(ts, nv, a) == NegVec(acc)[t.dst := Add(NegVec(acc)[t.dst], Mul(nv[t.src], t.weight))];
        assert nv[t.src] == Neg(v[t.src]) && NegVec(acc)[t.dst] == Neg(acc[t.dst]);
        NegStep(acc[t.dst], v[t.src], t.weight);
        assert Add(NegVec(acc)[t.dst], Mul(nv[t.src], t.weight)) == Neg(e);
        NegVecUpdate(acc, t.dst, e);
      } else {
        assert Step(ts, v, a) == Step(init, v, a);
        assert Step(ts, NegVec(v), a) == Step(init, NegVec(v), a);
      }
    }
  }

  lemma ZeroDeposit(w: Rat)
    ensures Add(Zero, Mul(Zero, w)) == Zero
  {
    MulZero(w);
    AddZero(Zero);
  }

  lemma UpdateSame(v: Vec, i: nat, x: Rat)
    requires i < |v| && v[i] == x
    ensures v[i := x] == v
  {
  }

  lemma NegVecUpdate(v: Vec, i: nat, x: Rat)
    requires i < |v|
    ensures NegVec(v)[i := Neg(x)] == NegVec(v[i := x])
  {
  }

  lemma NegZeros(n: nat)
    ensures NegVec(Zeros(n)) == Zeros(n)
  {
    NegInvolution(Zero);
  }

  lemma NegStep(x: Rat, y: Rat, w: Rat)
    ensures Add(Neg(x), Mul(Neg(y), w)) == Neg(Add(x, Mul(y, w)))
  {
    NegLaws(y, w);
    NegLaws(x, Mul(y, w));
  }

  lemma {:induction false} ForwardNeg(ts: seq<Transition>, v: Vec, w: seq<int>)
    requires Fits(ts, |v|)
    ensures Forward(ts, NegVec(v), w) == NegVec(Forward(ts, v, w))
    decreases |w|
  {
    if |w| > 0 {
      StepNeg(ts, v, w[0]);
      ForwardNeg(ts, Step(ts, v, w[0]), w[1..]);
    }
  }

  lemma {:induction false} DotNeg(u: Vec, v: Vec)
    requires |u| == |v|
    ensures Dot(NegVec(u), v) == Neg(Dot(u, v))
  {
    if |u| == 0 {
      NegLaws(Zero, Zero);
    } else {
      var n := |u| - 1;
      assert NegVec(u)[..n] == NegVec(u[..n]);
      DotNeg(u[..n], v[..n]);
      NegLaws(u[n], v[n]);
      NegLaws(Dot(u[..n], v[..n]), Mul(u[n], v[n]));
    }
  }

  /** The negated automaton gives every word the opposite weight. */
  lemma OppositeEval(a: Aut, w: seq<int>)
    requires WellFormed(a)
    ensures Eval(OppositeHere(a), w) == Neg(Eval(a, w))
  {
    var r := OppositeHere(a);
    assert Dense(r.initial, a.n) == NegVec(Dense(a.initial, a.n));
    ForwardNeg(a.trans, Dense(a.initial, a.n), w);
    DotNeg(Forward(a.trans, Dense(a.initial, a.n), w), Dense(a.final, a.n));
  }

  // ---------------------------------------------------------------------
  // prefix_absorb

  /** `prefix_absorb(A, u)`: the initial weights become the mass reached by reading
      `u` from the old initial weights (one `Step` per letter); states, transitions and
      final weights are kept. Zero masses are not stored, as `set_initial` drops them.
      The word is made of letters, so it never holds `Special`. */
  function PrefixAbsorb(a: Aut, u: seq<nat>): (r: Aut)
    requires WellFormed(a)
    ensures WellFormed(r)
    ensures r.n == a.n && r.final == a.final && r.trans == a.trans
    ensures forall q :: 0 <= q < a.n ==>
              ValueAt(r.initial, q) == Forward(a.trans, Dense(a.initial, a.n), u)[q]
  {
    a.(initial := Sparse(Forward(a.trans, Dense(a.initial, a.n), u)))
  }

  /** Absorbing the empty word changes nothing. */
  lemma PrefixAbsorbEmpty(a: Aut)
    requires WellFormed(a)
    ensures PrefixAbsorb(a, []) == a
  {
    SparseDense(a.initial, a.n);
  }

  /** The absorbed automaton weighs `w` as the original weighs `u + w`. */
  lemma PrefixAbsorbEval(a: Aut, u: seq<nat>, w: seq<nat>)
    requires WellFormed(a)
    ensures Eval(PrefixAbsorb(a, u), w) == Eval(a, u + w)
  {
    var v := Forward(a.trans, Dense(a.initial, a.n), u);
    DenseSparse(v);
    ForwardConcat(a.trans, Dense(a.initial, a.n), u, w);
  }

  /** Absorbing `u` and then `v` is absorbing `u + v`. */
  lemma PrefixAbsorbConcat(a: Aut, u: seq<nat>, v: seq<nat>)
    requires WellFormed(a)
    ensures PrefixAbsorb(PrefixAbsorb(a, u), v) == PrefixAbsorb(a, u + v)
  {
    var x := Forward(a.trans, Dense(a.initial, a.n), u);
    DenseSparse(x);
    ForwardConcat(a.trans, Dense(a.initial, a.n), u, v);
  }

  /** A letter of `u` that no transition carries leaves no initial weight at all. */
  lemma PrefixAbsorbNoMatch(a: Aut, u: seq<nat>, i: int)
    requires WellFormed(a) && 0 <= i < |u|
    requires forall j :: 0 <= j < |a.trans| ==> a.trans[j].letter != u[i]
    ensures PrefixAbsorb(a, u).initial == map[]
  {
    var v0 := Dense(a.initial, a.n);
    assert u == u[..i] + ([u[i]] + u[i + 1..]);
    ForwardConcat(a.trans, v0, u[..i], [u[i]] + u[i + 1..]);
    var vi := Forward(a.trans, v0, u[..i]);
    StepNoMatch(a.trans, vi, u[i]);
    ForwardZeros(a.trans, a.n, u[i + 1..]);
  }

  /** No mass stays no mass. */
  lemma {:induction false} ForwardZeros(ts: seq<Transition>, n: nat, w: seq<int>)
    requires Fits(ts, n)
    ensures Forward(ts, Zeros(n), w) == Zeros(n)
    decreases |w|
  {
    if |w| > 0 {
      StepZeros(ts, n, w[0]);
      ForwardZeros(ts, n, w[1..]);
    }
  }

  lemma {:induction false} StepZeros(ts: seq<Transition>, n: nat, a: int)
    requires Fits(ts, n)
    ensures Step(ts, Zeros(n), a) == Zeros(n)
  {
    if |ts| > 0 {
      var t := ts[|ts| - 1];
      var z := Zeros(n);
      StepZeros(ts[..|ts| - 1], n, a);
      if t.letter == a {
        var e := Add(z[t.dst], Mul(z[t.src], t.weight));
        assert Step(ts, z, a) == z[t.dst := e];
        assert z[t.src] == Zero && z[t.dst] == Zero;
        ZeroDeposit(t.weight);
        UpdateSame(z, t.dst, e);
      } else {
        assert Step(ts, z, a) == Step(ts[..|ts| - 1], z, a);
      }
    }
  }

  // ---------------------------------------------------------------------
  // remap_labels

  /** Every label of `ts` is a code of `al`. */
  predicate Coded(ts: seq<Transition>, al: Mapper)
  {
    forall i :: 0 <= i < |ts| ==> 0 <= ts[i].letter < Size(al)
  }

  /** `reorder(al[label])` for each transition, in order. */
  function Reordered(ts: seq<Transition>, al: Mapper, reorder: Tuple -> Tuple): (r: seq<Tuple>)
    requires Coded(ts, al)
    ensures |r| == |ts| && forall i :: 0 <= i < |ts| ==> r[i] == reorder(At(al, ts[i].letter))
  {
    seq(|ts|, i requires 0 <= i < |ts| => reorder(At(al, ts[i].letter)))
  }

  /** The transitions with their labels replaced by the codes `al2` gives the
      reordered tuples. */
  function Relabel(ts: seq<Transition>, al: Mapper, al2: Mapper, reorder: Tuple -> Tuple): (r: seq<Transition>)
    requires Coded(ts, al)
    requires forall i :: 0 <= i < |ts| ==> reorder(At(al, ts[i].letter)) in al2.toInt
    ensures |r| == |ts|
    ensures forall i :: 0 <= i < |ts| ==>
              r[i] == ts[i].(letter := al2.toInt[reorder(At(al, ts[i].letter))])
  {
    seq(|ts|, i requires 0 <= i < |ts| => ts[i].(letter := al2.toInt[reorder(At(al, ts[i].letter))]))
  }

  /** `remap_labels(A, al, reorder)`: a copy of `A` with the same states, initial
      and final weights, where each transition, in order, is added again with label
      `al.get(reorder(al[label]))`; transitions that end up with the same key merge.
      Returns the new automaton and the grown mapper. */
  function RemapLabels(a: Aut, al: Mapper, reorder: Tuple -> Tuple): (r: (Aut, Mapper))
    requires WellFormed(a) && Valid(al) && Coded(a.trans, al)
    ensures WellFormed(r.0)
    ensures r.0.n == a.n && r.0.initial == a.initial && r.0.final == a.final
    ensures Valid(r.1) && Grows(al, r.1)
    ensures r.1.toInt.Keys == al.toInt.Keys + set t | t in Reordered(a.trans, al, reorder)
    ensures forall i :: 0 <= i < |a.trans| ==> reorder(At(al, a.trans[i].letter)) in r.1.toInt
    ensures forall k :: Weight(r.0.trans, k) == Sum(Relabel(a.trans, al, r.1, reorder), k)
  {
    var ls := Reordered(a.trans, al, reorder);
    var al2 := InternAll(al, ls);
    assert forall i :: 0 <= i < |ls| ==> ls[i] in ls;
    var es := Relabel(a.trans, al, al2, reorder);
    AddAllEmpty(es, a.n);
    (a.(trans := AddAll([], es)), al2)
  }

  /** Remapping with the identity gives back the automaton and the mapper. */
  lemma RemapIdentity(a: Aut, al: Mapper)
    requires WellFormed(a) && Valid(al) && Coded(a.trans, al)
    ensures RemapLabels(a, al, t => t) == (a, al)
  {
    var id := (t: Tuple) => t;
    var ls := Reordered(a.trans, al, id);
    InternAllKnown(al, ls);
    var es := Relabel(a.trans, al, al, id);
    assert es == a.trans;
    assert [] + es == es;
    AddAllFresh([], es);
  }

  /** When `reorder` is one-to-one on the mapper's tuples (a permutation of the
      components, say), every transition keeps its weight under its new label. */
  lemma RemapWeights(a: Aut, al: Mapper, reorder: Tuple -> Tuple, i: int, src: nat, dst: nat)
    requires WellFormed(a) && Valid(al) && Coded(a.trans, al)
    requires forall c, c' :: 0 <= c < Size(al) && 0 <= c' < Size(al) && reorder(At(al, c)) == reorder(At(al, c')) ==> c == c'
    requires 0 <= i < |a.trans|
    ensures var (b, al2) := RemapLabels(a, al, reorder);
      Weight(b.trans, (src, al2.toInt[reorder(At(al, a.trans[i].letter))], dst))
        == Weight(a.trans, (src, a.trans[i].letter, dst))
  {
    var (b, al2) := RemapLabels(a, al, reorder);
    RelabelWeight(a.trans, al, al2, reorder, a.trans[i].letter, src, dst);
  }

  /** With `reorder` one-to-one on the codes of `al`, the relabelled transitions weigh
      under the new key of `(src, l, dst)` what the originals weigh under that key. */
  lemma RelabelWeight(ts: seq<Transition>, al: Mapper, al2: Mapper, reorder: Tuple -> Tuple, l: int, src: nat, dst: nat)
    requires NoDup(ts) && Coded(ts, al) && Valid(al2) && 0 <= l < Size(al)
    requires forall c, c' :: 0 <= c < Size(al) && 0 <= c' < Size(al) && reorder(At(al, c)) == reorder(At(al, c')) ==> c == c'
    requires forall i :: 0 <= i < |ts| ==> reorder(At(al, ts[i].letter)) in al2.toInt
    requires reorder(At(al, l)) in al2.toInt
    ensures Sum(Relabel(ts, al, al2, reorder), (src, al2.toInt[reorder(At(al, l))], dst)) == Weight(ts, (src, l, dst))
  {
    var es := Relabel(ts, al, al2, reorder);
    RelabelKeys(ts, al, al2, reorder, l, src, dst);
    SumMatch(es, ts, (src, al2.toInt[reorder(At(al, l))], dst), (src, l, dst));
    SumIsWeight(ts, (src, l, dst));
  }

  /** With `reorder` one-to-one on the codes of `al`, a relabelled transition has the
      new key of `(src, l, dst)` exactly when the original has that key. */
  lemma RelabelKeys(ts: seq<Transition>, al: Mapper, al2: Mapper, reorder: Tuple -> Tuple, l: int, src: nat, dst: nat)
    requires Coded(ts, al) && Valid(al2) && 0 <= l < Size(al)
    requires forall c, c' :: 0 <= c < Size(al) && 0 <= c' < Size(al) && reorder(At(al, c)) == reorder(At(al, c')) ==> c == c'
    requires forall i :: 0 <= i < |ts| ==> reorder(At(al, ts[i].letter)) in al2.toInt
    requires reorder(At(al, l)) in al2.toInt
    ensures var es := Relabel(ts, al, al2, reorder);
      forall j :: 0 <= j < |es| ==>
        (KeyOf(es[j]) == (src, al2.toInt[reorder(At(al, l))], dst) <==> KeyOf(ts[j]) == (src, l, dst))
  {
    var es := Relabel(ts, al, al2, reorder);
    forall j | 0 <= j < |es|
      ensures KeyOf(es[j]) == (src, al2.toInt[reorder(At(al, l))], dst) <==> KeyOf(ts[j]) == (src, l, dst)
    {
      CodesInjective(al2, reorder(At(al, ts[j].letter)), reorder(At(al, l)));
    }
  }

  // ---------------------------------------------------------------------
  // modify_transitions

  /** State `s` has an outgoing transition labelled `a`. */
  predicate OutLetter(ts: seq<Transition>, s: nat, a: int)
  {
    exists i :: 0 <= i < |ts| && ts[i].src == s && ts[i].letter == a
  }

  /** The weight `modify_transitions(A, z)` gives the key `(s, a, d)` of a state `s`:
      the `z` transitions of `s` count twice under `z`, once under each other label
      `s` had, and every other transition of `s` is gone. When `s` is final (`fin`),
      its transition to `post()` is one of the others, so the `z` transitions are
      also copied under the label `Special`. */
  function Modified(ts: seq<Transition>, z: int, s: nat, a: int, d: nat, fin: bool): Rat
  {
    var wz := Weight(ts, (s, z, d));
    if a == z then Add(wz, wz) else if OutLetter(ts, s, a) || (fin && a == Special) then wz else Zero
  }

  predicate Increasing(xs: seq<int>)
  {
    forall i, j :: 0 <= i < j < |xs| ==> xs[i] < xs[j]
  }

  /** `std::set::insert` on the set kept as an ascending sequence. */
  function InsertLetter(xs: seq<int>, x: int): (r: seq<int>)
    requires Increasing(xs)
    ensures Increasing(r)
    ensures forall y :: y in r <==> y in xs || y == x
  {
    if |xs| == 0 then [x]
    else if x == xs[0] then xs
    else if x < xs[0] then [x] + xs
    else
      var rest := InsertLetter(xs[1..], x);
      assert xs == [xs[0]] + xs[1..];
      assert forall j :: 0 <= j < |rest| ==> rest[j] in rest;
      [xs[0]] + rest
  }

  /** `qlab`: the labels of the removed transitions, and `z`, in ascending order. */
  function LabelSet(others: seq<Transition>, z: int): (r: seq<int>)
    ensures Increasing(r)
    ensures forall y :: y in r <==> y == z || exists i :: 0 <= i < |others| && others[i].letter == y
  {
    if |others| == 0 then [z]
    else
      var m := |others| - 1;
      var prev := LabelSet(others[..m], z);
      var r := InsertLetter(prev, others[m].letter);
      forall y ensures y in r <==> y == z || exists i :: 0 <= i < |others| && others[i].letter == y {
        if exists i :: 0 <= i < |others| && others[i].letter == y {
          var i :| 0 <= i < |others| && others[i].letter == y;
          if i < m {
            assert others[..m][i] == others[i];
          }
        }
        if exists i :: 0 <= i < m && others[..m][i].letter == y {
          var i :| 0 <= i < m && others[..m][i].letter == y;
          assert others[i].letter == y;
        }
      }
      r
  }

  /** The `z` transitions `zs` of state `q`, added again under label `a`. */
  function Block(q: nat, a: int, zs: seq<Transition>): (r: seq<Transition>)
    ensures |r| == |zs| && forall j :: 0 <= j < |zs| ==> r[j] == Transition(q, a, zs[j].dst, zs[j].weight)
  {
    seq(|zs|, j requires 0 <= j < |zs| => Transition(q, a, zs[j].dst, zs[j].weight))
  }

  /** One block per label of `labs`, in order. */
  function Blocks(q: nat, labs: seq<int>, zs: seq<Transition>, n: nat): (r: seq<Transition>)
    requires q < n && Fits(zs, n)
    ensures Fits(r, n)
  {
    if |labs| == 0 then []
    else
      var b := Block(q, labs[0], zs);
      var rest := Blocks(q, labs[1..], zs, n);
      assert forall i :: |b| <= i < |b| + |rest| ==> (b + rest)[i] == rest[i - |b|];
      b + rest
  }

  /** The transitions of state `q` labelled `z`. */
  predicate AllZ(zs: seq<Transition>, q: nat, z: int)
  {
    forall j :: 0 <= j < |zs| ==> zs[j].src == q && zs[j].letter == z
  }

  lemma SumBlock(q: nat, a: int, zs: seq<Transition>, z: int, s: nat, b: int, d: nat)
    requires AllZ(zs, q, z)
    ensures Sum(Block(q, a, zs), (s, b, d)) == if b == a then Sum(zs, (s, z, d)) else Zero
  {
    var bl := Block(q, a, zs);
    if b == a {
      SumMatch(bl, zs, (s, b, d), (s, z, d));
    } else {
      SumNoMatch(bl, (s, b, d));
    }
  }

  lemma {:induction false} SumBlocks(q: nat, labs: seq<int>, zs: seq<Transition>, n: nat, z: int, s: nat, b: int, d: nat)
    requires q < n && Fits(zs, n) && AllZ(zs, q, z) && Increasing(labs)
    ensures Sum(Blocks(q, labs, zs, n), (s, b, d)) == if b in labs then Sum(zs, (s, z, d)) else Zero
  {
    if |labs| > 0 {
      var k := (s, b, d);
      var bl := Block(q, labs[0], zs);
      var rest := Blocks(q, labs[1..], zs, n);
      var all := Sum(zs, (s, z, d));
      assert Blocks(q, labs, zs, n) == bl + rest;
      SumAppend(bl, rest, k);
      SumBlock(q, labs[0], zs, z, s, b, d);
      IncreasingTail(labs);
      SumBlocks(q, labs[1..], zs, n, z, s, b, d);
      InHeadOrTail(labs, b);
      if b == labs[0] {
        AddZero(all);
      } else if b in labs[1..] {
        AddZero(all);
      } else {
        AddZero(Zero);
      }
    }
  }

  lemma IncreasingTail(labs: seq<int>)
    requires |labs| > 0 && Increasing(labs)
    ensures Increasing(labs[1..])
  {
    var t := labs[1..];
    forall i, j | 0 <= i < j < |t| ensures t[i] < t[j] {
      assert t[i] == labs[i + 1] && t[j] == labs[j + 1];
    }
  }

  /** In an increasing sequence a value is the head or in the tail, never both. */
  lemma InHeadOrTail(labs: seq<int>, b: int)
    requires |labs| > 0 && Increasing(labs)
    ensures b in labs <==> b == labs[0] || b in labs[1..]
    ensures b in labs[1..] ==> b != labs[0]
  {
    var t := labs[1..];
    if b in t {
      var j :| 0 <= j < |t| && t[j] == b;
      assert labs[j + 1] == b;
    }
    if b in labs && b != labs[0] {
      var j :| 0 <= j < |labs| && labs[j] == b;
      assert t[j - 1] == b;
    }
  }

  /** `qlab` once the loop over `all_out(q)` is done: `z`, the labels of the other
      transitions of `q`, and `Special` when `q` is final. */
  function QLab(ts: seq<Transition>, q: nat, z: int, fin: bool): (r: seq<int>)
    ensures Increasing(r)
  {
    var labs := LabelSet(Keep(ts, IsOther(q, z)), z);
    if fin then InsertLetter(labs, Special) else labs
  }

  /** The key filters of the loop over `all_out(q)`: the `z` transitions are
      remembered, every other one is set to weight zero, which removes it. */
  function IsZ(q: nat, z: int): Key -> bool
  {
    (k: Key) => k.0 == q && k.1 == z
  }

  function IsOther(q: nat, z: int): Key -> bool
  {
    (k: Key) => k.0 == q && k.1 != z
  }

  function Survives(q: nat, z: int): Key -> bool
  {
    (k: Key) => !(k.0 == q && k.1 != z)
  }

  /** The body of the loop over states for state `q`: removes the non-`z`
      transitions of `q`, then adds every `z` transition of `q` again under each
      label of `qlab`, the labels ascending. The final weight of `q` is dropped
      by the caller. */
  function ModifyState(ts: seq<Transition>, q: nat, z: int, n: nat, fin: bool): (r: seq<Transition>)
    requires NoDup(ts) && NonZero(ts) && Fits(ts, n) && q < n
    ensures NoDup(r) && NonZero(r) && Fits(r, n)
  {
    var zs := Keep(ts, IsZ(q, z));
    var others := Keep(ts, IsOther(q, z));
    var kept := Keep(ts, Survives(q, z));
    KeepNoDup(ts, Survives(q, z));
    KeepFits(ts, IsZ(q, z), n);
    KeepFits(ts, Survives(q, z), n);
    var blocks := Blocks(q, QLab(ts, q, z, fin), zs, n);
    AddAllFits(kept, blocks, n);
    AddAll(kept, blocks)
  }

  /** Which labels `qlab` holds, in terms of the original transitions. */
  lemma LabelSetOfState(ts: seq<Transition>, q: nat, z: int, fin: bool, a: int)
    ensures a in QLab(ts, q, z, fin) <==> a == z || OutLetter(ts, q, a) || (fin && a == Special)
  {
    var others := Keep(ts, IsOther(q, z));
    if a != z && OutLetter(ts, q, a) {
      var i :| 0 <= i < |ts| && ts[i].src == q && ts[i].letter == a;
      assert IsOther(q, z)(KeyOf(ts[i]));
      var j :| 0 <= j < |others| && others[j] == ts[i];
    }
    if a != z && exists i :: 0 <= i < |others| && others[i].letter == a {
      var i :| 0 <= i < |others| && others[i].letter == a;
      assert others[i] in others;
      var j :| 0 <= j < |ts| && ts[j] == others[i];
    }
  }

  lemma ModifyStateWeight(ts: seq<Transition>, q: nat, z: int, n: nat, fin: bool, s: nat, a: int, d: nat)
    requires NoDup(ts) && NonZero(ts) && Fits(ts, n) && q < n
    ensures Weight(ModifyState(ts, q, z, n, fin), (s, a, d))
              == if s == q then Modified(ts, z, q, a, d, fin) else Weight(ts, (s, a, d))
  {
    var k := (s, a, d);
    var zs := Keep(ts, IsZ(q, z));
    var others := Keep(ts, IsOther(q, z));
    var kept := Keep(ts, Survives(q, z));
    KeepNoDup(ts, Survives(q, z));
    var labs := QLab(ts, q, z, fin);
    KeepFits(ts, IsZ(q, z), n);
    var blocks := Blocks(q, labs, zs, n);
    var w := Weight(ts, k);
    var wz := Weight(ts, (q, z, d));
    var wk := Weight(kept, k);
    var sz := Sum(zs, (s, z, d));
    var sb := Sum(blocks, k);
    assert Weight(ModifyState(ts, q, z, n, fin), k) == Add(wk, sb) by {
      AddAllWeight(kept, blocks, k);
    }
    assert wk == if s == q && a != z then Zero else w by {
      SumIsWeight(kept, k);
      SumKeep(ts, Survives(q, z), k);
      SumIsWeight(ts, k);
    }
    assert sz == if s == q then wz else Zero by {
      SumKeep(ts, IsZ(q, z), (s, z, d));
      SumIsWeight(ts, (s, z, d));
    }
    assert sb == if a in labs then sz else Zero by {
      assert AllZ(zs, q, z) by {
        forall j | 0 <= j < |zs| ensures zs[j].src == q && zs[j].letter == z {
          assert zs[j] in zs;
        }
      }
      SumBlocks(q, labs, zs, n, z, s, a, d);
    }
    LabelSetOfState(ts, q, z, fin, a);
    if s != q {
      AddZero(w);
    } else if a == z {
    } else {
      AddZero(sb);
    }
  }

  /** Lists that weigh every key of state `s` alike give it the same labels. */
  lemma OutLetterSame(ts: seq<Transition>, ts': seq<Transition>, s: nat, a: int)
    requires NoDup(ts) && NonZero(ts) && NoDup(ts') && NonZero(ts')
    requires forall d :: Weight(ts, (s, a, d)) == Weight(ts', (s, a, d))
    ensures OutLetter(ts, s, a) <==> OutLetter(ts', s, a)
  {
    if OutLetter(ts, s, a) {
      var i :| 0 <= i < |ts| && ts[i].src == s && ts[i].letter == a;
      WeightAt(ts, i);
      var f := Find(ts', KeyOf(ts[i]));
      assert f.Some?;
    }
    if OutLetter(ts', s, a) {
      var i :| 0 <= i < |ts'| && ts'[i].src == s && ts'[i].letter == a;
      WeightAt(ts', i);
      var f := Find(ts, KeyOf(ts'[i]));
      assert f.Some?;
    }
  }

  /** Processing one state leaves what `Modified` says about every other state as it was. */
  lemma ModifiedUntouched(ts: seq<Transition>, q: nat, z: int, n: nat, fin: bool, s: nat, a: int, d: nat, fs: bool)
    requires NoDup(ts) && NonZero(ts) && Fits(ts, n) && q < n && s != q
    ensures Modified(ModifyState(ts, q, z, n, fin), z, s, a, d, fs) == Modified(ts, z, s, a, d, fs)
  {
    var ts' := ModifyState(ts, q, z, n, fin);
    forall d' ensures Weight(ts, (s, a, d')) == Weight(ts', (s, a, d')) {
      ModifyStateWeight(ts, q, z, n, fin, s, a, d');
    }
    OutLetterSame(ts, ts', s, a);
    ModifyStateWeight(ts, q, z, n, fin, s, z, d);
  }

  /** What `modify_transitions(A, z)` leaves: every state's outgoing weights as
      `Modified` says of the original transitions, nothing else. */
  ghost predicate IsModified(a: Aut, z: int, r: Aut)
  {
    forall s: nat, b: int, d: nat ::
      Weight(r.trans, (s, b, d)) == if s < a.n then Modified(a.trans, z, s, b, d, s in a.final) else Weight(a.trans, (s, b, d))
  }

  /** `modify_transitions(A, z)`: the loop over the states `0, 1, ..., n - 1`, each
      processed in place. `all_out(q)` also yields the transition of `q` to `post()`,
      which carries the final weight and the label `Special`: it is not a `z`
      transition (`z` is a letter, a label code), so its weight is set to zero and
      `Special` joins `qlab`. Every final weight is gone afterwards; the states and
      the initial weights stay. */
  method ModifyTransitions(a: Aut, z: nat) returns (r: Aut)
    requires WellFormed(a)
    ensures WellFormed(r)
    ensures r.n == a.n && r.initial == a.initial && r.final == map[]
    ensures IsModified(a, z, r)
  {
    var n := a.n;
    var cur := a.trans;
    var q := 0;
    while q < n
      invariant q <= n
      invariant NoDup(cur) && NonZero(cur) && Fits(cur, n)
      invariant forall s: nat, b: int, d: nat ::
        Weight(cur, (s, b, d)) == if s < q then Modified(a.trans, z, s, b, d, s in a.final) else Weight(a.trans, (s, b, d))
      invariant forall s: nat, b: int, d: nat, fs: bool :: q <= s ==> Modified(cur, z, s, b, d, fs) == Modified(a.trans, z, s, b, d, fs)
    {
      var fin := q in a.final;
      var next := ModifyState(cur, q, z, n, fin);
      forall s: nat, b: int, d: nat
        ensures Weight(next, (s, b, d)) == if s < q + 1 then Modified(a.trans, z, s, b, d, s in a.final) else Weight(a.trans, (s, b, d))
      {
        ModifyStateWeight(cur, q, z, n, fin, s, b, d);
      }
      forall s: nat, b: int, d: nat, fs: bool | q + 1 <= s
        ensures Modified(next, z, s, b, d, fs) == Modified(a.trans, z, s, b, d, fs)
      {
        ModifiedUntouched(cur, q, z, n, fin, s, b, d, fs);
      }
      cur, q := next, q + 1;
    }
    r := Aut(n, a.initial, map[], cur);
  }

  /** A state without a `z` transition loses all its outgoing weight. */
  lemma ModifyWithoutZ(a: Aut, z: int, r: Aut, s: nat, b: int, d: nat)
    requires IsModified(a, z, r) && s < a.n
    requires forall d' :: Weight(a.trans, (s, z, d')) == Zero
    ensures Weight(r.trans, (s, b, d)) == Zero
  {
    assert Weight(r.trans, (s, b, d)) == Modified(a.trans, z, s, b, d, s in a.final);
    AddZero(Zero);
  }

  /** A final state's `z` transitions come back under the label `Special` of its
      transition to `post()`; a state that is not final gets no `Special` copies
      unless it already had a `Special` transition. */
  lemma ModifyFinalSpecial(a: Aut, z: nat, r: Aut, s: nat, d: nat)
    requires IsModified(a, z, r) && s < a.n
    ensures s in a.final ==> Weight(r.trans, (s, Special, d)) == Weight(a.trans, (s, z, d))
    ensures s !in a.final && !OutLetter(a.trans, s, Special) ==> Weight(r.trans, (s, Special, d)) == Zero
  {
    assert Weight(r.trans, (s, Special, d)) == Modified(a.trans, z, s, Special, d, s in a.final);
  }
}

=== FILE: results.dfy ===
/** Failure-carrying results shared by every module of the model.
    Each constructor of `Error` stands for one exception (C++ or Python)
    that the modelled code raises, or for undefined behaviour that the
    model turns into an explicit error. */
module Results {

  datatype Error =
    | DomainError(msg: string)      // std::domain_error
    | RuntimeError(msg: string)     // std::runtime_error
    | InvalidArgument               // std::invalid_argument raised by std::stoi
    | Malformed                     // a C++ extraction left a value indeterminate
    | AssertionFailure              // a failed C assert
    | NoFixedPoint                  // an iteration that did not settle within its fuel
    | IndexError                    // Python IndexError
    | KeyError                      // Python KeyError
    | ValueError                    // Python ValueError
    | StopIteration                 // Python StopIteration

  datatype Result<+T> = Ok(value: T) | Err(error: Error) {
    predicate IsFailure() { Err? }

    function PropagateFailure<U>(): Result<U>
      requires Err?
    {
      Err(error)
    }

    function Extract(): T
      requires Ok?
    {
      value
    }
  }

  datatype Option<+T> = None | Some(value: T)
}

=== FILE: text.dfy ===
/** Decimal rendering of integers and the integer scanners the modelled
    code relies on: C++ stream extraction (`>>` into an `int`), `std::stoi`,
    and Python's `int`, `str.strip`, `str.split`. */
module Text {
  import opened Results

  predicate IsDigit(c: char)
  {
    '0' <= c <= '9'
  }

  predicate AllDigits(s: string)
  {
    forall i :: 0 <= i < |s| ==> IsDigit(s[i])
  }

  function DigitChar(d: nat): (c: char)
    requires d < 10
    ensures IsDigit(c)
  {
    ['0', '1', '2', '3', '4', '5', '6', '7', '8', '9'][d]
  }

  function DigitValue(c: char): (d: nat)
    requires IsDigit(c)
    ensures d < 10
  {
    (c as int) - ('0' as int)
  }

  lemma DigitCharValue(d: nat)
    requires d < 10
    ensures DigitValue(DigitChar(d)) == d
  {
  }

  /** Decimal digits of `n`, most significant first, without leading zeros. */
  function NatToString(n: nat): (s: string)
    ensures |s| > 0 && AllDigits(s)
  {
    if n < 10 then [DigitChar(n)] else NatToString(n / 10) + [DigitChar(n % 10)]
  }

  /** Decimal text of `i`, with a leading `-` when it is negative (as `operator<<` prints it). */
  function IntToString(i: int): string
  {
    if i < 0 then "-" + NatToString(-i) else NatToString(i)
  }

  /** The number a run of decimal digits denotes. */
  function DigitsValue(s: string): nat
    requires AllDigits(s)
  {
    if |s| == 0 then 0 else DigitsValue(s[..|s| - 1]) * 10 + DigitValue(s[|s| - 1])
  }

  lemma {:induction false} DigitsOfNatToString(n: nat)
    ensures DigitsValue(NatToString(n)) == n
  {
    var s := NatToString(n);
    if n < 10 {
      DigitCharValue(n);
    } else {
      DigitsOfNatToString(n / 10);
      assert s[..|s| - 1] == NatToString(n / 10);
      DigitCharValue(n % 10);
    }
  }

  /** Length of the longest prefix of `s` made of decimal digits. */
  function DigitRun(s: string): (k: nat)
    ensures k <= |s|
    ensures AllDigits(s[..k])
    ensures k < |s| ==> !IsDigit(s[k])
  {
    if |s| > 0 && IsDigit(s[0]) then
      var k := 1 + DigitRun(s[1..]);
      assert s[..k] == [s[0]] + s[1..][..k - 1];
      k
    else 0
  }

  lemma {:induction false} DigitRunOfDigits(ds: string, rest: string)
    requires AllDigits(ds)
    requires |rest| == 0 || !IsDigit(rest[0])
    ensures DigitRun(ds + rest) == |ds|
  {
    if |ds| > 0 {
      assert (ds + rest)[1..] == ds[1..] + rest;
      DigitRunOfDigits(ds[1..], rest);
    } else {
      assert ds + rest == rest;
    }
  }

  // ---------------------------------------------------------------------
  // C++: stream extraction into an int, and std::stoi

  /** `isspace` in the "C" locale. */
  predicate IsCSpace(c: char)
  {
    c == ' ' || c == '\t' || c == '\n' || c == '\U{000B}' || c == '\U{000C}' || c == '\r'
  }

  function SkipCSpace(s: string): (t: string)
    ensures |t| <= |s| && t == s[|s| - |t|..]
    ensures |t| == 0 || !IsCSpace(t[0])
  {
    if |s| > 0 && IsCSpace(s[0]) then SkipCSpace(s[1..]) else s
  }

  /** Outcome of one `stream >> n` on an `int`: a value and the unread rest; a conversion
      failure (the value is set to 0 and the stream stops); or end of input reached before
      any field (the value is left untouched). */
  datatype Scan = Read(value: int, rest: string) | Failed | AtEnd

  /** An optional sign, then the digits; the flag is true for `-` and false when the text
      starts with `+` or with no sign. */
  function SplitSign(t: string): (bool, string)
  {
    if |t| > 0 && (t[0] == '-' || t[0] == '+') then (t[0] == '-', t[1..]) else (false, t)
  }

  /** `stream >> n` for an `int` in the default (decimal) base: leading white space is
      skipped, then an optional sign and a maximal run of digits are read. */
  function ExtractInt(s: string): (r: Scan)
    ensures r.Read? ==> |r.rest| < |s|
  {
    var t := SkipCSpace(s);
    if |t| == 0 then AtEnd
    else
      var p := SplitSign(t);
      ReadDigits(p.0, p.1)
  }

  /** The digits part of an extraction, once the sign (if any) is consumed. */
  function ReadDigits(neg: bool, u: string): (r: Scan)
    ensures r.Read? ==> |r.rest| < |u|
  {
    var k := DigitRun(u);
    if k == 0 then Failed
    else
      var m: int := DigitsValue(u[..k]);
      Read(if neg then -m else m, u[k..])
  }

  lemma ReadDigitsOf(neg: bool, ds: string, rest: string)
    requires |ds| > 0 && AllDigits(ds)
    requires |rest| == 0 || !IsDigit(rest[0])
    ensures ReadDigits(neg, ds + rest)
         == Read(if neg then -(DigitsValue(ds) as int) else DigitsValue(ds), rest)
  {
    var u := ds + rest;
    DigitRunOfDigits(ds, rest);
    var k := DigitRun(u);
    assert k == |ds|;
    assert u[..k] == ds;
    assert u[k..] == rest;
    var m: int := DigitsValue(ds);
    var r := ReadDigits(neg, u);
    assert r.Read?;
    assert r.rest == rest;
    assert r.value == (if neg then -m else m);
  }

  /** `while (ss >> v) out.push_back(v)`: every integer up to the first failure. */
  function ExtractInts(s: string): seq<int>
    decreases |s|
  {
    match ExtractInt(s)
    case Read(v, rest) => [v] + ExtractInts(rest)
    case _ => []
  }

  /** `std::stoi`: the same prefix grammar as `strtol` in base 10; no digits is an
      `invalid_argument` error. */
  function Stoi(s: string): (r: Result<int>)
    ensures r.Err? <==> !ExtractInt(s).Read?
    ensures r.Err? ==> r.error == InvalidArgument
    ensures r.Ok? ==> r.value == ExtractInt(s).value
  {
    match ExtractInt(s)
    case Read(v, _) => Ok(v)
    case _ => Err(InvalidArgument)
  }

  lemma ExtractUnsigned(ds: string, rest: string)
    requires |ds| > 0 && AllDigits(ds)
    requires |rest| == 0 || !IsDigit(rest[0])
    ensures ExtractInt(ds + rest) == ReadDigits(false, ds + rest)
  {
    var t := ds + rest;
    assert SkipCSpace(t) == t;
    assert SplitSign(t) == (false, t);
  }

  lemma ExtractNegative(u: string)
    ensures ExtractInt("-" + u) == ReadDigits(true, u)
  {
    var t := "-" + u;
    assert SkipCSpace(t) == t;
    assert t[1..] == u;
    assert SplitSign(t) == (true, u);
  }

  lemma ExtractNatString(n: nat, rest: string)
    requires |rest| == 0 || !IsDigit(rest[0])
    ensures ExtractInt(NatToString(n) + rest) == Read(n, rest)
  {
    var ds := NatToString(n);
    DigitsOfNatToString(n);
    ExtractUnsigned(ds, rest);
    ReadDigitsOf(false, ds, rest);
  }

  lemma ExtractNegString(n: nat, rest: string)
    requires n > 0
    requires |rest| == 0 || !IsDigit(rest[0])
    ensures var r := ExtractInt("-" + (NatToString(n) + rest));
      r.Read? && r.value == -(n as int) && r.rest == rest
  {
    var ds := NatToString(n);
    DigitsOfNatToString(n);
    ExtractNegative(ds + rest);
    ReadDigitsOf(true, ds, rest);
    var r := ExtractInt("-" + (ds + rest));
    assert r.Read? && r.rest == rest;
    assert r.value == -(n as int);
  }

  /** `>>` reads back what `IntToString` writes, stopping at the first non-digit. */
  lemma ExtractIntOfString(i: int, rest: string)
    requires |rest| == 0 || !IsDigit(rest[0])
    ensures ExtractInt(IntToString(i) + rest) == Read(i, rest)
  {
    if i < 0 {
      var n: nat := -i;
      var u := NatToString(n) + rest;
      assert IntToString(i) + rest == "-" + u;
      ExtractNegString(n, rest);
    } else {
      ExtractNatString(i, rest);
    }
  }

  /** A leading character that is neither space, sign nor digit fails the read. */
  lemma ExtractIntFails(s: string)
    requires |s| > 0 && !IsCSpace(s[0]) && !IsDigit(s[0]) && s[0] != '-' && s[0] != '+'
    ensures ExtractInt(s) == Failed
  {
    assert SkipCSpace(s) == s;
    assert SplitSign(s) == (false, s);
    assert DigitRun(s) == 0;
  }

  /** Leading blanks do not change what `>>` reads. */
  lemma ExtractIntAfterSpace(s: string)
    ensures ExtractInt(" " + s) == ExtractInt(s)
  {
    assert (" " + s)[1..] == s;
  }

  /** The same for any one white-space character `b`. */
  lemma ExtractIntAfterBlank(b: string, s: string)
    requires |b| == 1 && IsCSpace(b[0])
    ensures ExtractInt(b + s) == ExtractInt(s)
  {
    assert (b + s)[1..] == s;
    assert SkipCSpace(b + s) == SkipCSpace(s);
  }

  /** Any run of white space before the field is skipped. */
  lemma {:induction false} ExtractIntAfterBlanks(b: string, s: string)
    requires forall k :: 0 <= k < |b| ==> IsCSpace(b[k])
    ensures ExtractInt(b + s) == ExtractInt(s)
  {
    if |b| > 0 {
      ExtractIntAfterBlanks(b[1..], s);
      assert b + s == b[..1] + (b[1..] + s);
      ExtractIntAfterBlank(b[..1], b[1..] + s);
    } else {
      assert b + s == s;
    }
  }

  /** `std::stoi` reads the decimal text of any integer after leading white space, and
      ignores whatever follows the digits. */
  lemma StoiOfString(b: string, i: int, rest: string)
    requires forall k :: 0 <= k < |b| ==> IsCSpace(b[k])
    requires |rest| == 0 || !IsDigit(rest[0])
    ensures Stoi(b + IntToString(i) + rest) == Ok(i)
  {
    assert b + IntToString(i) + rest == b + (IntToString(i) + rest);
    ExtractIntAfterBlanks(b, IntToString(i) + rest);
    ExtractIntOfString(i, rest);
  }

  /** `std::stoi` throws `invalid_argument` when, after the white space, the text is
      empty, starts with neither sign nor digit, or has a sign not followed by a digit. */
  lemma StoiFails(b: string, t: string)
    requires forall k :: 0 <= k < |b| ==> IsCSpace(b[k])
    requires || |t| == 0
             || (!IsCSpace(t[0]) && !IsDigit(t[0]) && t[0] != '-' && t[0] != '+')
             || ((t[0] == '-' || t[0] == '+') && (|t| == 1 || !IsDigit(t[1])))
    ensures Stoi(b + t) == Err(InvalidArgument)
  {
    ExtractIntAfterBlanks(b, t);
    if |t| == 0 {
      assert SkipCSpace(t) == t;
    } else if t[0] == '-' || t[0] == '+' {
      ExtractSignFails(t);
    } else {
      ExtractIntFails(t);
    }
  }

  /** A sign with no digit after it fails the read. */
  lemma ExtractSignFails(t: string)
    requires |t| > 0 && (t[0] == '-' || t[0] == '+') && (|t| == 1 || !IsDigit(t[1]))
    ensures ExtractInt(t) == Failed
  {
    assert SkipCSpace(t) == t;
    assert SplitSign(t).1 == t[1..];
    assert DigitRun(t[1..]) == 0;
  }

  // ---------------------------------------------------------------------
  // Python: str.strip(), str.split() and int()

  /** Characters Python's `str.isspace` accepts. */
  predicate IsPySpace(c: char)
  {
    c == ' ' || ('\t' <= c <= '\r') || ('\U{001C}' <= c <= '\U{001F}') || c == '\U{0085}'
    || c == '\U{00A0}' || c == '\U{1680}' || ('\U{2000}' <= c <= '\U{200A}')
    || c == '\U{2028}' || c == '\U{2029}' || c == '\U{202F}' || c == '\U{205F}' || c == '\U{3000}'
  }

  function LStrip(s: string): (t: string)
    ensures |t| <= |s| && t == s[|s| - |t|..]
    ensures |t| == 0 || !IsPySpace(t[0])
  {
    if |s| > 0 && IsPySpace(s[0]) then LStrip(s[1..]) else s
  }

  function RStrip(s: string): (t: string)
    ensures |t| <= |s| && t == s[..|t|]
    ensures |t| == 0 || !IsPySpace(t[|t| - 1])
  {
    if |s| > 0 && IsPySpace(s[|s| - 1]) then RStrip(s[..|s| - 1]) else s
  }

  /** `s.strip()` */
  function Strip(s: string): string
  {
    RStrip(LStrip(s))
  }

  /** Length of the longest prefix of `s` without white space. */
  function WordRun(s: string): (k: nat)
    ensures k <= |s|
    ensures forall i :: 0 <= i < k ==> !IsPySpace(s[i])
    ensures k < |s| ==> IsPySpace(s[k])
  {
    if |s| > 0 && !IsPySpace(s[0]) then 1 + WordRun(s[1..]) else 0
  }

  /** `s.split()`: the maximal runs of non-white-space characters, in order. */
  function SplitWords(s: string): (ws: seq<string>)
    ensures forall i :: 0 <= i < |ws| ==> |ws[i]| > 0
    decreases |s|
  {
    var t := LStrip(s);
    if |t| == 0 then []
    else
      var k := WordRun(t);
      [t[..k]] + SplitWords(t[k..])
  }

  /** `int(s)` for a string: surrounding white space, an optional sign, then decimal
      digits only; anything else is a `ValueError`. */
  function PyInt(s: string): (r: Result<int>)
    ensures r.Ok? ==> Strip(s) != []
  {
    var t := Strip(s);
    var (neg, u) := SplitSign(t);
    if |u| > 0 && AllDigits(u) then
      var m: int := DigitsValue(u);
      Ok(if neg then -m else m)
    else Err(ValueError)
  }

  lemma StripOfDigits(i: int)
    ensures Strip(IntToString(i)) == IntToString(i)
  {
    var s := IntToString(i);
    assert !IsPySpace(s[0]);
    assert !IsPySpace(s[|s| - 1]);
  }

  /** Python's `int` reads back what `IntToString` writes. */
  lemma PyIntOfString(i: int)
    ensures PyInt(IntToString(i)) == Ok(i)
  {
    StripOfDigits(i);
    DigitsOfNatToString(if i < 0 then -i else i);
    if i < 0 {
      assert IntToString(i)[1..] == NatToString(-i);
    }
  }

  /** The two characters at `j` spell `->`. */
  predicate ArrowAt(s: string, j: int)
  {
    0 <= j && j + 1 < |s| && s[j] == '-' && s[j + 1] == '>'
  }

  /** Index of the first occurrence of `"->"` in `s`, if any (`std::string::find`). */
  function FindArrow(s: string): (r: Option<nat>)
    ensures r.Some? ==> ArrowAt(s, r.value)
    ensures r.Some? ==> forall j :: 0 <= j < r.value ==> !ArrowAt(s, j)
    ensures r.None? ==> forall j :: !ArrowAt(s, j)
  {
    if |s| < 2 then None
    else if ArrowAt(s, 0) then Some(0)
    else
      match FindArrow(s[1..])
      case None =>
        assert forall j :: ArrowAt(s, j) ==> j == 0 || ArrowAt(s[1..], j - 1);
        None
      case Some(k) =>
        assert forall j :: ArrowAt(s, j) ==> j == 0 || ArrowAt(s[1..], j - 1);
        Some(k + 1)
  }
}

=== FILE: tribonacci.dfy ===
/** Tribonacci numeration as the picture scripts `drawtri.py` and
    `drawvectortri.py` use it: the place values `trins`, the value `val` of a
    digit list, the greedy representation `repr`, and `repair`, which writes two
    numbers as one word of digit pairs. */
module Tribonacci {
  import opened Results

  /** The place values 1, 2, 4, 7, 13, 24, ...: each one after the third is the sum of
      the three before it. */
  function Trib(i: nat): nat
  {
    if i == 0 then 1
    else if i == 1 then 2
    else if i == 2 then 4
    else Trib(i - 3) + Trib(i - 2) + Trib(i - 1)
  }

  /** How many place values the scripts compute. */
  const Count: nat := 100

  lemma {:induction false} TribStep(i: nat)
    ensures Trib(i) < Trib(i + 1)
    ensures i >= 1 ==> Trib(i) <= 2 * Trib(i - 1)
  {
    if i >= 3 {
      TribStep(i - 1);
      TribStep(i - 2);
    }
  }

  /** The place values grow strictly. */
  lemma {:induction false} TribIncreasing(i: nat, j: nat)
    requires i < j
    ensures Trib(i) < Trib(j)
    decreases j - i
  {
    TribStep(i);
    if i + 1 < j {
      TribIncreasing(i + 1, j);
    }
  }

  lemma TribMonotone(i: nat, j: nat)
    requires i <= j
    ensures Trib(i) <= Trib(j)
  {
    if i < j {
      TribIncreasing(i, j);
    }
  }

  /** The loop that fills `trins`: `Count` rounds from the window `(1, 2, 4)`, each
      appending the window's first entry and moving it to `(y, z, x + y + z)`. The
      list starts 1, 2, 4 and its entries are the place values. */
  method Trins() returns (t: seq<int>)
    ensures |t| == Count
    ensures t[0] == 1 && t[1] == 2 && t[2] == 4
    ensures TribList(t)
  {
    var x, y, z := 1, 2, 4;
    t := [];
    while |t| < Count
      invariant |t| <= Count && TribList(t)
      invariant x == Trib(|t|) && y == Trib(|t| + 1) && z == Trib(|t| + 2)
    {
      TribListAppend(t, x);
      t := t + [x];
      x, y, z := y, z, x + y + z;
    }
  }

  /** `t` lists the first `|t|` place values. */
  predicate TribList(t: seq<int>)
  {
    forall j {:trigger t[j]} :: 0 <= j < |t| ==> t[j] == Trib(j)
  }

  lemma TribListAppend(t: seq<int>, x: int)
    requires TribList(t) && x == Trib(|t|)
    ensures TribList(t + [x])
  {
  }

  /** A list of the first place values, such as `trins`, obeys the recurrence and is
      strictly increasing. */
  lemma TribPrefix(t: seq<int>)
    requires TribList(t)
    ensures forall i :: 3 <= i < |t| ==> t[i] == t[i - 3] + t[i - 2] + t[i - 1]
    ensures forall i, j :: 0 <= i < j < |t| ==> t[i] < t[j]
  {
    forall i, j | 0 <= i < j < |t| ensures t[i] < t[j] {
      TribIncreasing(i, j);
    }
  }

  // ---------------------------------------------------------------------
  // val

  function Min(a: int, b: int): int
  {
    if a <= b then a else b
  }

  /** The first `k` products of `zip(reversed(l), trins)`: the last `k` digits of `l`,
      each times its place value (`trins[i]` is `Trib(i)`, as `Trins` shows). */
  function Weighed(l: seq<int>, k: nat): int
    requires k <= |l| && k <= Count
  {
    if k == 0 then 0
    else Weighed(l, k - 1) + l[|l| - k] * Trib(k - 1)
  }

  /** `val(l)`: `zip` stops at the shorter list, so only the last `Count` digits count. */
  function Val(l: seq<int>): int
  {
    Weighed(l, Min(|l|, Count))
  }

  lemma {:induction false} WeighedCons(b: int, l: seq<int>, k: nat)
    requires k <= |l| && k <= Count
    ensures Weighed([b] + l, k) == Weighed(l, k)
  {
    if k > 0 {
      WeighedCons(b, l, k - 1);
      assert ([b] + l)[|l| + 1 - k] == l[|l| - k];
    }
  }

  /** A leading zero does not change the value. */
  lemma LeadingZero(l: seq<int>)
    ensures Val([0] + l) == Val(l)
  {
    var k := Min(|l|, Count);
    WeighedCons(0, l, k);
    if |l| < Count {
      assert ([0] + l)[0] == 0;
    }
  }

  function Zeros(m: nat): (z: seq<int>)
    ensures |z| == m && forall i :: 0 <= i < m ==> z[i] == 0
  {
    seq(m, _ => 0)
  }

  /** Left padding with zeros does not change the value. */
  lemma {:induction false} ZerosPadding(m: nat, l: seq<int>)
    ensures Val(Zeros(m) + l) == Val(l)
    decreases m
  {
    if m > 0 {
      var z := Zeros(m - 1) + l;
      var padded := Zeros(m) + l;
      assert padded == [0] + z by {
        assert |padded| == |[0] + z|;
        forall i | 0 <= i < |padded| ensures padded[i] == ([0] + z)[i] {
        }
      }
      LeadingZero(z);
      ZerosPadding(m - 1, l);
    } else {
      assert Zeros(m) + l == l;
    }
  }

  /** The value of a list of at most `Count` digits, leading digit first. */
  lemma ValCons(b: int, l: seq<int>)
    requires |l| < Count
    ensures Val([b] + l) == b * Trib(|l|) + Val(l)
  {
    WeighedCons(b, l, |l|);
    assert ([b] + l)[0] == b;
  }

  // ---------------------------------------------------------------------
  // repr

  /** The `while trins[idx+1] <= n` loop, from `idx` on; reaching `trins[Count]` is an
      `IndexError`. */
  function Index(n: int, idx: nat): (r: Result<nat>)
    requires idx < Count
    requires idx == 0 || Trib(idx) <= n
    ensures r.Ok? ==> idx <= r.value < Count - 1
    ensures r.Ok? ==> r.value == 0 || Trib(r.value) <= n
    ensures r.Ok? ==> n < Trib(r.value + 1)
    ensures r.Err? ==> r.error == IndexError && Trib(Count - 1) <= n
    decreases Count - idx
  {
    if idx + 1 >= Count then Err(IndexError)
    else if Trib(idx + 1) <= n then Index(n, idx + 1)
    else Ok(idx)
  }

  /** The greedy loop over `reversed(trins[:k])`: take each place value that still fits. */
  function Digits(cur: int, k: nat): (r: seq<int>)
    requires k <= Count
    ensures |r| == k
    ensures forall i :: 0 <= i < k ==> r[i] == 0 || r[i] == 1
  {
    if k == 0 then []
    else if cur >= Trib(k - 1) then [1] + Digits(cur - Trib(k - 1), k - 1)
    else [0] + Digits(cur, k - 1)
  }

  /** `repr(n)`: the greedy representation over place values up to the largest one not
      above `n`. */
  function Repr(n: int): (r: Result<seq<int>>)
  {
    var idx :- Index(n, 0);
    Ok(Digits(n, idx + 1))
  }

  /** The greedy digits of `0 <= cur < trins[k]` spell `cur`. */
  lemma {:induction false} DigitsValue(cur: int, k: nat)
    requires k < Count && 0 <= cur < Trib(k)
    ensures Val(Digits(cur, k)) == cur
    decreases k
  {
    if k > 0 {
      var t := Trib(k - 1);
      if cur >= t {
        TribStep(k - 1);
        DigitsValue(cur - t, k - 1);
        ValCons(1, Digits(cur - t, k - 1));
      } else {
        DigitsValue(cur, k - 1);
        ValCons(0, Digits(cur, k - 1));
      }
    }
  }

  /** `repr(n)` raises `IndexError` exactly from `trins[99]` on; otherwise its digits are
      0 and 1, it is `[0]` for `n <= 0`, and for `n >= 1` it has one digit per place value
      up to the largest one not above `n`, the first being 1. */
  lemma ReprShape(n: int)
    ensures Repr(n).Ok? <==> n < Trib(Count - 1)
    ensures Repr(n).Err? ==> Repr(n).error == IndexError
    ensures Repr(n).Ok? ==> forall i :: 0 <= i < |Repr(n).value| ==> Repr(n).value[i] == 0 || Repr(n).value[i] == 1
    ensures Repr(n).Ok? && n <= 0 ==> Repr(n).value == [0]
    ensures Repr(n).Ok? && n >= 1 ==>
      var l := Repr(n).value;
      && 0 < |l| < Count
      && Trib(|l| - 1) <= n < Trib(|l|)
      && l[0] == 1
  {
    match Index(n, 0)
    case Err(_) =>
    case Ok(idx) =>
      TribMonotone(idx + 1, Count - 1);
      var l := Digits(n, idx + 1);
      if n <= 0 {
        TribStep(0);
        if idx > 0 {
          TribIncreasing(0, idx);
        }
        assert l == [0] + Digits(n, 0);
      } else if idx > 0 {
        assert l[0] == 1;
      } else {
        assert l == [1] + Digits(n - 1, 0);
      }
  }

  /** `val(repr(n)) == n` on the whole range where `repr` does not raise. */
  lemma ReprRoundTrip(n: int)
    requires 0 <= n < Trib(Count - 1)
    ensures Repr(n).Ok? && Val(Repr(n).value) == n
  {
    ReprShape(n);
    var idx := Index(n, 0).value;
    DigitsValue(n, idx + 1);
  }

  // ---------------------------------------------------------------------
  // repair

  /** `[0] * (m - |l|) + l` when `l` is shorter than `m`. */
  function PadTo(l: seq<int>, m: nat): (r: seq<int>)
    ensures |l| <= m ==> r == Zeros(m - |l|) + l
    ensures |l| > m ==> r == l
  {
    if |l| < m then Zeros(m - |l|) + l else l
  }

  function Max(a: int, b: int): int
  {
    if a >= b then a else b
  }

  /** `list(zip(a, b))`, which stops at the shorter list. */
  function Zip(a: seq<int>, b: seq<int>): (r: seq<(int, int)>)
    ensures |r| == Min(|a|, |b|)
    ensures forall i :: 0 <= i < |r| ==> r[i] == (a[i], b[i])
  {
    seq(Min(|a|, |b|), i requires 0 <= i < Min(|a|, |b|) => (a[i], b[i]))
  }

  function Firsts(r: seq<(int, int)>): (f: seq<int>)
    ensures |f| == |r| && forall i :: 0 <= i < |r| ==> f[i] == r[i].0
  {
    seq(|r|, i requires 0 <= i < |r| => r[i].0)
  }

  function Seconds(r: seq<(int, int)>): (s: seq<int>)
    ensures |s| == |r| && forall i :: 0 <= i < |r| ==> s[i] == r[i].1
  {
    seq(|r|, i requires 0 <= i < |r| => r[i].1)
  }

  /** `repair(k, n)`: both representations, the shorter left-padded with zeros to the
      length of the longer, zipped into one word of digit pairs. */
  function Repair(k: int, n: int): (r: Result<seq<(int, int)>>)
  {
    var rk :- Repr(k);
    var rn :- Repr(n);
    var m := Max(|rk|, |rn|);
    Ok(Zip(PadTo(rk, m), PadTo(rn, m)))
  }

  /** Zipping two lists padded to a common length and unzipping again gives the
      padded lists back. */
  lemma UnzipPadded(a: seq<int>, b: seq<int>)
    ensures var m := Max(|a|, |b|);
      var r := Zip(PadTo(a, m), PadTo(b, m));
      && |r| == m
      && Firsts(r) == Zeros(m - |a|) + a
      && Seconds(r) == Zeros(m - |b|) + b
  {
    var m := Max(|a|, |b|);
    var pa, pb := PadTo(a, m), PadTo(b, m);
    assert |pa| == m && |pb| == m;
    UnzipZip(pa, pb);
  }

  /** Unzipping undoes zipping two lists of one length. */
  lemma UnzipZip(a: seq<int>, b: seq<int>)
    requires |a| == |b|
    ensures Firsts(Zip(a, b)) == a && Seconds(Zip(a, b)) == b
  {
    var r := Zip(a, b);
    assert forall i :: 0 <= i < |a| ==> Firsts(r)[i] == a[i];
    assert forall i :: 0 <= i < |b| ==> Seconds(r)[i] == b[i];
  }

  /** `repair` raises exactly when one of the two `repr` calls does; otherwise the
      pairs are as long as the longer representation, and unzipping them gives each
      representation left-padded with zeros. */
  lemma RepairShape(k: int, n: int)
    ensures Repair(k, n).Ok? <==> Repr(k).Ok? && Repr(n).Ok?
    ensures Repair(k, n).Err? ==> Repair(k, n).error == IndexError
    ensures Repair(k, n).Ok? ==>
      var rk := Repr(k).value;
      var rn := Repr(n).value;
      var r := Repair(k, n).value;
      && |r| == Max(|rk|, |rn|)
      && Firsts(r) == Zeros(|r| - |rk|) + rk
      && Seconds(r) == Zeros(|r| - |rn|) + rn
  {
    ReprShape(k);
    ReprShape(n);
    if Repr(k).Ok? && Repr(n).Ok? {
      UnzipPadded(Repr(k).value, Repr(n).value);
    }
  }

  /** Unzipping `repair(k, n)` and taking `val` of each half gives back `k` and `n`. */
  lemma RepairRoundTrip(k: int, n: int)
    requires 0 <= k < Trib(Count - 1) && 0 <= n < Trib(Count - 1)
    ensures Repair(k, n).Ok?
    ensures Val(Firsts(Repair(k, n).value)) == k && Val(Seconds(Repair(k, n).value)) == n
  {
    RepairShape(k, n);
    ReprRoundTrip(k);
    ReprRoundTrip(n);
    var rk := Repr(k).value;
    var rn := Repr(n).value;
    var r := Repair(k, n).value;
    ZerosPadding(|r| - |rk|, rk);
    ZerosPadding(|r| - |rn|, rn);
  }
}

=== FILE: walnut_parser.dfy ===
/** `dfa_from_walnut` (walnut.hh): reads a Walnut DFA text, line by line, into
    per-state transition tables, per-state outputs and a label mapper.
    The file is given as its sequence of lines. */
module WalnutParser {
  import opened Results
  import opened Text
  import opened Lex
  import opened Labels

  /** Everything the parse loop keeps: the three output arguments and the
      two loop variables `current_state` and `current_trans`. */
  datatype Reader = Reader(
    trans: seq<seq<Entry>>,
    out: seq<int>,
    mapper: Mapper,
    current: int,
    table: seq<Entry>)

  /** Every label seen so far, stored or pending, has a code. */
  predicate Interned(r: Reader)
  {
    (forall q, i :: 0 <= q < |r.trans| && 0 <= i < |r.trans[q]| ==> r.trans[q][i].0 in r.mapper.toInt)
    && (forall i :: 0 <= i < |r.table| ==> r.table[i].0 in r.mapper.toInt)
  }

  /** The state the loop keeps between lines. */
  predicate Good(r: Reader)
  {
    Valid(r.mapper)
    && (forall q :: 0 <= q < |r.trans| ==> Sorted(r.trans[q]))
    && Sorted(r.table)
    && -1 <= r.current
    && (r.current != -1 ==> r.current < |r.trans| && r.current < |r.out|)
    && Interned(r)
  }

  /** Nothing shrinks from one line to the next. */
  predicate Extends(r: Reader, r': Reader)
  {
    |r.trans| <= |r'.trans| && |r.out| <= |r'.out| && r.mapper.toInt.Keys <= r'.mapper.toInt.Keys
  }

  /** `v.resize(n)` when `n` is larger than the size: pads with `fill`. */
  function Grow<T>(v: seq<T>, n: nat, fill: T): (r: seq<T>)
    ensures |r| == if n <= |v| then |v| else n
    ensures r[..|v|] == v
    ensures forall i :: |v| <= i < |r| ==> r[i] == fill
  {
    if n <= |v| then v else v + seq(n - |v|, _ => fill)
  }

  /** `trans[current_state] = current_trans`, when there is a current state. */
  function Flush(r: Reader): (r': Reader)
    requires Good(r)
    ensures Good(r')
    ensures |r'.trans| == |r.trans| && r'.out == r.out && r'.mapper == r.mapper
    ensures r.current != -1 ==> r'.trans[r.current] == r.table
    ensures forall q :: 0 <= q < |r.trans| && q != r.current ==> r'.trans[q] == r.trans[q]
  {
    if r.current != -1 then r.(trans := r.trans[r.current := r.table]) else r
  }

  /** `st_line >> q >> o`: the state number must be read (and be a valid index);
      a second field that is not a number reads as 0 and a missing one leaves `o`
      unset, which the model rejects. */
  function StateFields(line: string): (r: Result<(nat, int)>)
    ensures !(ExtractInt(line).Read? && ExtractInt(line).value >= 0) ==> r == Err(Malformed)
    ensures r.Ok? ==> ExtractInt(line).Read? && r.value.0 == ExtractInt(line).value
    ensures r.Ok? ==> !ExtractInt(ExtractInt(line).rest).AtEnd?
  {
    var first := ExtractInt(line);
    if !first.Read? || first.value < 0 then Err(Malformed)
    else
      var q: nat := first.value;
      var second := ExtractInt(first.rest);
      if second.AtEnd? then Err(Malformed)
      else if second.Read? then Ok((q, second.value))
      else Ok((q, 0))
  }

  /** A state line for state `q` with output `o`: stores the pending table, makes
      `q` current with an empty table, and grows `out` and `trans` to `q + 1` entries,
      padding with zero outputs and empty tables. */
  function StartState(r: Reader, q: nat, o: int): (r': Reader)
    requires Good(r)
    ensures Good(r')
    ensures r'.current == q && r'.table == [] && r'.mapper == r.mapper
    ensures |r'.out| == (if q < |r.out| then |r.out| else q + 1)
    ensures |r'.trans| == (if q < |r.trans| then |r.trans| else q + 1)
    ensures r'.out[q] == o
    ensures forall p :: 0 <= p < |r'.out| && p != q ==> r'.out[p] == if p < |r.out| then r.out[p] else 0
    ensures r.current != -1 && r.current != q ==> r'.trans[r.current] == r.table
    ensures forall p :: 0 <= p < |r'.trans| && p != r.current ==> r'.trans[p] == if p < |r.trans| then r.trans[p] else []
  {
    var f := Flush(r);
    var out := Grow(f.out, q + 1, 0);
    var trans := Grow(f.trans, q + 1, []);
    assert forall p :: 0 <= p < |r.trans| ==> trans[p] == f.trans[p];
    Reader(trans, out[q := o], f.mapper, q, [])
  }

  /** The state line `q o` is read as the state `q` with output `o`. */
  lemma StateFieldsOfText(q: nat, o: int)
    ensures StateFields(IntToString(q) + " " + IntToString(o)) == Ok((q, o))
  {
    FieldsAround(q, o, " ");
  }

  lemma FieldsAround(q: nat, o: int, b: string)
    requires |b| == 1 && b[0] == ' '
    ensures StateFields(IntToString(q) + b + IntToString(o)) == Ok((q, o))
  {
    var m := IntToString(o);
    var line := IntToString(q) + b + m;
    assert ExtractInt(line) == Read(q, b + m) by {
      assert line == IntToString(q) + (b + m);
      ExtractIntOfString(q, b + m);
    }
    assert ExtractInt(b + m) == Read(o, []) by {
      ExtractIntAfterBlank(b, m);
      ExtractIntOfString(o, []);
      assert m + [] == m;
    }
    FieldsRead(line, q, o, b + m);
  }

  /** Two successful reads, the second one reaching the end of the line. */
  lemma FieldsRead(line: string, q: nat, o: int, rest: string)
    requires ExtractInt(line) == Read(q, rest) && ExtractInt(rest) == Read(o, [])
    ensures StateFields(line) == Ok((q, o))
  {
  }

  /** A line without `->` declares a state. */
  function StateLine(r: Reader, line: string): (r': Result<Reader>)
    requires Good(r)
    ensures r'.Ok? <==> StateFields(line).Ok?
    ensures !(ExtractInt(line).Read? && ExtractInt(line).value >= 0) ==> r' == Err(Malformed)
    ensures r'.Ok? ==> r'.value.current == ExtractInt(line).value && r'.value.table == []
    ensures r'.Ok? ==> r'.value == StartState(r, StateFields(line).value.0, StateFields(line).value.1)
  {
    match StateFields(line)
    case Err(e) => Err(e)
    case Ok((q, o)) => Ok(StartState(r, q, o))
  }

  /** Reading the state line `q o` starts state `q` with output `o`. */
  lemma StateLineOfText(r: Reader, q: nat, o: int)
    requires Good(r)
    ensures StateLine(r, IntToString(q) + " " + IntToString(o)) == Ok(StartState(r, q, o))
  {
    StateFieldsOfText(q, o);
  }

  /** A line with `->`: the integers before the arrow form the label, `std::stoi`
      reads the target after it; the label is mapped to the target in the pending
      table (overwriting an earlier entry) and interned. */
  function ArrowLine(r: Reader, line: string, pos: nat): (r': Result<Reader>)
    requires Good(r) && ArrowAt(line, pos)
    ensures r'.Ok? ==> Good(r'.value)
    ensures r'.Ok? <==> Stoi(line[pos + 2..]).Ok?
    ensures r'.Ok? ==>
      var tuple := ExtractInts(line[..pos]);
      && r'.value.table == Put(r.table, tuple, Stoi(line[pos + 2..]).value)
      && r'.value.mapper == Get(r.mapper, tuple).0
      && r'.value.trans == r.trans && r'.value.out == r.out && r'.value.current == r.current
  {
    var tuple := ExtractInts(line[..pos]);
    match Stoi(line[pos + 2..])
    case Err(e) => Err(e)
    case Ok(target) =>
      var m := Get(r.mapper, tuple).0;
      var table := Put(r.table, tuple, target);
      assert forall k :: k in Keys(table) ==> k in m.toInt;
      Ok(r.(table := table, mapper := m))
  }

  /** One loop iteration: empty lines are skipped, the first `->` decides the kind. */
  function ParseLine(r: Reader, line: string): (r': Result<Reader>)
    requires Good(r)
    ensures r'.Ok? ==> Good(r'.value) && Extends(r, r'.value)
    ensures line == "" ==> r' == Ok(r)
  {
    if line == "" then Ok(r)
    else
      match FindArrow(line)
      case None => StateLine(r, line)
      case Some(pos) => ArrowLine(r, line, pos)
  }

  function ParseLines(r: Reader, lines: seq<string>): (r': Result<Reader>)
    requires Good(r)
    ensures r'.Ok? ==> Good(r'.value) && Extends(r, r'.value)
    decreases |lines|
  {
    if |lines| == 0 then Ok(r)
    else
      var r1 :- ParseLine(r, lines[0]);
      ParseLines(r1, lines[1..])
  }

  /** `dfa_from_walnut(lines, trans, out, label_mapper)`: skips the header line,
      parses the rest, then stores the last state's table. */
  function DfaFromWalnut(lines: seq<string>, trans: seq<seq<Entry>>, out: seq<int>, mapper: Mapper)
    : (r: Result<(seq<seq<Entry>>, seq<int>, Mapper)>)
    requires Valid(mapper)
    requires forall q :: 0 <= q < |trans| ==> Sorted(trans[q])
    requires forall q, i :: 0 <= q < |trans| && 0 <= i < |trans[q]| ==> trans[q][i].0 in mapper.toInt
    ensures r.Ok? ==> var (t, o, m) := r.value;
      && Valid(m)
      && (forall q :: 0 <= q < |t| ==> Sorted(t[q]))
      && (forall q, i :: 0 <= q < |t| && 0 <= i < |t[q]| ==> t[q][i].0 in m.toInt)
      && |trans| <= |t| && |out| <= |o|
      && mapper.toInt.Keys <= m.toInt.Keys
    ensures |lines| == 0 ==> r == Ok((trans, out, mapper))
    ensures |lines| > 0 ==>
      var p := ParseLines(Reader(trans, out, mapper, -1, []), lines[1..]);
      && (r.Ok? <==> p.Ok?)
      && (p.Ok? ==> r.value == (Flush(p.value).trans, Flush(p.value).out, Flush(p.value).mapper))
      && (p.Ok? && p.value.current != -1 ==> r.value.0[p.value.current] == p.value.table)
  {
    var start := Reader(trans, out, mapper, -1, []);
    if |lines| == 0 then Ok((trans, out, mapper))
    else
      var r :- ParseLines(start, lines[1..]);
      var f := Flush(r);
      Ok((f.trans, f.out, f.mapper))
  }

  /** The header line is read and thrown away: whatever it says, the result is the same. */
  lemma HeaderIgnored(lines: seq<string>, h: string, trans: seq<seq<Entry>>, out: seq<int>, mapper: Mapper)
    requires |lines| > 0
    requires Valid(mapper)
    requires forall q :: 0 <= q < |trans| ==> Sorted(trans[q])
    requires forall q, i :: 0 <= q < |trans| && 0 <= i < |trans[q]| ==> trans[q][i].0 in mapper.toInt
    ensures DfaFromWalnut([h] + lines[1..], trans, out, mapper) == DfaFromWalnut(lines, trans, out, mapper)
  {
    assert ([h] + lines[1..])[1..] == lines[1..];
  }
}
